=== FILE: README.md ===
# Recurring income schedules of the budget tracker

This project models the recurring-payment core of the budget tracker.

- **Payment calculator** (`PaymentCalculator`). It finds the next payment date of an income source for each frequency: weekly, bi-weekly (a weekday within a chosen week of the month), monthly on chosen days, quarterly, yearly, or one time. It lists the upcoming payments over a horizon and the recent payments in a window before a date. It computes the amount of each payment, splitting a monthly amount over several days or reading the manual per-day amounts.
- **Calendar** (`Calendar`). This is the JavaScript `Date` arithmetic the calculator relies on: ECMA-262 `MakeDay`, `YearFromTime`, `MonthFromTime` and `WeekDay` on day numbers, and `setDate`, `setMonth` and `setFullYear` with their roll-over behaviour. An instant is a day number since 1970-01-01 plus a minute of the day.
- **Stored entities** (`Income`). These are the income source and income record rows. The module also has the conversion every server caller applies before it asks the calculator about a stored source.
- **Statistics route** (`Calculations`). It computes:
  - expected, received, pending and overdue totals per source and overall;
  - the receipt rate;
  - the monthly projections of a year;
  - the list of upcoming payments, which merges stored pending records with calculated payments.
- **Record generator** (`RecordGenerator`):
  - materialises the calculated payments as pending records, without duplicating a day that already has one;
  - has two clean-ups;
  - writes each source's next payment date.
- **Source and record routes** (`SourcesRoute`, `RecordsRoute`). The source POST route validates and stores a source. The record GET route filters, sorts and pages records. The record POST route validates and stores a record.
- **Forms and views**:
  - `SourceForm`: the income-source form's validation, input handling, day toggles and day-amount edits;
  - `SourceCard`: the card's frequency label, per-payment amount and schedule line;
  - `RecordTable`: the table's displayed status and variance;
  - `RecordForm`: the record form's validation, auto-filled date and delta line;
  - `PasswordStrength`: the password-strength meter;
  - `AccountForms`: the sign-up and sign-in validation, including the e-mail pattern `\S+@\S+\.\S+`.
- **Helpers**: `Seqs` (sorting, filtering, counting, minimum), `Sums` (repeated addition, map sums), `Text` (`trim` and white space) and `Wrappers` (option and result types).

Database access, the session, the clock and the HTTP layer are parameters of the model. The current instant is passed in. The users table is a map from e-mail to user id. The ownership of sources is a map from source id to user id. The record store is a sequence of rows.

## Where the model follows the code rather than the description of the system

- Every server caller builds the calculator config with `scheduleWeekday || undefined`. A source stored with Sunday (weekday 0) therefore reaches the calculator with no weekday. It never gets an upcoming payment, a generated record or a next payment date (`Income.SundaySourceNeverPays`).
- The monthly rule's next-month branch builds `new Date(y, m + 1, first)` without a range check. A source paying on the 30th, asked after 31 January, is next paid on 1 or 2 March, and February gets no payment (`PaymentCalculator.MonthlyRollover`).
- The statistics route adds the whole source amount to "expected" and "pending" for every record, including records of a monthly source split over several days.
- The source POST route checks only that the name is non-empty, so a name of spaces passes. It also checks a weekday only against `undefined`, so `null` passes. The record POST route accepts a negative amount. The forms reject all three.
- Records the generator writes carry the note "Auto-generated: Expected …". The clean-ups delete only records whose note is "Auto-generated based on schedule configuration". Generated records are therefore never cleaned up.
- The card and the calculator disagree on a manual-mode monthly source whose day-amount object is empty. The card shows an even split, and the calculator gives every day 0.
- The record table compares calendar days and the statistics route compares instants. A pending record due earlier today is overdue for the route and pending in the table.

## Model

| member | source | states |
|---|---|---|
| PaymentCalculator.SplitCount | src/lib/paymentCalculator.ts:34-41 | a source's amount is shared by at least one payment |
| PaymentCalculator.PerPaymentAmount | src/lib/paymentCalculator.ts:21-42 | no valid amount gives 0; the manual branch reads the day map, absent keys giving 0; otherwise the amount times the split count gives back the source amount |
| PaymentCalculator.PaymentMinute | src/lib/paymentCalculator.ts:351-359 | no time means 09:00; otherwise the minute of the day has the schedule's hours and minutes |
| PaymentCalculator.NextWeekly | src/lib/paymentCalculator.ts:173-189 | a date exists iff a weekday is set; it is the first day after `from`, within 7 days, on that weekday, at the payment time |
| PaymentCalculator.WeeklyEveryWeek | src/lib/paymentCalculator.ts:173-189 | asking again from the day after a weekly payment gives the payment exactly 7 days later |
| PaymentCalculator.WeekAnchor | src/lib/paymentCalculator.ts:318-338 | the week start lies in the month with 6 more days after it; FIRST is the 1st, LAST is the 7th-to-last day, SECOND to FOURTH are Sundays in days 2-8, 9-15 and 16-22 |
| PaymentCalculator.AnchorDate | src/lib/paymentCalculator.ts:318-338 | the week start as a date of the month, with its bounds for each week type |
| PaymentCalculator.FindDayInWeek | src/lib/paymentCalculator.ts:340-349 | the first day on or after the week start that falls on the target weekday, at most 6 days later |
| PaymentCalculator.BiweeklyDay | src/lib/paymentCalculator.ts:191-223 | the chosen weekday of the chosen week lies in the given month, at most 6 days after the week start, with no earlier match |
| PaymentCalculator.NextBiweekly | src/lib/paymentCalculator.ts:191-223 | a date exists iff both weekday and week are set; it is after `from`, on that weekday, at the payment time, in this month or the next |
| PaymentCalculator.PositiveDays | src/lib/paymentCalculator.ts:235-241 | keeps exactly the days whose manual amount is positive |
| PaymentCalculator.PayingDays | src/lib/paymentCalculator.ts:234-243 | the days that can pay: all schedule days, or with manual amounts those with a positive amount |
| PaymentCalculator.MonthlyTarget | src/lib/paymentCalculator.ts:247-252 | day 31 is the month's last day; a day the month has is that date; a shorter month rolls the date out of the month |
| PaymentCalculator.TargetsOrdered | src/lib/paymentCalculator.ts:246-259 | targets that stay in their month are ordered like their days |
| PaymentCalculator.FirstUpcoming | src/lib/paymentCalculator.ts:246-259 | the loop finds a day iff some day is still to come this month, and it finds the smallest one |
| PaymentCalculator.EarliestUpcoming | src/lib/paymentCalculator.ts:246-259 | the same, over the ascending sort of the valid days |
| PaymentCalculator.EarliestTargetFirst | src/lib/paymentCalculator.ts:246-259 | the earliest upcoming day's target is after `from`, in the month, and no later than any other upcoming target |
| PaymentCalculator.NextMonthAfter | src/lib/paymentCalculator.ts:261-276 | every next-month date lies after every day of this month |
| PaymentCalculator.NextMonthly | src/lib/paymentCalculator.ts:225-277 | a date exists iff some day can pay; it lies after `from` at the payment time |
| PaymentCalculator.NextMonthlyThisMonth | src/lib/paymentCalculator.ts:245-258 | when a paying day of this month is still to come, the next date is the earliest such day's target |
| PaymentCalculator.NextMonthlyNextMonth | src/lib/paymentCalculator.ts:261-276 | otherwise the next date is the code's unchecked `new Date(nextYear, nextMonth, min)` for the smallest paying day (see NextMonthTarget) |
| PaymentCalculator.NextMonthTarget | src/lib/paymentCalculator.ts:262-273 | day 31 is the next month's last day; a day the next month has is that date; a shorter next month rolls the date into the month after it |
| PaymentCalculator.MonthlyRollover | src/lib/paymentCalculator.ts:261-276 | day 30 asked after 31 January lands in March, skipping February |
| PaymentCalculator.RolloverTarget | src/lib/paymentCalculator.ts:272 | in that case the next date is the unchecked next-month date |
| PaymentCalculator.JanuaryThirtiethPassed | src/lib/paymentCalculator.ts:255 | on 31 January the 30th is no longer to come |
| PaymentCalculator.QuarterStart | src/lib/paymentCalculator.ts:288-292 | the next quarter's first month is a multiple of 3, January exactly from October on, otherwise the following quarter |
| PaymentCalculator.QuarterAfter | src/lib/paymentCalculator.ts:288-298 | a later quarter means a later calendar month |
| PaymentCalculator.QuarterLanding | src/lib/paymentCalculator.ts:298 | `setMonth(q, first)` stays in the quarter of q and is day `first` of q when q is long enough |
| PaymentCalculator.NextQuarterStart | src/lib/paymentCalculator.ts:288-296 | the year and month of the next quarter, with the year incremented for January |
| PaymentCalculator.QuarterlyDayFacts | src/lib/paymentCalculator.ts:279-302 | the quarterly date is in the next quarter, after `from`, on the first schedule day when the month has it |
| PaymentCalculator.QuarterlyDayJanuary | src/lib/paymentCalculator.ts:294-298 | from October on it is January `first` of the next year |
| PaymentCalculator.QuarterlyDaySameYear | src/lib/paymentCalculator.ts:289-298 | before October it stays in the same year |
| PaymentCalculator.QuarterlyLanding | src/lib/paymentCalculator.ts:294-298 | the landing facts of the quarterly date, for the exact date the code computes |
| PaymentCalculator.NextQuarterly | src/lib/paymentCalculator.ts:279-302 | a date exists iff there are schedule days; it is the quarterly date of the smallest day, after `from`, at the payment time |
| PaymentCalculator.YearlyDay | src/lib/paymentCalculator.ts:304-316 | the yearly date is January `first` of the next year, after `from` |
| PaymentCalculator.YearlyLanding | src/lib/paymentCalculator.ts:311-312 | `setFullYear(y + 1)` then `setMonth(0, first)` is always that January date |
| PaymentCalculator.NextYearly | src/lib/paymentCalculator.ts:304-316 | a date exists iff there are schedule days; it is January of next year on the smallest day, at the payment time |
| PaymentCalculator.NextPaymentDate | src/lib/paymentCalculator.ts:47-73 | one-time sources have no next date; any date found is a later day at the payment time |
| PaymentCalculator.UpcomingAmount | src/lib/paymentCalculator.ts:93-107 | manual monthly sources read the day map, keyed 31 on a month's last day when 31 is scheduled; the rest pay the per-payment amount |
| PaymentCalculator.ConsRun | src/lib/paymentCalculator.ts:89-124 | a payment followed by a run of later payments is a run |
| PaymentCalculator.UpcomingLoop | src/lib/paymentCalculator.ts:89-124 | the loop returns exactly the first `room` positive payments of the next-date chain up to the end (`Chain`, `Paid`); they are ascending, none after the end, each at the payment time |
| PaymentCalculator.UpcomingPayments | src/lib/paymentCalculator.ts:78-127 | none for one-time or never-paying sources; at most 101, strictly ascending, after `fromDate`'s day and within the horizon, at the payment time, each positive with the amount of its date |
| PaymentCalculator.UpcomingIsChain | src/lib/paymentCalculator.ts:89-124 | for a recurring source the list is exactly the first 101 positive payments along the chain of next dates from `fromDate` (each asked from the day after the previous) up to the horizon |
| PaymentCalculator.PaidMembers | src/lib/paymentCalculator.ts:109-115 | keeping only positive amounts lists a date iff it is one of the given dates and its amount is positive, never more entries than dates |
| PaymentCalculator.UpcomingComplete | src/lib/paymentCalculator.ts:89-124 | unless the length check cut the loop, a payment is listed iff its date is on the chain of next dates and its amount is positive |
| PaymentCalculator.RecentLoop | src/lib/paymentCalculator.ts:146-168 | the loop only appends, on distinct days, inside the window, all with the per-payment amount; unless the length check stopped it, every remaining day whose next payment falls in the window has that payment's day listed; every appended payment is the next payment from one of those days |
| PaymentCalculator.RecentPayments | src/lib/paymentCalculator.ts:132-171 | none for one-time sources; at most 101; newest first on distinct days, inside the window, with the per-payment amount; unless capped, every window day's in-window next payment is listed by its day, and every listed payment is such an answer |
| Calendar.CivilRoundTrip | src/lib/paymentCalculator.ts:228-231 | a valid calendar date survives the trip to a day number and back |
| Calendar.ToCivilInjective | src/lib/paymentCalculator.ts:151-153 | different day numbers have different calendar dates, so `toDateString` equality is day equality |
| Calendar.ToCivil | src/lib/paymentCalculator.ts:228-231 | year, month and date of a day number form a valid date that maps back to the day |
| Calendar.DayZeroIsLastDay | src/lib/paymentCalculator.ts:96 | date 0 of the next month is this month's last day |
| Calendar.MonthOverflow | src/lib/paymentCalculator.ts:247 | a date past the month's end rolls into the following month |
| Calendar.SetDateShifts | src/lib/paymentCalculator.ts:118-119 | `setDate(getDate() + k)` moves exactly k days |
| Calendar.MakeDayMonth | src/lib/paymentCalculator.ts:247 | `new Date(y, m, d)` is in month m iff the month has d days, and in the next month otherwise |
| Calendar.SetFullYearFacts | src/lib/paymentCalculator.ts:295 | `setFullYear(y)` lands in year y, on the same date unless it is 29 February and y is not a leap year |
| Calendar.SetYearThenMonth | src/lib/paymentCalculator.ts:311-312 | `setFullYear` then `setMonth` depends on the target year alone |
| Calendar.MidnightOrder | src/lib/paymentCalculator.ts:255 | midnight of a day is after an instant iff it is a later day |
| Calendar.StampOrder | src/lib/paymentCalculator.ts:89 | instants on different days compare like their days |
| Calendar.MonthIndexOrder | src/lib/paymentCalculator.ts:261-276 | a later calendar month holds later day numbers |
| Calendar.SameMonthShift | src/lib/paymentCalculator.ts:255 | a day no further than the rest of the month lies in the same month on the correspondingly later date |
| Income.CalculatorConfig | src/lib/paymentRecordGenerator.ts:93-103 | the config keeps frequency, days and amount; the weekday survives iff it is set and not Sunday; a missing day map becomes empty |
| Income.SundaySourceNeverPays | src/app/api/income/calculations/route.ts:249 | a weekly or bi-weekly source stored with Sunday has no next date and no upcoming payments |
| Income.WeekdayPassesThrough | src/app/api/income/calculations/route.ts:249 | any other weekday reaches the calculator, and a weekly source then pays on it |
| Calculations.ReceivedSumLast | src/app/api/income/calculations/route.ts:63-76 | adding the received amounts from the front or from the back gives the same sum |
| Calculations.RecordTotals | src/app/api/income/calculations/route.ts:63-76 | expected is the amount per record; received is the sum of the received records' actual amounts; pending is the amount per pending record; overdue is the amount per pending record expected before now |
| Calculations.ContributionFacts | src/app/api/income/calculations/route.ts:64-76 | what a single record adds to expected, received, pending and overdue |
| Calculations.LateRecordsArePending | src/app/api/income/calculations/route.ts:70-74 | overdue records are counted among the pending ones |
| Calculations.RecordTotalsOrdered | src/app/api/income/calculations/route.ts:63-76 | with a non-negative amount, overdue <= pending <= expected |
| Calculations.RecordTotalsSplit | src/app/api/income/calculations/route.ts:64-76 | the totals of two batches of records add up |
| Calculations.ScheduledPerMonth | src/app/api/income/calculations/route.ts:91 | the number of days, or 1 when there are none |
| Calculations.JsRem | src/app/api/income/calculations/route.ts:95 | JavaScript's remainder: Euclidean for non-negative operands, never positive for negative ones |
| Calculations.QuarterlyMonths | src/app/api/income/calculations/route.ts:95 | a quarterly source is expected once in January, April, July and October and never otherwise |
| Calculations.PeriodPerPayment | src/app/api/income/calculations/route.ts:107-110 | the per-payment amount times the split count is the source amount |
| Calculations.PeriodSplitMatchesCalculator | src/app/api/income/calculations/route.ts:107-110 | the route's split equals the calculator's per-payment amount |
| Calculations.SourceTotals | src/app/api/income/calculations/route.ts:57-115 | with records, the record totals; without, inactive adds nothing and active counts its presumed payments all pending; the ordering of the totals |
| Calculations.MonthlySourceExpectsItsAmount | src/app/api/income/calculations/route.ts:89-114 | an active monthly source without records expects its amount per month and 12 times it per year |
| Calculations.Summary | src/app/api/income/calculations/route.ts:117-120 | with non-negative amounts the overall overdue <= pending <= expected |
| Calculations.SummarySplit | src/app/api/income/calculations/route.ts:117-120 | the summary of two batches of sources is the sum of their summaries |
| Calculations.SummaryOfOne | src/app/api/income/calculations/route.ts:56-120 | the summary of one source is that source's totals |
| Calculations.ReceiptRate | src/app/api/income/calculations/route.ts:382 | rate times expected is 100 times received; 0 when nothing is expected |
| Calculations.PercentBounded | src/app/api/income/calculations/route.ts:382 | a part no larger than a positive whole is between 0 and 100 percent of it |
| Calculations.ReceiptRateBounded | src/app/api/income/calculations/route.ts:382 | receiving no more than expected gives a rate in 0..100 |
| Calculations.ExpectedPayments | src/app/api/income/calculations/route.ts:79-104 | none for one-time sources; a month period counts the projection of that month; a yearly period counts the twelve projections plus 4 for weekly and 2 for bi-weekly sources |
| Calculations.MonthsCountClosed | src/app/api/income/calculations/route.ts:149-169 | the projected count of the first k months in closed form |
| Calculations.MonthExpected | src/app/api/income/calculations/route.ts:143-177 | non-negative amounts give a non-negative month; inactive sources alone give 0 |
| Calculations.SourceMonthExpected | src/app/api/income/calculations/route.ts:146-175 | an inactive source adds nothing; a non-negative amount adds a non-negative amount |
| Calculations.MonthExpectedIsMonthSummary | src/app/api/income/calculations/route.ts:79-177 | a month's projected amount equals what the one-month summary expects when no source has records |
| Calculations.Projections | src/app/api/income/calculations/route.ts:137-200 | twelve entries, numbered 1 to 12, each with its month's expected amount |
| Calculations.AsEntries | src/app/api/income/calculations/route.ts:260-277 | one calculated entry per payment, with its date and amount |
| Calculations.EntriesWindow | src/app/api/income/calculations/route.ts:260-277 | positive payments all pass the amount check, so the entries are exactly the payments, each inside the payments' window |
| Calculations.SourceUpcoming | src/app/api/income/calculations/route.ts:244-277 | one entry per calculated payment, in order, with its date and amount; each positive, the source's own, within 60 days after now |
| Calculations.SundaySourceHasNoUpcoming | src/app/api/income/calculations/route.ts:249 | a Sunday source contributes no entries |
| Calculations.Calculated | src/app/api/income/calculations/route.ts:222-281 | an entry is calculated iff it is an entry of some active non-one-time source; each positive and later than today |
| Calculations.FutureRecords | src/app/api/income/calculations/route.ts:289-301 | at most 20 stored records, each expected at or after now, earliest first; a record at or after now is left out only when 20 no later ones were fetched |
| Calculations.FindOnDay | src/app/api/income/calculations/route.ts:332-334 | finds a payment on the day iff one exists from that index on |
| Calculations.StoredAmount | src/app/api/income/calculations/route.ts:316-336 | a non-zero amount is the amount of the calculator's payment on the record's day |
| Calculations.StoredEntries | src/app/api/income/calculations/route.ts:305-357 | an entry is stored iff it is the positive entry of a pending fetched record |
| Calculations.StoredAsEntries | src/app/api/income/calculations/route.ts:305-351 | one stored entry per pending record |
| Calculations.MergeUpcoming | src/app/api/income/calculations/route.ts:359-371 | at most 10, earliest first, all positive; stored entries are exactly entries of the fetched pending records (their `StoredEntries` element, with its amount and source); calculated ones come from the 10 earliest and fall on no fetched record's day; an entry is left out only from a full list and is no earlier than any kept one |
| Calculations.MergeEntries | src/app/api/income/calculations/route.ts:359-371 | the final cut: at most 10, earliest first, drawn from the stored entries and the calculated ones on no fetched day, leaving one out only from a full list and no earlier than any kept one |
| Calculations.KeptFrom | src/app/api/income/calculations/route.ts:284-286 | the sort-and-slice keeps only entries it was given |
| Calculations.UnmatchedFacts | src/app/api/income/calculations/route.ts:360-366 | the filtered calculated entries avoid every fetched record's day |
| RecordGenerator.CeilDiv | src/lib/paymentRecordGenerator.ts:105 | `Math.ceil(a / b)`: the least r with a <= b * r |
| RecordGenerator.Horizon | src/lib/paymentRecordGenerator.ts:105 | the span from start to end in days, rounded up |
| RecordGenerator.HorizonOfWholeDays | src/lib/paymentRecordGenerator.ts:51-53 | an end date n whole days after the start gives a horizon of n |
| RecordGenerator.MatchesWithinADay | src/lib/paymentRecordGenerator.ts:117-125 | the existence query matches a record of the source expected on the payment's calendar day, or on the next day before the payment's time |
| RecordGenerator.NewRecord | src/lib/paymentRecordGenerator.ts:129-137 | a pending record of the source on the payment date, with no actual amount or date, and the generated note |
| RecordGenerator.CreateMissing | src/lib/paymentRecordGenerator.ts:110-140 | appends one record per created payment, each from a payment; every non-skipped payment ends covered; a record is created only on a day that had no record of the source before it; nothing is created when all are covered |
| RecordGenerator.CreateMissingStep | src/lib/paymentRecordGenerator.ts:110-140 | one loop step keeps coverage and provenance |
| RecordGenerator.CreateMissingFresh | src/lib/paymentRecordGenerator.ts:116-139 | one loop step keeps the create-only-if-absent rule |
| RecordGenerator.CreatedFromTail | src/lib/paymentRecordGenerator.ts:110 | a record from later payments is a record from the list |
| RecordGenerator.GenerateForSource | src/lib/paymentRecordGenerator.ts:82-146 | nothing for inactive or one-time sources; otherwise appends only records built from calculated payments, each on a day that had no record of the source yet, and afterwards every calculated payment is covered |
| RecordGenerator.GenerateIdempotent | src/lib/paymentRecordGenerator.ts:116-139 | a second run over the produced store creates nothing |
| RecordGenerator.GenerateCovers | src/lib/paymentRecordGenerator.ts:110-140 | every calculated positive payment has a record on its day afterwards |
| RecordGenerator.CleanupInvalid | src/lib/paymentRecordGenerator.ts:196-221 | keeps the other records in order, deletes the pending records with the clean-up note, and counts exactly those |
| RecordGenerator.CleanupOverdue | src/lib/paymentRecordGenerator.ts:162-191 | keeps the other records in order, deletes those of them expected before the cut-off, and counts exactly those |
| RecordGenerator.GeneratedIsNotCleanupNote | src/lib/paymentRecordGenerator.ts:135 | the generator's note is never the clean-up note |
| RecordGenerator.GeneratedRecordsSurvive | src/lib/paymentRecordGenerator.ts:175-183 | generated records survive both clean-ups |
| RecordGenerator.OverdueCleanupWithinInvalid | src/lib/paymentRecordGenerator.ts:175-213 | the overdue clean-up deletes nothing the invalid one keeps |
| RecordGenerator.GenerateAll | src/lib/paymentRecordGenerator.ts:55-70 | `created` counts the selected sources; the old store is kept as a prefix; every appended record is a pending generated record from a payment of a selected source; afterwards every payment of every selected source is covered |
| RecordGenerator.RunProvenance | src/lib/paymentRecordGenerator.ts:55-70 | the records one iteration and the rest of the loop append all stem from selected sources |
| RecordGenerator.RunCoverage | src/lib/paymentRecordGenerator.ts:55-70 | a source's payments, covered when it is handled, stay covered through the rest of the loop |
| RecordGenerator.CoveredGrows | src/lib/paymentRecordGenerator.ts:117-126 | a found record stays found after appends |
| RecordGenerator.GenerateCoversAll | src/lib/paymentRecordGenerator.ts:110-140 | every payment of a scheduled source is covered after its run |
| RecordGenerator.StoreAfter | src/lib/paymentRecordGenerator.ts:58-66 | one iteration only appends; an unselected source adds nothing; a selected source's new records come from its payments, which are all covered afterwards |
| RecordGenerator.GenerateUpcoming | src/lib/paymentRecordGenerator.ts:23-77 | counts the selected sources; the store after the invalid clean-up is kept as a prefix; appended records stem from selected sources' payments; every selected source's payments are covered; generated records survive |
| RecordGenerator.DefaultHorizon | src/lib/paymentRecordGenerator.ts:23 | the default run asks the calculator for 90 days |
| RecordGenerator.DefaultCutoffKeepsRecent | src/lib/paymentRecordGenerator.ts:162-173 | the default clean-up keeps records expected less than 30 days ago |
| RecordGenerator.NextDateOf | src/lib/paymentRecordGenerator.ts:245-271 | a written date belongs to a scheduled source and lies after today |
| RecordGenerator.UpdateNextDates | src/lib/paymentRecordGenerator.ts:226-282 | same sources; those with a next date get it and the rest are unchanged; `updated` counts the former |
| RecordGenerator.NextDateIgnoredByCalculator | src/lib/paymentRecordGenerator.ts:247-263 | the written date is not an input of the calculator |
| RecordGenerator.UpdateIdempotent | src/lib/paymentRecordGenerator.ts:226-282 | updating twice at the same instant is updating once |
| SourceForm.NameMissing | src/components/income/IncomeSourceForm.tsx:56 | `!name.trim()` iff the name is all white space |
| SourceForm.FormErrors | src/components/income/IncomeSourceForm.tsx:53-93 | an error per failing rule (name, amount, monthly days, weekday, bi-weekly week) with its message |
| SourceForm.ValidateForm | src/components/income/IncomeSourceForm.tsx:53-93 | valid iff the error map is empty, iff the name has a non-space character, the amount is positive and the frequency's schedule fields are set |
| SourceForm.NoErrorsIff | src/components/income/IncomeSourceForm.tsx:53-93 | no error iff the name has a non-space character, the amount is positive and the frequency's schedule fields are set |
| SourceForm.ScheduleFreeFrequencies | src/components/income/IncomeSourceForm.tsx:72-89 | one-time, quarterly and yearly forms ignore the schedule fields |
| SourceForm.Assign | src/components/income/IncomeSourceForm.tsx:115-117 | the assigned days get their values and every other key keeps its own |
| SourceForm.Even | src/components/income/IncomeSourceForm.tsx:137-145 | every selected day gets the same value and no other key exists |
| SourceForm.Divisor | src/components/income/IncomeSourceForm.tsx:116 | `Math.max(n, 1)` is at least 1 |
| SourceForm.RebalancedDays | src/components/income/IncomeSourceForm.tsx:109-128 | keys are the new days; automatic mode gives each the even share; manual mode keeps a non-zero prior value or gives 0 |
| SourceForm.HandleInputChange | src/components/income/IncomeSourceForm.tsx:104-162 | writes the field; rebalances on a monthly form's days, on the manual flag, and on an automatic form's amount; otherwise leaves the day map |
| SourceForm.EvenSplitSumsToAmount | src/components/income/IncomeSourceForm.tsx:152-159 | an even split over distinct days adds back up to the amount |
| SourceForm.SharesAddUp | src/components/income/IncomeSourceForm.tsx:154 | n shares of a / n make a |
| SourceForm.SplitBack | src/components/income/IncomeSourceForm.tsx:154 | n times a / n is a |
| SourceForm.DistinctKeys | src/components/income/IncomeSourceForm.tsx:115-117 | distinct days give as many keys as days |
| SourceForm.UpdateDayAmount | src/components/income/IncomeSourceForm.tsx:175-183 | one day's amount is written; in manual mode the total becomes the sum of the day amounts |
| SourceForm.UpdateDayAmountShiftsTotal | src/components/income/IncomeSourceForm.tsx:170-183 | the new manual total is the old sum shifted by that day's change |
| SourceForm.ToggleDay | src/components/income/IncomeSourceForm.tsx:320-326 | the day's membership flips and every other day's stays; adding a day leaves the selection ascending |
| SourceForm.ToggleLastDay | src/components/income/IncomeSourceForm.tsx:343-346 | 31's membership flips and the result is ascending |
| SourceForm.KeyOrder | src/components/income/IncomeSourceForm.tsx:324 | the numeric comparator sorts ascending |
| SourceForm.LastDayIsDay31 | src/components/income/IncomeSourceForm.tsx:343-346 | on a sorted selection the last-day button is the day-31 button |
| SourceForm.ToggleTwice | src/components/income/IncomeSourceForm.tsx:320-326 | toggling a day twice restores a sorted selection without repeats |
| SourceForm.ToggleTwiceSameDays | src/components/income/IncomeSourceForm.tsx:320-326 | toggling twice restores the selected days in any order |
| SourceForm.RemoveThenInsert | src/components/income/IncomeSourceForm.tsx:322-324 | removing then re-adding a day keeps the multiset |
| SourceForm.InsertThenRemove | src/components/income/IncomeSourceForm.tsx:322-324 | adding then removing a new day keeps the multiset |
| SourcesRoute.ValidationError | src/app/api/income/sources/route.ts:79-115 | the first failing check decides the message: required fields, positive amount, monthly days, weekday, week; none iff all pass |
| SourcesRoute.StoredWeekday | src/app/api/income/sources/route.ts:126 | a weekday is stored iff one was sent |
| SourcesRoute.StoredRow | src/app/api/income/sources/route.ts:117-139 | the row holds the body's fields, the user, active, no next date, empty days by default, manual iff sent true |
| SourcesRoute.Post | src/app/api/income/sources/route.ts:48-149 | 401 without a session, 404 for an unknown user, 400 with the validation message, else the stored row |
| SourcesRoute.CreatedSchedules | src/app/api/income/sources/route.ts:95-114 | a created source has the schedule fields its frequency needs |
| SourcesRoute.CategoryName | src/app/api/income/sources/route.ts:79-84 | every category sent by the form is non-empty |
| SourcesRoute.ToBody | src/app/api/income/sources/route.ts:64-77 | the JSON body carries the form's fields |
| SourcesRoute.ValidFormAccepted | src/app/api/income/sources/route.ts:79-139 | a form that passes its validation is stored with its schedule |
| SourcesRoute.FormBodyPasses | src/app/api/income/sources/route.ts:79-115 | the route's checks accept a valid form's body |
| SourcesRoute.BlankNameOnlyFormRejects | src/app/api/income/sources/route.ts:79-84 | a name of spaces is refused by the form and stored by the route |
| SourcesRoute.NullWeekdayStoredUnscheduled | src/app/api/income/sources/route.ts:102-107 | a weekly body with a null weekday is stored with no weekday |
| SourcesRoute.SundayWeekdayStoredUnscheduled | src/app/api/income/sources/route.ts:126 | a weekly Sunday source is stored and then never pays |
| RecordsRoute.Authenticate | src/app/api/income/records/route.ts:10-20 | 401 without a session, 404 for an unknown user, else the user's id |
| RecordsRoute.BuildWhere | src/app/api/income/records/route.ts:32-50 | the filter holds user, source and status; a date range exists iff either bound was given |
| RecordsRoute.WhereMeansWanted | src/app/api/income/records/route.ts:32-50 | the filter admits a record iff it is the user's and matches every given criterion |
| RecordsRoute.PageNumber | src/app/api/income/records/route.ts:27 | page defaults to 1 |
| RecordsRoute.PageSize | src/app/api/income/records/route.ts:28 | limit defaults to 10 |
| RecordsRoute.PageCount | src/app/api/income/records/route.ts:77 | `Math.ceil(total / limit)`, undefined for limit 0 |
| RecordsRoute.Window | src/app/api/income/records/route.ts:65-66 | fails exactly for a negative skip; a non-negative take gives the rows from `skip`, at most `take`; a negative take gives the `-take` rows ending `skip` rows before the last, in order |
| RecordsRoute.NegativeTakeReversed | src/app/api/income/records/route.ts:27-29 | a negative take is the forward window of the reversed rows, turned back |
| RecordsRoute.PagesPartition | src/app/api/income/records/route.ts:29 | each row is on exactly one page, `i / limit + 1`, and that page exists |
| RecordsRoute.RowInWindow | src/app/api/income/records/route.ts:29 | a row is in page p's window iff p is its page |
| RecordsRoute.RowOnItsPage | src/app/api/income/records/route.ts:29 | a row's page is within the page count and shows the row |
| RecordsRoute.List | src/app/api/income/records/route.ts:6-87 | denial on failed sign-in; failure exactly on a negative offset; else the page is the window of the wanted records in newest-first order, at most `|limit|` rows, with the full total |
| RecordsRoute.WindowFacts | src/app/api/income/records/route.ts:64-66 | a window of sorted rows is sorted and made of those rows |
| RecordsRoute.NewRecord | src/app/api/income/records/route.ts:135-144 | the record holds the body's source, date and status (PENDING by default), and an amount iff one that is truthy was sent |
| RecordsRoute.Create | src/app/api/income/records/route.ts:89-164 | in order: sign-in denial, missing fields, unknown or foreign source, RECEIVED without an amount; else the stored record |
| RecordsRoute.CreatedReceivedIsCounted | src/app/api/income/records/route.ts:128-142 | a stored received record adds its amount to the statistics' received total |
| RecordsRoute.ZeroAmountDropped | src/app/api/income/records/route.ts:128-140 | an amount of 0 is stored as none and cannot be received |
| SourceCard.LabelsDistinct | src/components/income/IncomeSourceCard.tsx:55-65 | no two frequencies share a label |
| SourceCard.PerPayment | src/components/income/IncomeSourceCard.tsx:67-82 | whole amount unless split; an even share that multiplies back to the amount; the earliest day's manual amount in manual mode |
| SourceCard.CardAgreesWithCalculator | src/components/income/IncomeSourceCard.tsx:76-81 | outside manual mode the card shows the calculator's per-payment amount |
| SourceCard.ManualCardShowsEarliestDay | src/components/income/IncomeSourceCard.tsx:69-75 | in manual mode it shows the calculator's amount for the earliest day |
| SourceCard.EmptyManualMapShownAsSplit | src/components/income/IncomeSourceCard.tsx:69-79 | an empty manual map shows a positive share while the calculator pays 0 |
| SourceCard.Decimal | src/components/income/IncomeSourceCard.tsx:88-91 | `String(n)` is a non-empty string of digits |
| SourceCard.DecimalRoundTrip | src/components/income/IncomeSourceCard.tsx:88-91 | reading the digits back gives n |
| SourceCard.JoinDays | src/components/income/IncomeSourceCard.tsx:88 | a non-empty join ends in a digit |
| SourceCard.ListedDays | src/components/income/IncomeSourceCard.tsx:88 | the listed days are the schedule days, ascending |
| SourceCard.ScheduleInfo | src/components/income/IncomeSourceCard.tsx:84-94 | empty unless monthly with days; "N payments: …" or "Day d", with the last-day note |
| SourceCard.LastDayNoteIff | src/components/income/IncomeSourceCard.tsx:84-94 | the line ends in " (last day)" iff the source is monthly with day 31 |
| RecordTable.DisplayStatus | src/components/income/IncomeRecordTable.tsx:59-68 | received stays received; otherwise overdue iff the expected day is before today |
| RecordTable.MarkReceivedIffNotReceived | src/components/income/IncomeRecordTable.tsx:183 | the button shows iff the stored status is not received |
| RecordTable.StoredOverdueShownPending | src/components/income/IncomeRecordTable.tsx:59-68 | a stored overdue record dated today or later is shown pending |
| RecordTable.ShownOverdueIsLate | src/components/income/IncomeRecordTable.tsx:59-68 | shown overdue implies late for the statistics; late today is shown pending |
| RecordTable.ExpectedAmount | src/components/income/IncomeRecordTable.tsx:123 | the source amount, or 0 |
| RecordTable.VarianceOf | src/components/income/IncomeRecordTable.tsx:154-168 | shown iff a non-zero actual and a positive expected; its sign and magnitude give actual − expected |
| RecordTable.VarianceIsDistance | src/components/income/IncomeRecordTable.tsx:154-168 | the magnitude is the distance, and an exact match shows +0 |
| RecordForm.FormErrors | src/components/income/IncomeRecordForm.tsx:55-76 | one error per rule; positivity replaces the received-without-amount message |
| RecordForm.ValidateForm | src/components/income/IncomeRecordForm.tsx:55-76 | valid iff the error map is empty, iff source and date are set, any amount is positive, and a received record has one |
| RecordForm.NoErrorsIff | src/components/income/IncomeRecordForm.tsx:55-76 | no error iff source and date are set, any amount is positive, and a received record has one |
| RecordForm.HandleInputChange | src/components/income/IncomeRecordForm.tsx:87-103 | the field is written; choosing RECEIVED without a date sets today's midnight |
| RecordForm.MarkingReceivedSetsDate | src/components/income/IncomeRecordForm.tsx:96-102 | after choosing RECEIVED a date is set, and only status and date may have changed |
| RecordForm.DeltaOf | src/components/income/IncomeRecordForm.tsx:186-194 | shown iff both amounts are truthy; above iff actual reaches expected; the difference restores the other amount |
| RecordForm.ToBody | src/components/income/IncomeRecordForm.tsx:87-103 | the JSON body carries the form's fields |
| RecordForm.ValidFormStored | src/app/api/income/records/route.ts:105-144 | a valid form for an owned source is stored as entered |
| RecordForm.NegativeAmountOnlyFormRejects | src/app/api/income/records/route.ts:128-140 | a negative received amount is refused by the form and stored by the route |
| PasswordStrength.PassedCount | src/components/ui/PasswordStrengthIndicator.tsx:16-22 | at most 5 criteria pass, and 5 iff all do |
| PasswordStrength.StrengthOf | src/components/ui/PasswordStrengthIndicator.tsx:24-36 | nothing for an empty password; level 1 for at most one criterion, else the count |
| PasswordStrength.StrongIffAllPass | src/components/ui/PasswordStrengthIndicator.tsx:24-36 | level 5 iff every criterion passes |
| PasswordStrength.PassesGrows | src/components/ui/PasswordStrengthIndicator.tsx:16-22 | a passing criterion keeps passing when a character is typed |
| PasswordStrength.AppendNeverWeakens | src/components/ui/PasswordStrengthIndicator.tsx:24-36 | typing a character never lowers the level |
| AccountForms.CheckEmail | src/app/register/page.tsx:45 | the scan answers true iff the pattern matches somewhere |
| AccountForms.EmailError | src/app/register/page.tsx:43-47 | required when empty, invalid when unmatched, none iff non-empty and matching |
| AccountForms.PasswordError | src/app/register/page.tsx:49-65 | required, too short under 8, too simple without all four classes; none iff long and varied |
| AccountForms.ConfirmError | src/app/register/page.tsx:67-71 | required when empty, mismatch when different; none iff equal and non-empty |
| AccountForms.RegisterErrors | src/app/register/page.tsx:36-75 | each field has an error iff its rule fails, with that rule's message |
| AccountForms.RegisterValid | src/app/register/page.tsx:36-75 | valid iff the error map is empty, iff the name has a non-space character, the e-mail matches, the meter says Strong, and the confirmation repeats the password |
| AccountForms.NoRegisterErrorsIff | src/app/register/page.tsx:36-75 | no sign-up error iff the name has a non-space character, the e-mail matches, the meter says Strong, and the confirmation repeats the password |
| AccountForms.PasswordAcceptedIffStrong | src/app/register/page.tsx:49-65 | the sign-up accepts a password iff the meter rates it level 5 |
| AccountForms.LoginErrors | src/app/login/page.tsx:33-48 | the e-mail rule, and a password that is only required |
| AccountForms.LoginValid | src/app/login/page.tsx:33-48 | valid iff the error map is empty, iff the e-mail matches and a password is typed |
| AccountForms.NoLoginErrorsIff | src/app/login/page.tsx:33-48 | no sign-in error iff the e-mail matches and a password is typed |
| AccountForms.RegisteredCredentialsPassLogin | src/app/login/page.tsx:33-48 | credentials that pass sign-up pass sign-in |
| Text.Trim | src/components/income/IncomeSourceForm.tsx:56 | `trim` gives a slice of the string with only white space cut off either end; empty iff the string is blank |
| Text.TrimIsSlice | src/components/income/IncomeSourceForm.tsx:56 | cutting the leading and then the trailing white space leaves a slice with only white space outside it |
| Seqs.SortBy | src/lib/paymentCalculator.ts:246 | the numeric sort keeps the multiset and the length |
| Seqs.Filter | src/app/api/income/calculations/route.ts:306 | `filter` keeps exactly the elements satisfying the condition and never lengthens the sequence |
| Seqs.FilterCount | src/app/api/income/calculations/route.ts:306 | the filtered length is the number of elements satisfying the condition |
| Seqs.FilterAll | src/app/api/income/calculations/route.ts:261-277 | filtering with a condition every element meets changes nothing |
| Seqs.CountFirst | src/lib/paymentRecordGenerator.ts:262-272 | counting from the back agrees with counting the first element and then the rest |
| Seqs.EarliestKeepsAllWhenShort | src/app/api/income/calculations/route.ts:359-371 | when the sorted first-n list came out shorter than n, it holds every element |
| Seqs.CountComplement | src/lib/paymentRecordGenerator.ts:196-221 | the elements meeting a condition and those failing it make up the whole sequence |
| Seqs.Min | src/lib/paymentCalculator.ts:265 | `Math.min(...s)` is an element no greater than any other |
| Seqs.SortedUnique | src/lib/paymentCalculator.ts:246 | sorting integers has exactly one outcome |
| Sums.MapSumUpdate | src/components/income/IncomeSourceForm.tsx:175-181 | writing one day amount shifts the sum of the day amounts by the change |
| Sums.MapSumConstant | src/components/income/IncomeSourceForm.tsx:155-157 | a map with one value throughout sums to its size times the value |

## Left out

- Time below the minute, time zones and daylight saving are not modelled: an instant is a day number plus a minute of the day in one fixed zone. The `Date` constructor's mapping of two-digit years is left out.
- Schedule values outside their ranges are excluded by the types: weekdays outside 0..6, days outside 1..31, and times that are not `HH:MM`. With such values the source's loops can run on without end.
- NaN, Infinity and the parsing of non-numeric strings (`parseFloat`, `parseInt`, `Number`) are not modelled. Amounts are reals, and a missing amount is `None`. The numeric and string day-map keys are one `int` key.
- Prisma, the session lookup, concurrency, the `catch` blocks and HTTP 500 paths are reduced to parameters and result values. Response formatting, record ids and the database's order among equal dates are also left out.
- The forms' error clearing (writing `''` for a field) and their initial default values are left out. So are the category and frequency checks: their selects never leave them empty.
- `SourcesRoute.ToBody` takes the schedule time as a parameter. The parsing of the time input is not modelled. JSON amounts sent as strings are not modelled.
- The record table receives Prisma decimals that may be strings. The model reads them as numbers.
- The in-place `sort` calls are modelled as a functional insertion sort with the same comparator.
- Strings are sequences of characters. UTF-16 surrogate pairs are not distinguished.
- A created source's `isActive` is the column default, `true`.
- RecordsRoute.Window: a negative `skip` makes Prisma reject the query; the model reports it as `QueryFailed`, not as an HTTP 500. A negative `take` is modelled as Prisma's backward paging: the order is reversed, `skip` and `-take` rows are applied, and the result is turned back.
- The record form's "today" is the `toISOString` date. The model takes that date as a parameter and does not model the UTC shift.
- The record route passes unknown status strings to Prisma. The model types the status, so unknown strings are not modelled.
- AccountForms.EmailLike: the regular expression `\S+@\S+\.\S+` is modelled by its shortest witnesses. The match is the same, but the greedy backtracking of the engine is not modelled.
- The GET handler of the sources route, and the `[id]` routes for single sources and records, are not part of this model.
- The statistics route's monthly `received` figure of each projection is a further database query by actual date. It is left out and only `expected` is modelled.
- The recent-records list of the statistics route is a plain database query. It is not modelled.

=== FILE: accountForms.dfy ===
/** The sign-up and sign-in forms (src/app/register/page.tsx and
    src/app/login/page.tsx): the e-mail pattern `\S+@\S+\.\S+` both apply,
    and the error maps their `validateForm` functions build. */
module AccountForms {
  import opened Wrappers
  import Text
  import PasswordStrength

  // ---------------------------------------------------------------------------
  // The e-mail pattern

  predicate NonSpaceBetween(s: string, lo: int, hi: int)
    requires 0 <= lo <= hi <= |s|
  {
    forall k :: lo <= k < hi ==> Text.NonSpace(s[k])
  }

  /** A match of `\S+@\S+\.\S+` with its '@' at b and its '.' at c. Each
      `\S+` can be cut down to a single character at its outer end, so a
      match exists exactly when some non-space character precedes an '@',
      one or more non-space characters follow it up to a '.', and a
      non-space character follows that '.'. */
  predicate MatchAt(s: string, b: int, c: int) {
    1 <= b && b + 2 <= c && c + 1 < |s| && s[b] == '@' && s[c] == '.' && NonSpaceBetween(s, b - 1, c + 2)
  }

  /** `/\S+@\S+\.\S+/.test(s)`: the pattern matches somewhere in s. */
  predicate EmailLike(s: string) {
    exists b, c | 0 <= b < |s| && 0 <= c < |s| :: MatchAt(s, b, c)
  }

  /** One left-to-right scan decides the pattern: in each run of non-space
      characters it remembers the first '@' after the run's first
      character, and succeeds at a '.' two or more characters after that
      '@' with a non-space character behind it. */
  method CheckEmail(s: string) returns (ok: bool)
    ensures ok <==> EmailLike(s)
  {
    var start := 0;
    var at := -1;
    var i := 0;
    while i < |s|
      invariant 0 <= start <= i <= |s|
      invariant NonSpaceBetween(s, start, i)
      invariant start > 0 ==> !Text.NonSpace(s[start - 1])
      invariant at == -1 ==> forall b :: start < b < i ==> s[b] != '@'
      invariant at != -1 ==> start < at < i && s[at] == '@' && forall b :: start < b < at ==> s[b] != '@'
      invariant forall b, c :: 0 <= c < i ==> !MatchAt(s, b, c)
    {
      if !Text.NonSpace(s[i]) {
        NoMatchThroughSpace(s, i);
        start, at := i + 1, -1;
      } else if s[i] == '@' && at == -1 && i > start {
        at := i;
      } else if s[i] == '.' && at != -1 && i >= at + 2 && i + 1 < |s| && Text.NonSpace(s[i + 1]) {
        assert MatchAt(s, at, i);
        return true;
      } else {
        forall b | MatchAt(s, b, i)
          ensures false
        {
          RunStartsBefore(s, start, b, i);
        }
      }
      i := i + 1;
    }
    return false;
  }

  /** No match ends its last run at or after a space at position i. */
  lemma NoMatchThroughSpace(s: string, i: int)
    requires 0 <= i < |s| && !Text.NonSpace(s[i])
    ensures forall b :: !MatchAt(s, b, i)
  {
  }

  /** A match's characters all lie in one run of non-space characters, so its
      '@' comes after the start of the run holding its '.'. */
  lemma RunStartsBefore(s: string, start: int, b: int, c: int)
    requires 0 <= start <= c < |s| && (start > 0 ==> !Text.NonSpace(s[start - 1]))
    requires MatchAt(s, b, c)
    ensures start < b
  {
  }

  // ---------------------------------------------------------------------------
  // Sign-up

  datatype RegisterData = RegisterData(name: string, email: string, password: string, confirmPassword: string)

  datatype Field = NameField | EmailField | PasswordField | ConfirmField

  const NameRequired: string := "Name is required"
  const EmailRequired: string := "Email is required"
  const EmailInvalid: string := "Email is invalid"
  const PasswordRequired: string := "Password is required"
  const PasswordTooShort: string := "Password must be at least 8 characters long"
  const PasswordTooSimple: string := "Password must contain uppercase, lowercase, number, and special character"
  const ConfirmRequired: string := "Please confirm your password"
  const ConfirmMismatch: string := "Passwords do not match"

  /** The sign-up name rule: the name must not trim to nothing. */
  function NameError(name: string): (e: Option<string>)
    ensures e.None? <==> !Text.Blank(name)
    ensures e.Some? ==> e == Some(NameRequired)
  {
    if Text.Trim(name) == [] then Some(NameRequired) else None
  }

  /** The e-mail rule both forms share. */
  function EmailError(email: string): (e: Option<string>)
    ensures e.None? <==> email != [] && EmailLike(email)
    ensures email == [] ==> e == Some(EmailRequired)
    ensures email != [] && !EmailLike(email) ==> e == Some(EmailInvalid)
  {
    if email == [] then Some(EmailRequired)
    else if !EmailLike(email) then Some(EmailInvalid)
    else None
  }

  /** The four character classes the sign-up form demands, tested in the same
      way as the strength meter's criteria. */
  predicate Varied(p: string) {
    PasswordStrength.Passes(PasswordStrength.HasUpper, p) && PasswordStrength.Passes(PasswordStrength.HasLower, p)
    && PasswordStrength.Passes(PasswordStrength.HasDigit, p) && PasswordStrength.Passes(PasswordStrength.HasSpecial, p)
  }

  function PasswordError(p: string): (e: Option<string>)
    ensures p == [] ==> e == Some(PasswordRequired)
    ensures p != [] && |p| < 8 ==> e == Some(PasswordTooShort)
    ensures |p| >= 8 && !Varied(p) ==> e == Some(PasswordTooSimple)
    ensures e.None? <==> |p| >= 8 && Varied(p)
  {
    if p == [] then Some(PasswordRequired)
    else if |p| < 8 then Some(PasswordTooShort)
    else if !Varied(p) then Some(PasswordTooSimple)
    else None
  }

  function ConfirmError(password: string, confirm: string): (e: Option<string>)
    ensures e.None? <==> confirm != [] && confirm == password
    ensures confirm == [] ==> e == Some(ConfirmRequired)
    ensures confirm != [] && confirm != password ==> e == Some(ConfirmMismatch)
  {
    if confirm == [] then Some(ConfirmRequired)
    else if password != confirm then Some(ConfirmMismatch)
    else None
  }

  function Put(m: map<Field, string>, f: Field, e: Option<string>): (r: map<Field, string>)
    ensures e.None? ==> r == m
    ensures e.Some? ==> r == m[f := e.value]
  {
    if e.Some? then m[f := e.value] else m
  }

  /** The error map of four field checks: a field has an entry exactly when
      its check reports an error, and the entry is that error. */
  function Collect(name: Option<string>, email: Option<string>, password: Option<string>,
                   confirm: Option<string>): (e: map<Field, string>)
    ensures NameField in e <==> name.Some?
    ensures NameField in e ==> Some(e[NameField]) == name
    ensures EmailField in e <==> email.Some?
    ensures EmailField in e ==> Some(e[EmailField]) == email
    ensures PasswordField in e <==> password.Some?
    ensures PasswordField in e ==> Some(e[PasswordField]) == password
    ensures ConfirmField in e <==> confirm.Some?
    ensures ConfirmField in e ==> Some(e[ConfirmField]) == confirm
  {
    Put(Put(Put(Put(map[], NameField, name), EmailField, email), PasswordField, password), ConfirmField, confirm)
  }

  /** The sign-up error map. */
  function RegisterErrors(d: RegisterData): (e: map<Field, string>)
    ensures NameField in e <==> Text.Blank(d.name)
    ensures NameField in e ==> e[NameField] == NameRequired
    ensures EmailField in e <==> EmailError(d.email).Some?
    ensures EmailField in e ==> Some(e[EmailField]) == EmailError(d.email)
    ensures PasswordField in e <==> PasswordError(d.password).Some?
    ensures PasswordField in e ==> Some(e[PasswordField]) == PasswordError(d.password)
    ensures ConfirmField in e <==> ConfirmError(d.password, d.confirmPassword).Some?
    ensures ConfirmField in e ==> Some(e[ConfirmField]) == ConfirmError(d.password, d.confirmPassword)
  {
    Collect(NameError(d.name), EmailError(d.email), PasswordError(d.password),
            ConfirmError(d.password, d.confirmPassword))
  }

  /** Sign-up passes exactly when the name has a non-space character, the
      e-mail matches the pattern, the password is full strength on the meter
      and the confirmation repeats it. */
  function RegisterValid(d: RegisterData): (ok: bool)
    ensures ok <==> RegisterErrors(d) == map[]
    ensures ok <==>
      !Text.Blank(d.name) && EmailLike(d.email) && PasswordStrength.StrengthOf(d.password).level == 5
      && d.confirmPassword == d.password
  {
    NoRegisterErrorsIff(d);
    |RegisterErrors(d).Keys| == 0
  }

  /** No sign-up rule fails exactly when every field meets its rule. */
  lemma NoRegisterErrorsIff(d: RegisterData)
    ensures RegisterErrors(d) == map[] <==>
      !Text.Blank(d.name) && EmailLike(d.email) && PasswordStrength.StrengthOf(d.password).level == 5
      && d.confirmPassword == d.password
  {
    PasswordAcceptedIffStrong(d.password);
    if d.email == [] {
      assert !EmailLike(d.email);
    }
    var e := RegisterErrors(d);
    if e != map[] {
      var k :| k in e;
    }
  }

  /** The sign-up form accepts a password exactly when the meter rates it
      "Strong" (level 5). */
  lemma PasswordAcceptedIffStrong(p: string)
    ensures PasswordError(p).None? <==> PasswordStrength.StrengthOf(p).level == 5
  {
    PasswordStrength.StrongIffAllPass(p);
    if PasswordError(p).None? {
      forall c: PasswordStrength.Criterion
        ensures PasswordStrength.Passes(c, p)
      {
        match c
        case LongEnough =>
        case HasUpper =>
        case HasLower =>
        case HasDigit =>
        case HasSpecial =>
      }
    }
  }

  // ---------------------------------------------------------------------------
  // Sign-in

  datatype LoginData = LoginData(email: string, password: string)

  /** The sign-in error map: the same e-mail rule, and a password that is
      only required. */
  function LoginErrors(d: LoginData): (e: map<Field, string>)
    ensures EmailField in e <==> EmailError(d.email).Some?
    ensures EmailField in e ==> Some(e[EmailField]) == EmailError(d.email)
    ensures PasswordField in e <==> d.password == []
    ensures PasswordField in e ==> e[PasswordField] == PasswordRequired
    ensures NameField !in e && ConfirmField !in e
  {
    var e0 := Put(map[], EmailField, EmailError(d.email));
    if d.password == [] then e0[PasswordField := PasswordRequired] else e0
  }

  /** Sign-in passes exactly when the e-mail matches the pattern and some
      password is typed. */
  function LoginValid(d: LoginData): (ok: bool)
    ensures ok <==> LoginErrors(d) == map[]
    ensures ok <==> EmailLike(d.email) && d.password != []
  {
    NoLoginErrorsIff(d);
    |LoginErrors(d).Keys| == 0
  }

  /** No sign-in rule fails exactly when both fields meet their rules. */
  lemma NoLoginErrorsIff(d: LoginData)
    ensures LoginErrors(d) == map[] <==> EmailLike(d.email) && d.password != []
  {
    if d.email == [] {
      assert !EmailLike(d.email);
    }
    var e := LoginErrors(d);
    if e != map[] {
      var k :| k in e;
    }
  }

  /** Credentials that pass sign-up also pass sign-in. */
  lemma RegisteredCredentialsPassLogin(d: RegisterData)
    requires RegisterValid(d)
    ensures LoginValid(LoginData(d.email, d.password))
  {
  }
}

=== FILE: calculations.dfy ===
/** The pure parts of the income statistics route
    (src/app/api/income/calculations/route.ts): per-source totals for the
    requested period, the fallback expectation for sources without records,
    the monthly projections of a year, the receipt rate, and the merge of
    stored and calculated upcoming payments. The database is replaced by the
    rows its queries would return. */
module Calculations {
  import opened Wrappers
  import opened Calendar
  import opened PaymentCalculator
  import opened Income
  import Seqs
  import opened Sums

  /** The `period` query parameter: 'yearly', or anything else, which the
      route treats as a single month. */
  datatype Period = MonthPeriod | YearPeriod

  datatype Totals = Totals(expected: real, received: real, pending: real, overdue: real)

  const NoTotals: Totals := Totals(0.0, 0.0, 0.0, 0.0)

  function Add(a: Totals, b: Totals): Totals {
    Totals(a.expected + b.expected, a.received + b.received, a.pending + b.pending, a.overdue + b.overdue)
  }

  lemma AddNothing(x: Totals)
    ensures Add(x, NoTotals) == x
  {
  }

  lemma AddAssociates(x: Totals, y: Totals, z: Totals)
    ensures Add(Add(x, y), z) == Add(x, Add(y, z))
  {
  }

  // ---------------------------------------------------------------------------
  // Totals from the period's records

  predicate IsPending(r: IncomeRecord) {
    r.status == Pending
  }

  predicate IsLate(now: Instant, r: IncomeRecord) {
    r.status == Pending && Stamp(r.expectedDate) < Stamp(now)
  }

  function LateAt(now: Instant): IncomeRecord -> bool {
    (r: IncomeRecord) => IsLate(now, r)
  }

  /** What one record adds: the full source amount to expected; its actual
      amount to received when it is RECEIVED with an actual amount (a Prisma
      decimal is an object, so any stored value is truthy); the source amount
      to pending when PENDING, and to overdue as well once its expected date
      has passed. */
  function RecordContribution(amount: real, now: Instant, r: IncomeRecord): Totals {
    if r.status == Received && r.actualAmount.Some? then Totals(amount, r.actualAmount.value, 0.0, 0.0)
    else if r.status == Pending then Totals(amount, 0.0, amount, if IsLate(now, r) then amount else 0.0)
    else Totals(amount, 0.0, 0.0, 0.0)
  }

  /** The actual amount a record brings in: RECEIVED with an amount. */
  function ReceivedAmount(r: IncomeRecord): real {
    if r.status == Received && r.actualAmount.Some? then r.actualAmount.value else 0.0
  }

  /** The actual amounts of the received records, added up from the front. */
  function ReceivedSum(records: seq<IncomeRecord>): real {
    if |records| == 0 then 0.0 else ReceivedAmount(records[0]) + ReceivedSum(records[1..])
  }

  /** ReceivedSum taken from the back, the order the `forEach` adds in. */
  lemma {:induction false} ReceivedSumLast(records: seq<IncomeRecord>)
    requires |records| > 0
    ensures ReceivedSum(records) == ReceivedSum(records[..|records| - 1]) + ReceivedAmount(records[|records| - 1])
  {
    if |records| > 1 {
      var init := records[..|records| - 1];
      ReceivedSumLast(records[1..]);
      assert records[1..][..|records[1..]| - 1] == init[1..];
    }
  }

  /** The `forEach` over a source's records in the period. */
  function RecordTotals(amount: real, records: seq<IncomeRecord>, now: Instant): (t: Totals)
    ensures t.expected == Times(|records|, amount)
    ensures t.received == ReceivedSum(records)
    ensures t.pending == Times(Seqs.Count(records, IsPending), amount)
    ensures t.overdue == Times(Seqs.Count(records, LateAt(now)), amount)
  {
    if |records| == 0 then NoTotals
    else
      var n := |records| - 1;
      var prev := RecordTotals(amount, records[..n], now);
      var c := RecordContribution(amount, now, records[n]);
      ContributionFacts(amount, now, records[n]);
      CountStep(records, IsPending);
      CountStep(records, LateAt(now));
      ReceivedSumLast(records);
      Add(prev, c)
  }

  lemma ContributionFacts(amount: real, now: Instant, r: IncomeRecord)
    ensures RecordContribution(amount, now, r).expected == amount
    ensures RecordContribution(amount, now, r).received == ReceivedAmount(r)
    ensures RecordContribution(amount, now, r).pending == if IsPending(r) then amount else 0.0
    ensures RecordContribution(amount, now, r).overdue == if LateAt(now)(r) then amount else 0.0
  {
  }

  lemma CountStep(s: seq<IncomeRecord>, p: IncomeRecord -> bool)
    requires |s| > 0
    ensures Seqs.Count(s, p) == Seqs.Count(s[..|s| - 1], p) + if p(s[|s| - 1]) then 1 else 0
  {
  }

  /** Every overdue record is a pending one. */
  lemma LateRecordsArePending(records: seq<IncomeRecord>, now: Instant)
    ensures Seqs.Count(records, LateAt(now)) <= Seqs.Count(records, IsPending)
  {
    Seqs.CountWeaker(records, LateAt(now), IsPending);
  }

  /** With a non-negative source amount, overdue never exceeds pending and
      pending never exceeds expected. */
  lemma RecordTotalsOrdered(amount: real, records: seq<IncomeRecord>, now: Instant)
    ensures amount >= 0.0 ==>
      0.0 <= RecordTotals(amount, records, now).overdue <= RecordTotals(amount, records, now).pending
      <= RecordTotals(amount, records, now).expected
  {
    LateRecordsArePending(records, now);
    var late := Seqs.Count(records, LateAt(now));
    var pending := Seqs.Count(records, IsPending);
    if amount >= 0.0 {
      TimesMonotone(late, pending, amount);
      TimesMonotone(pending, |records|, amount);
    }
  }

  /** The totals of two batches of records add up: the order in which the
      records arrive does not matter beyond their grouping. */
  lemma {:induction false} RecordTotalsSplit(amount: real, a: seq<IncomeRecord>, b: seq<IncomeRecord>, now: Instant)
    ensures RecordTotals(amount, a + b, now) == Add(RecordTotals(amount, a, now), RecordTotals(amount, b, now))
    decreases |b|
  {
    if |b| == 0 {
      assert a + b == a;
    } else {
      var b' := b[..|b| - 1];
      assert (a + b)[..|a + b| - 1] == a + b';
      assert (a + b)[|a + b| - 1] == b[|b| - 1];
      RecordTotalsSplit(amount, a, b', now);
    }
  }

  // ---------------------------------------------------------------------------
  // Sources without records in the period

  /** `source.scheduleDays?.length || 1`. */
  function ScheduledPerMonth(days: seq<DayOfMonth>): (n: nat)
    ensures n >= 1
    ensures |days| > 0 ==> n == |days|
  {
    if |days| == 0 then 1 else |days|
  }

  /** JavaScript's `a % b` for b > 0: the remainder takes the sign of a. */
  function JsRem(a: int, b: int): (r: int)
    requires b > 0
    ensures a >= 0 ==> r == a % b
    ensures a < 0 ==> r <= 0
  {
    if a >= 0 then a % b else -((-a) % b)
  }

  /** How many payments a source without records is taken to make in the
      period; `month` is the 1-based month parameter. */
  function ExpectedPayments(freq: Frequency, days: seq<DayOfMonth>, period: Period, month: int): (n: nat)
    ensures freq == OneTime ==> n == 0
    // A month period counts what the yearly projections give that month ...
    ensures period == MonthPeriod && 1 <= month <= 12 ==> n == PaymentsInMonth(freq, days, month - 1)
    // ... and a yearly period what the twelve projections add up to, except
    // that weekly sources get 4 more (52, not 48) and bi-weekly ones 2 more.
    ensures period == YearPeriod ==>
      n == MonthsCount(freq, days, 12) + (if freq == Weekly then 4 else if freq == Biweekly then 2 else 0)
  {
    MonthsCountClosed(freq, days, 12);
    match freq
    case Weekly => if period == YearPeriod then 52 else 4
    case Biweekly => if period == YearPeriod then 26 else 2
    case Monthly => (if period == YearPeriod then 12 else 1) * ScheduledPerMonth(days)
    case Quarterly => if period == YearPeriod then 4 else if JsRem(month, 3) == 1 then 1 else 0
    case Yearly => if period == YearPeriod then 1 else if month == 1 then 1 else 0
    case OneTime => 0
  }

  /** A quarterly source is expected in a month period exactly for January,
      April, July and October. */
  lemma QuarterlyMonths(days: seq<DayOfMonth>, month: int)
    requires 1 <= month <= 12
    ensures ExpectedPayments(Quarterly, days, MonthPeriod, month) == 1 <==> month in {1, 4, 7, 10}
    ensures ExpectedPayments(Quarterly, days, MonthPeriod, month) <= 1
  {
  }

  /** The per-payment amount the route divides by: a monthly source with
      several days splits its amount evenly, every other source pays it whole. */
  function PeriodPerPayment(src: Source): (r: real)
    ensures r * SplitCount(CalculatorConfig(src)) == src.amount
  {
    if src.frequency == Monthly && |src.days| > 1 then src.amount / (|src.days| as real) else src.amount
  }

  /** The route's split agrees with the calculator's amount for any source
      with a positive amount. */
  lemma PeriodSplitMatchesCalculator(src: Source)
    requires src.amount > 0.0
    ensures PeriodPerPayment(src) == PerPaymentAmount(CalculatorConfig(src), None)
  {
  }

  /** The totals of one source: its records when it has some; otherwise,
      when active, the presumed count of payments times the per-payment
      amount, all of it pending; an inactive source without records adds
      nothing. */
  function SourceTotals(src: Source, records: seq<IncomeRecord>, period: Period, month: int, now: Instant): (t: Totals)
    ensures |records| > 0 ==> t == RecordTotals(src.amount, records, now)
    ensures |records| == 0 && !src.isActive ==> t == NoTotals
    ensures |records| == 0 && src.isActive ==>
      t.pending == t.expected && t.received == 0.0 && t.overdue == 0.0
      && t.expected == ExpectedPayments(src.frequency, src.days, period, month) as real * PeriodPerPayment(src)
    ensures src.amount >= 0.0 ==> 0.0 <= t.overdue <= t.pending <= t.expected
  {
    if |records| == 0 && src.isActive then
      var count := ExpectedPayments(src.frequency, src.days, period, month);
      var expected := count as real * PeriodPerPayment(src);
      assert src.amount >= 0.0 ==> PeriodPerPayment(src) >= 0.0;
      Totals(expected, 0.0, expected, 0.0)
    else
      RecordTotalsOrdered(src.amount, records, now);
      RecordTotals(src.amount, records, now)
  }

  /** An active monthly source without records is expected to bring in its
      amount in a month period, however many days it is split over, and
      twelve times that in a year. */
  lemma MonthlySourceExpectsItsAmount(src: Source, month: int, now: Instant)
    requires src.isActive && src.frequency == Monthly
    ensures SourceTotals(src, [], MonthPeriod, month, now).expected == src.amount
    ensures SourceTotals(src, [], YearPeriod, month, now).expected == 12.0 * src.amount
  {
    var n := |src.days|;
    if n > 1 {
      assert (n as real) * (src.amount / n as real) == src.amount;
      assert (12 * n) as real * (src.amount / n as real) == 12.0 * src.amount;
    }
  }

  datatype SourceRecords = SourceRecords(source: Source, records: seq<IncomeRecord>)

  predicate NonNegativeAmounts(rows: seq<SourceRecords>) {
    forall i :: 0 <= i < |rows| ==> rows[i].source.amount >= 0.0
  }

  /** The summary totals: the sum of every source's totals. */
  function Summary(rows: seq<SourceRecords>, period: Period, month: int, now: Instant): (t: Totals)
    ensures NonNegativeAmounts(rows) ==> 0.0 <= t.overdue <= t.pending <= t.expected
  {
    if |rows| == 0 then NoTotals
    else
      var last := rows[|rows| - 1];
      Add(Summary(rows[..|rows| - 1], period, month, now),
          SourceTotals(last.source, last.records, period, month, now))
  }

  /** The summary of two batches of sources is the sum of their summaries. */
  lemma {:induction false} SummarySplit(a: seq<SourceRecords>, b: seq<SourceRecords>, period: Period, month: int, now: Instant)
    ensures Summary(a + b, period, month, now) == Add(Summary(a, period, month, now), Summary(b, period, month, now))
    decreases |b|
  {
    if |b| == 0 {
      assert a + b == a;
      assert Summary(b, period, month, now) == NoTotals;
      AddNothing(Summary(a, period, month, now));
    } else {
      var b' := b[..|b| - 1];
      var last := b[|b| - 1];
      assert (a + b)[..|a + b| - 1] == a + b';
      assert (a + b)[|a + b| - 1] == last;
      var x := SourceTotals(last.source, last.records, period, month, now);
      assert Summary(a + b, period, month, now) == Add(Summary(a + b', period, month, now), x);
      assert Summary(b, period, month, now) == Add(Summary(b', period, month, now), x);
      SummarySplit(a, b', period, month, now);
      AddAssociates(Summary(a, period, month, now), Summary(b', period, month, now), x);
    }
  }

  /** The summary of a single source is that source's totals. */
  lemma SummaryOfOne(row: SourceRecords, period: Period, month: int, now: Instant)
    ensures Summary([row], period, month, now) == SourceTotals(row.source, row.records, period, month, now)
  {
    assert [row][..0] == [];
  }

  /** `receiptRate`: received as a percentage of expected, or 0 when nothing
      is expected. */
  function ReceiptRate(t: Totals): (r: real)
    ensures t.expected > 0.0 ==> r * t.expected == t.received * 100.0
    ensures t.expected <= 0.0 ==> r == 0.0
  {
    if t.expected > 0.0 then (t.received / t.expected) * 100.0 else 0.0
  }

  /** Receiving no more than expected keeps the rate within 0..100. */
  lemma ReceiptRateBounded(t: Totals)
    requires 0.0 <= t.received <= t.expected
    ensures 0.0 <= ReceiptRate(t) <= 100.0
  {
    if t.expected > 0.0 {
      PercentBounded(t.received, t.expected);
    }
  }

  /** A part of a positive whole is between 0 and 100 percent of it. */
  lemma PercentBounded(a: real, b: real)
    requires 0.0 <= a <= b && b > 0.0
    ensures 0.0 <= (a / b) * 100.0 <= 100.0
  {
    assert a / b <= 1.0 by {
      assert (a / b) * b == a;
    }
  }

  // ---------------------------------------------------------------------------
  // Monthly projections of a year

  /** Payments a source is projected to make in month m (0-based). */
  function PaymentsInMonth(freq: Frequency, days: seq<DayOfMonth>, m: Month): nat {
    match freq
    case Weekly => 4
    case Biweekly => 2
    case Monthly => ScheduledPerMonth(days)
    case Quarterly => if (m + 1) % 3 == 1 then 1 else 0
    case Yearly => if m == 0 then 1 else 0
    case OneTime => 0
  }

  function MonthsCount(freq: Frequency, days: seq<DayOfMonth>, k: int): nat
    requires 0 <= k <= 12
  {
    if k == 0 then 0 else MonthsCount(freq, days, k - 1) + PaymentsInMonth(freq, days, k - 1)
  }

  /** The projected count of the first k months in closed form. */
  lemma {:induction false} MonthsCountClosed(freq: Frequency, days: seq<DayOfMonth>, k: int)
    requires 0 <= k <= 12
    ensures MonthsCount(freq, days, k) ==
      match freq
      case Weekly => 4 * k
      case Biweekly => 2 * k
      case Monthly => ScheduledPerMonth(days) * k
      case Quarterly => if k >= 10 then 4 else if k >= 7 then 3 else if k >= 4 then 2 else if k >= 1 then 1 else 0
      case Yearly => if k > 0 then 1 else 0
      case OneTime => 0
  {
    if k > 0 {
      MonthsCountClosed(freq, days, k - 1);
      if freq == Monthly {
        MonthlyStep(ScheduledPerMonth(days), k);
      }
    }
  }

  lemma MonthlyStep(n: nat, k: int)
    ensures n * (k - 1) + n == n * k
  {
  }

  /** What one source adds to month m's projection: nothing when inactive,
      else its projected count times its per-payment amount. */
  function SourceMonthExpected(src: Source, m: Month): (r: real)
    ensures !src.isActive ==> r == 0.0
    ensures src.amount >= 0.0 ==> r >= 0.0
  {
    if !src.isActive then 0.0
    else
      assert src.amount >= 0.0 ==> PeriodPerPayment(src) >= 0.0;
      PaymentsInMonth(src.frequency, src.days, m) as real * PeriodPerPayment(src)
  }

  /** The expected amount of month m: every active source's projected count
      times its per-payment amount. */
  function MonthExpected(sources: seq<Source>, m: Month): (r: real)
    ensures (forall i :: 0 <= i < |sources| ==> sources[i].amount >= 0.0) ==> r >= 0.0
    ensures (forall i :: 0 <= i < |sources| ==> !sources[i].isActive) ==> r == 0.0
  {
    if |sources| == 0 then 0.0
    else MonthExpected(sources[..|sources| - 1], m) + SourceMonthExpected(sources[|sources| - 1], m)
  }

  /** Every source paired with no records for the period. */
  function WithoutRecords(sources: seq<Source>): (rows: seq<SourceRecords>)
    ensures |rows| == |sources|
    ensures forall i :: 0 <= i < |sources| ==> rows[i] == SourceRecords(sources[i], [])
  {
    seq(|sources|, i requires 0 <= i < |sources| => SourceRecords(sources[i], []))
  }

  lemma SummaryLastExpected(rows: seq<SourceRecords>, period: Period, month: int, now: Instant)
    requires |rows| > 0
    ensures Summary(rows, period, month, now).expected
      == Summary(rows[..|rows| - 1], period, month, now).expected
         + SourceTotals(rows[|rows| - 1].source, rows[|rows| - 1].records, period, month, now).expected
  {
  }

  /** A source without records expects in a month period what it adds to
      that month's projection. */
  lemma NoRecordsExpected(src: Source, m: Month, now: Instant)
    ensures SourceTotals(src, [], MonthPeriod, m + 1, now).expected == SourceMonthExpected(src, m)
  {
  }

  /** The rows of all sources but the last, then the last one's. */
  lemma WithoutRecordsLast(sources: seq<Source>)
    requires |sources| > 0
    ensures WithoutRecords(sources)[..|sources| - 1] == WithoutRecords(sources[..|sources| - 1])
    ensures WithoutRecords(sources)[|sources| - 1] == SourceRecords(sources[|sources| - 1], [])
  {
  }

  /** A month's projected amount is what the summary of that single month
      expects when no source has records in it. */
  lemma {:induction false} MonthExpectedIsMonthSummary(sources: seq<Source>, m: Month, now: Instant)
    ensures MonthExpected(sources, m) == Summary(WithoutRecords(sources), MonthPeriod, m + 1, now).expected
  {
    if |sources| > 0 {
      var init := sources[..|sources| - 1];
      var src := sources[|sources| - 1];
      var rows := WithoutRecords(sources);
      MonthExpectedIsMonthSummary(init, m, now);
      WithoutRecordsLast(sources);
      SummaryLastExpected(rows, MonthPeriod, m + 1, now);
      NoRecordsExpected(src, m, now);
    }
  }

  datatype Projection = Projection(month: int, expected: real)

  /** The twelve projections of a yearly period, months numbered from 1. */
  function Projections(sources: seq<Source>): (r: seq<Projection>)
    ensures |r| == 12
    ensures forall m :: 0 <= m < 12 ==> r[m].month == m + 1 && r[m].expected == MonthExpected(sources, m)
  {
    seq(12, m requires 0 <= m < 12 => Projection(m + 1, MonthExpected(sources, m)))
  }

  // ---------------------------------------------------------------------------
  // Upcoming payments shown by the route

  /** An entry of `upcomingPayments`; `existing` marks one built from a
      stored record. */
  datatype Upcoming = Upcoming(date: Instant, amount: real, sourceId: nat, existing: bool)

  function DateKey(u: Upcoming): int {
    Stamp(u.date)
  }

  predicate PositiveAmount(u: Upcoming) {
    u.amount > 0.0
  }

  /** Days the calculator looks ahead for each source. */
  const LookAhead: int := 60

  /** Entries the route shows. */
  const Shown: nat := 10

  /** Future records the route fetches. */
  const FetchedRecords: nat := 20

  /** Days searched when matching a stored record to a calculated payment. */
  const MatchWindow: int := 90

  /** Payments as entries of one source. */
  function AsEntries(ps: seq<Payment>, id: nat): (r: seq<Upcoming>)
    ensures |r| == |ps|
    ensures forall i :: 0 <= i < |ps| ==> r[i] == Upcoming(ps[i].date, ps[i].amount, id, false)
  {
    seq(|ps|, i requires 0 <= i < |ps| => Upcoming(ps[i].date, ps[i].amount, id, false))
  }

  /** Payments with positive amounts on days after `lo` and not after `end`
      all survive the positive-amount filter as entries, and the entries stay
      in that window. */
  lemma EntriesWindow(ps: seq<Payment>, id: nat, lo: int, end: Instant)
    requires forall i :: 0 <= i < |ps| ==> lo < ps[i].date.day && Stamp(ps[i].date) <= Stamp(end) && ps[i].amount > 0.0
    ensures Seqs.Filter(AsEntries(ps, id), PositiveAmount) == AsEntries(ps, id)
    ensures forall u :: u in AsEntries(ps, id) ==>
      !u.existing && u.amount > 0.0 && u.sourceId == id && lo < u.date.day <= end.day
  {
    var entries := AsEntries(ps, id);
    forall u | u in entries
      ensures !u.existing && u.amount > 0.0 && u.sourceId == id && lo < u.date.day <= end.day
    {
      var i :| 0 <= i < |entries| && entries[i] == u;
      StampOrder(ps[i].date, end);
    }
    Seqs.FilterAll(entries, PositiveAmount);
  }

  /** The calculated payments of one source from `now` on, as entries. */
  function SourceUpcoming(src: Source, now: Instant): (r: seq<Upcoming>)
    ensures forall u :: u in r ==> !u.existing && u.amount > 0.0 && u.sourceId == src.id
    ensures forall u :: u in r ==> now.day < u.date.day <= now.day + LookAhead
    // Every calculated payment is valid, so each becomes an entry, in order.
    ensures |r| == |UpcomingPayments(CalculatorConfig(src), now, LookAhead)|
    ensures forall i :: 0 <= i < |r| ==>
      r[i] == Upcoming(UpcomingPayments(CalculatorConfig(src), now, LookAhead)[i].date,
                       UpcomingPayments(CalculatorConfig(src), now, LookAhead)[i].amount, src.id, false)
  {
    var ps := UpcomingPayments(CalculatorConfig(src), now, LookAhead);
    EntriesWindow(ps, src.id, now.day, Instant(now.day + LookAhead, now.minute));
    Seqs.Filter(AsEntries(ps, src.id), PositiveAmount)
  }

  /** A weekly or bi-weekly source stored with Sunday contributes no
      calculated entries. */
  lemma SundaySourceHasNoUpcoming(src: Source, now: Instant)
    requires src.frequency == Weekly || src.frequency == Biweekly
    requires src.weekday == Some(0)
    ensures SourceUpcoming(src, now) == []
  {
    SundaySourceNeverPays(src, now, LookAhead);
  }

  /** The calculated entries of every scheduled source, source by source. */
  function Calculated(sources: seq<Source>, now: Instant): (r: seq<Upcoming>)
    ensures forall u :: u in r ==> !u.existing && u.amount > 0.0 && now.day < u.date.day
    ensures forall u :: u in r ==> exists i :: 0 <= i < |sources| && Scheduled(sources[i]) && sources[i].id == u.sourceId
    ensures forall u :: u in r <==> exists i :: 0 <= i < |sources| && Scheduled(sources[i]) && u in SourceUpcoming(sources[i], now)
  {
    if |sources| == 0 then []
    else
      var rest := Calculated(sources[..|sources| - 1], now);
      var src := sources[|sources| - 1];
      var mine := if Scheduled(src) then SourceUpcoming(src, now) else [];
      CalculatedStep(sources, sources[..|sources| - 1], now, rest, mine);
      CalculatedOwned(sources, now, rest + mine);
      rest + mine
  }

  /** The step of Calculated: an entry of the first sources or of the last. */
  lemma CalculatedStep(sources: seq<Source>, init: seq<Source>, now: Instant, rest: seq<Upcoming>, mine: seq<Upcoming>)
    requires |sources| > 0 && init == sources[..|sources| - 1]
    requires forall u :: u in rest <==> exists i :: 0 <= i < |init| && Scheduled(init[i]) && u in SourceUpcoming(init[i], now)
    requires mine == if Scheduled(sources[|sources| - 1]) then SourceUpcoming(sources[|sources| - 1], now) else []
    ensures forall u :: u in rest + mine <==>
      exists i :: 0 <= i < |sources| && Scheduled(sources[i]) && u in SourceUpcoming(sources[i], now)
  {
    forall u | u in rest + mine
      ensures exists i :: 0 <= i < |sources| && Scheduled(sources[i]) && u in SourceUpcoming(sources[i], now)
    {
      CalculatedStepSound(sources, init, now, rest, mine, u);
    }
    forall u | exists i :: 0 <= i < |sources| && Scheduled(sources[i]) && u in SourceUpcoming(sources[i], now)
      ensures u in rest + mine
    {
      var i :| 0 <= i < |sources| && Scheduled(sources[i]) && u in SourceUpcoming(sources[i], now);
      CalculatedStepComplete(sources, init, now, rest, mine, u, i);
    }
  }

  lemma CalculatedStepSound(sources: seq<Source>, init: seq<Source>, now: Instant, rest: seq<Upcoming>,
                            mine: seq<Upcoming>, u: Upcoming)
    requires |sources| > 0 && init == sources[..|sources| - 1]
    requires u in rest ==> exists i :: 0 <= i < |init| && Scheduled(init[i]) && u in SourceUpcoming(init[i], now)
    requires mine == if Scheduled(sources[|sources| - 1]) then SourceUpcoming(sources[|sources| - 1], now) else []
    requires u in rest + mine
    ensures exists i :: 0 <= i < |sources| && Scheduled(sources[i]) && u in SourceUpcoming(sources[i], now)
  {
    if u in rest {
      var i :| 0 <= i < |init| && Scheduled(init[i]) && u in SourceUpcoming(init[i], now);
      assert sources[i] == init[i];
    } else {
      assert u in mine;
      assert Scheduled(sources[|sources| - 1]);
    }
  }

  lemma CalculatedStepComplete(sources: seq<Source>, init: seq<Source>, now: Instant, rest: seq<Upcoming>,
                               mine: seq<Upcoming>, u: Upcoming, i: int)
    requires |sources| > 0 && init == sources[..|sources| - 1]
    requires (exists k :: 0 <= k < |init| && Scheduled(init[k]) && u in SourceUpcoming(init[k], now)) ==> u in rest
    requires mine == if Scheduled(sources[|sources| - 1]) then SourceUpcoming(sources[|sources| - 1], now) else []
    requires 0 <= i < |sources| && Scheduled(sources[i]) && u in SourceUpcoming(sources[i], now)
    ensures u in rest + mine
  {
    if i < |sources| - 1 {
      assert init[i] == sources[i];
    }
  }

  /** An entry of some source's calculated entries belongs to that source. */
  lemma CalculatedOwned(sources: seq<Source>, now: Instant, r: seq<Upcoming>)
    requires forall u :: u in r <==> exists i :: 0 <= i < |sources| && Scheduled(sources[i]) && u in SourceUpcoming(sources[i], now)
    ensures forall u :: u in r ==> exists i :: 0 <= i < |sources| && Scheduled(sources[i]) && sources[i].id == u.sourceId
  {
    forall u | u in r
      ensures exists i :: 0 <= i < |sources| && Scheduled(sources[i]) && sources[i].id == u.sourceId
    {
      var i :| 0 <= i < |sources| && Scheduled(sources[i]) && u in SourceUpcoming(sources[i], now);
    }
  }

  /** A stored record joined with its source, as the route's query returns. */
  datatype StoredRecord = StoredRecord(record: IncomeRecord, source: Source)

  function RecordKey(j: StoredRecord): int {
    Stamp(j.record.expectedDate)
  }

  function NotBefore(now: Instant): StoredRecord -> bool {
    (j: StoredRecord) => Stamp(j.record.expectedDate) >= Stamp(now)
  }

  /** The records query: expected at or after now, earliest first, at most
      20 of them. */
  function FutureRecords(store: seq<StoredRecord>, now: Instant): (r: seq<StoredRecord>)
    ensures |r| <= FetchedRecords
    ensures forall j :: j in r ==> j in store && Stamp(j.record.expectedDate) >= Stamp(now)
    ensures Seqs.SortedBy(r, RecordKey)
    // A record at or after now is left out only when 20 others, none of them
    // later, were fetched.
    ensures forall j :: j in store && Stamp(j.record.expectedDate) >= Stamp(now) && j !in r ==>
      |r| == FetchedRecords && forall e :: e in r ==> RecordKey(e) <= RecordKey(j)
  {
    var candidates := Seqs.Filter(store, NotBefore(now));
    var r := Seqs.Earliest(candidates, RecordKey, FetchedRecords);
    forall j | j in r
      ensures j in store && Stamp(j.record.expectedDate) >= Stamp(now)
    {
      assert j in multiset(r);
    }
    forall j | j in store && Stamp(j.record.expectedDate) >= Stamp(now) && j !in r
      ensures |r| == FetchedRecords && forall e :: e in r ==> RecordKey(e) <= RecordKey(j)
    {
      assert NotBefore(now)(j);
      assert j in candidates;
      if |r| < FetchedRecords {
        Seqs.EarliestKeepsAllWhenShort(candidates, RecordKey, FetchedRecords);
      }
      Seqs.EarliestFirst(candidates, RecordKey, FetchedRecords, j);
    }
    r
  }

  /** `find` from index k on: the first payment on the given calendar day. */
  function FindOnDay(ps: seq<Payment>, day: int, k: nat): (r: Option<Payment>)
    requires k <= |ps|
    ensures r.None? ==> forall i :: k <= i < |ps| ==> ps[i].date.day != day
    ensures r.Some? ==> exists i :: k <= i < |ps| && ps[i] == r.value && ps[i].date.day == day
                                   && forall i' :: k <= i' < i ==> ps[i'].date.day != day
    decreases |ps| - k
  {
    if k == |ps| then None
    else if ps[k].date.day == day then Some(ps[k])
    else FindOnDay(ps, day, k + 1)
  }

  /** The amount shown for a stored record: the calculator's payment on the
      record's calendar day, searching 90 days from the first of the previous
      month; 0 when no payment falls on that day. */
  function StoredAmount(j: StoredRecord): (r: real)
    ensures r != 0.0 ==> exists p :: FindOnDay(StoredSearch(j), j.record.expectedDate.day, 0) == Some(p) && p.amount == r
  {
    match FindOnDay(StoredSearch(j), j.record.expectedDate.day, 0)
    case Some(p) => p.amount
    case None => 0.0
  }

  /** The calculator's payments from midnight on the first of the month
      before the record's expected date. */
  function StoredSearch(j: StoredRecord): seq<Payment> {
    var c := ToCivil(j.record.expectedDate.day);
    UpcomingPayments(CalculatorConfig(j.source), Instant(MakeDay(c.year, c.month - 1, 1), 0), MatchWindow)
  }

  function AsEntry(j: StoredRecord): Upcoming {
    Upcoming(j.record.expectedDate, StoredAmount(j), j.source.id, true)
  }

  function IsPendingRecord(j: StoredRecord): bool {
    j.record.status == Pending
  }

  /** The stored entries: pending records only, each with its matched
      amount, dropping those whose amount is not positive. */
  function StoredEntries(future: seq<StoredRecord>): (r: seq<Upcoming>)
    ensures forall u :: u in r ==> u.existing && u.amount > 0.0
    ensures forall u :: u in r ==> exists j :: j in future && j.record.status == Pending && u.date == j.record.expectedDate
    ensures forall u :: u in r <==> u.amount > 0.0 && exists j :: j in future && j.record.status == Pending && u == AsEntry(j)
  {
    var pending := Seqs.Filter(future, IsPendingRecord);
    var entries := StoredAsEntries(pending);
    StoredExact(future, pending, entries);
    Seqs.Filter(entries, PositiveAmount)
  }

  /** The stored entries are exactly the positive entries of pending records. */
  lemma StoredExact(future: seq<StoredRecord>, pending: seq<StoredRecord>, entries: seq<Upcoming>)
    requires pending == Seqs.Filter(future, IsPendingRecord)
    requires entries == StoredAsEntries(pending)
    ensures forall u :: u in Seqs.Filter(entries, PositiveAmount) <==>
      u.amount > 0.0 && exists j :: j in future && j.record.status == Pending && u == AsEntry(j)
  {
    var kept := Seqs.Filter(entries, PositiveAmount);
    forall u | u in kept
      ensures u.amount > 0.0 && exists j :: j in future && j.record.status == Pending && u == AsEntry(j)
    {
      StoredSound(future, pending, entries, u);
    }
    forall u: Upcoming | u.amount > 0.0 && exists j :: j in future && j.record.status == Pending && u == AsEntry(j)
      ensures u in kept
    {
      var j :| j in future && j.record.status == Pending && u == AsEntry(j);
      StoredComplete(future, pending, entries, j);
    }
  }

  lemma StoredSound(future: seq<StoredRecord>, pending: seq<StoredRecord>, entries: seq<Upcoming>, u: Upcoming)
    requires pending == Seqs.Filter(future, IsPendingRecord)
    requires entries == StoredAsEntries(pending)
    requires u in Seqs.Filter(entries, PositiveAmount)
    ensures u.amount > 0.0 && exists j :: j in future && j.record.status == Pending && u == AsEntry(j)
  {
    assert u in entries && PositiveAmount(u);
    var i :| 0 <= i < |entries| && entries[i] == u;
    var j := pending[i];
    assert j in pending;
    assert IsPendingRecord(j) && j in future;
    assert u == AsEntry(j);
  }

  lemma StoredComplete(future: seq<StoredRecord>, pending: seq<StoredRecord>, entries: seq<Upcoming>, j: StoredRecord)
    requires pending == Seqs.Filter(future, IsPendingRecord)
    requires entries == StoredAsEntries(pending)
    requires j in future && j.record.status == Pending && AsEntry(j).amount > 0.0
    ensures AsEntry(j) in Seqs.Filter(entries, PositiveAmount)
  {
    assert IsPendingRecord(j);
    var i :| 0 <= i < |pending| && pending[i] == j;
    assert entries[i] == AsEntry(j);
    assert PositiveAmount(AsEntry(j));
  }

  function StoredAsEntries(pending: seq<StoredRecord>): (r: seq<Upcoming>)
    ensures |r| == |pending|
    ensures forall i :: 0 <= i < |r| ==> r[i] == AsEntry(pending[i])
  {
    seq(|pending|, i requires 0 <= i < |pending| => AsEntry(pending[i]))
  }

  /** Calendar days of every fetched future record, whatever its status. */
  function RecordDays(future: seq<StoredRecord>): set<int> {
    set j | j in future :: j.record.expectedDate.day
  }

  function NotOn(days: set<int>): Upcoming -> bool {
    (u: Upcoming) => u.date.day !in days
  }

  /** The route's `upcomingPayments`: the stored pending entries together
      with those of the 10 earliest calculated entries that fall on no
      fetched record's day, earliest first, at most 10. */
  function MergeUpcoming(sources: seq<Source>, store: seq<StoredRecord>, now: Instant): (r: seq<Upcoming>)
    ensures |r| <= Shown
    ensures Seqs.SortedBy(r, DateKey)
    ensures forall u :: u in r ==> u.amount > 0.0
    ensures forall u :: u in r && u.existing ==>
      exists j :: j in FutureRecords(store, now) && j.record.status == Pending && u.date == j.record.expectedDate
    ensures forall u :: u in r && u.existing ==> u in StoredEntries(FutureRecords(store, now))
    ensures forall u :: u in r && !u.existing ==>
      u in Seqs.Earliest(Calculated(sources, now), DateKey, Shown)
      && u.date.day !in RecordDays(FutureRecords(store, now))
    // An entry the final cut leaves out is no earlier than any kept one, and
    // only a full list leaves anything out.
    ensures forall u :: u in StoredEntries(FutureRecords(store, now)) && u !in r ==>
      |r| == Shown && forall e :: e in r ==> DateKey(e) <= DateKey(u)
    ensures forall u ::
      u in Seqs.Earliest(Calculated(sources, now), DateKey, Shown) && u.date.day !in RecordDays(FutureRecords(store, now)) && u !in r
      ==> |r| == Shown && forall e :: e in r ==> DateKey(e) <= DateKey(u)
  {
    var calculated := Calculated(sources, now);
    var top := Seqs.Earliest(calculated, DateKey, Shown);
    var future := FutureRecords(store, now);
    var stored := StoredEntries(future);
    var r := MergeEntries(stored, top, RecordDays(future));
    KeptFrom(calculated, DateKey, Shown);
    r
  }

  /** The final cut over the stored entries and the calculated ones that
      fall on none of `days`: at most 10, earliest first, drawn from those,
      and leaving one out only when full and no earlier than any kept one. */
  function MergeEntries(stored: seq<Upcoming>, top: seq<Upcoming>, days: set<int>): (r: seq<Upcoming>)
    ensures |r| <= Shown
    ensures Seqs.SortedBy(r, DateKey)
    ensures forall u :: u in r ==> u in stored || (u in top && u.date.day !in days)
    ensures forall u :: (u in stored || (u in top && u.date.day !in days)) && u !in r ==>
      |r| == Shown && forall e :: e in r ==> DateKey(e) <= DateKey(u)
  {
    var unmatched := Seqs.Filter(top, NotOn(days));
    var r := Seqs.Earliest(stored + unmatched, DateKey, Shown);
    KeptFrom(stored + unmatched, DateKey, Shown);
    UnmatchedFacts(top, days);
    forall u | (u in stored || (u in top && u.date.day !in days)) && u !in r
      ensures |r| == Shown && forall e :: e in r ==> DateKey(e) <= DateKey(u)
    {
      if u !in stored {
        assert NotOn(days)(u);
        assert u in unmatched;
      }
      assert u in stored + unmatched;
      if |r| < Shown {
        Seqs.EarliestKeepsAllWhenShort(stored + unmatched, DateKey, Shown);
      }
      Seqs.EarliestFirst(stored + unmatched, DateKey, Shown, u);
    }
    r
  }

  /** Whatever the cut keeps comes from its input. */
  lemma KeptFrom<T>(s: seq<T>, key: T -> int, n: nat)
    ensures forall x :: x in Seqs.Earliest(s, key, n) ==> x in s
  {
    forall x | x in Seqs.Earliest(s, key, n)
      ensures x in s
    {
      assert x in multiset(Seqs.Earliest(s, key, n));
    }
  }

  lemma UnmatchedFacts(top: seq<Upcoming>, days: set<int>)
    ensures forall u :: u in Seqs.Filter(top, NotOn(days)) ==> u in top && u.date.day !in days
  {
    forall u | u in Seqs.Filter(top, NotOn(days))
      ensures u in top && u.date.day !in days
    {
      assert NotOn(days)(u);
    }
  }
}

=== FILE: calendar.dfy ===
/** The proleptic Gregorian calendar as JavaScript's `Date` sees it, reduced to
    what the payment schedule engine uses: day numbers counted from 1970-01-01,
    the year/month/date/weekday of a day number, and `MakeDay`, which turns a
    possibly out-of-range (year, month, date) triple into a day number the way
    section 21.4.1 of ECMA-262 does ("new Date(y, 1, 30)" is a day in March).
    Time zones and daylight saving are not modelled: every instant is local
    civil time. */
module Calendar {

  /** Month index as `Date.prototype.getMonth` returns it: 0 = January. */
  type Month = m: int | 0 <= m < 12

  /** Day of the week as `Date.prototype.getDay` returns it: 0 = Sunday. */
  type Weekday = w: int | 0 <= w < 7

  const MinutesPerDay: int := 1440

  type MinuteOfDay = m: int | 0 <= m < MinutesPerDay

  /** A local date-time at minute precision: a day number and a minute of that day. */
  datatype Instant = Instant(day: int, minute: MinuteOfDay)

  /** A calendar date: year, 0-based month, 1-based day of the month. */
  datatype Civil = Civil(year: int, month: Month, date: int)

  // ---------------------------------------------------------------------------
  // Years and months

  predicate IsLeapYear(y: int) {
    y % 4 == 0 && (y % 100 != 0 || y % 400 == 0)
  }

  function DaysInYear(y: int): int {
    if IsLeapYear(y) then 366 else 365
  }

  function DaysInMonth(y: int, m: Month): int {
    if m == 1 then (if IsLeapYear(y) then 29 else 28)
    else if m == 3 || m == 5 || m == 8 || m == 10 then 30
    else 31
  }

  /** Days of year `y` that precede the first of month `m` (the thresholds of
      ECMA-262's MonthFromTime). */
  function DaysBeforeMonth(y: int, m: Month): int {
    var leap := if IsLeapYear(y) && m >= 2 then 1 else 0;
    [0, 31, 59, 90, 120, 151, 181, 212, 243, 273, 304, 334][m] + leap
  }

  /** Day number of January 1 of year `y` (ECMA-262 DayFromYear); `/` is floor
      division here because every divisor is positive. */
  function DayFromYear(y: int): int {
    365 * (y - 1970) + (y - 1969) / 4 - (y - 1901) / 100 + (y - 1601) / 400
  }

  /** ECMA-262 MakeDay: the month is carried into the year by floor division
      and the date is added as a plain day offset, so out-of-range months and
      dates roll over instead of failing. */
  function MakeDay(y: int, m: int, d: int): int {
    var ym := y + m / 12;
    var mn := m % 12;
    DayFromYear(ym) + DaysBeforeMonth(ym, mn) + d - 1
  }

  /** ECMA-262 WeekDay: 1970-01-01 was a Thursday. */
  function WeekdayOf(n: int): Weekday {
    (n + 4) % 7
  }

  predicate ValidCivil(c: Civil) {
    1 <= c.date <= DaysInMonth(c.year, c.month)
  }

  /** The month after (y, m), wrapping December to January of the next year. */
  function NextMonth(y: int, m: Month): (r: (int, Month))
    ensures MakeDay(r.0, r.1, 1) == MakeDay(y, m + 1, 1)
  {
    if m == 11 then (y + 1, 0) else (y, m + 1)
  }

  // ---------------------------------------------------------------------------
  // Arithmetic facts behind the year table

  /** Consecutive years start DaysInYear apart: the closed form of DayFromYear
      agrees with the Gregorian leap rule. */
  lemma DayFromYearStep(y: int)
    ensures DayFromYear(y + 1) == DayFromYear(y) + DaysInYear(y)
  {
    LeapCountStep(y);
    DivisibilityChain(y);
    var a := if y % 4 == 0 then 1 else 0;
    var b := if y % 100 == 0 then 1 else 0;
    var c := if y % 400 == 0 then 1 else 0;
    assert DayFromYear(y + 1) - DayFromYear(y) == 365 + a - b + c;
    assert DaysInYear(y) == 365 + a - b + c;
  }

  lemma DivisibilityChain(y: int)
    ensures y % 100 == 0 ==> y % 4 == 0
    ensures y % 400 == 0 ==> y % 100 == 0
  {
    if y % 100 == 0 {
      assert y == 4 * (25 * (y / 100));
    }
    if y % 400 == 0 {
      assert y == 100 * (4 * (y / 400));
    }
  }

  /** How the three floor-division counts of DayFromYear change from y to y + 1. */
  lemma LeapCountStep(y: int)
    ensures (y - 1968) / 4 - (y - 1969) / 4 == if y % 4 == 0 then 1 else 0
    ensures (y - 1900) / 100 - (y - 1901) / 100 == if y % 100 == 0 then 1 else 0
    ensures (y - 1600) / 400 - (y - 1601) / 400 == if y % 400 == 0 then 1 else 0
  {
    assert (y - 1968) / 4 - (y - 1969) / 4 == if y % 4 == 0 then 1 else 0;
    assert (y - 1900) / 100 - (y - 1901) / 100 == if y % 100 == 0 then 1 else 0;
    assert (y - 1600) / 400 - (y - 1601) / 400 == if y % 400 == 0 then 1 else 0;
  }

  lemma {:induction false} DayFromYearMonotone(a: int, b: int)
    requires a < b
    ensures DayFromYear(a + 1) <= DayFromYear(b)
    ensures DayFromYear(a) < DayFromYear(b)
    decreases b - a
  {
    DayFromYearStep(a);
    if a + 1 < b {
      DayFromYearMonotone(a + 1, b);
    }
  }

  lemma MonthsFillYear(y: int, m: Month)
    ensures 0 <= DaysBeforeMonth(y, m)
    ensures DaysBeforeMonth(y, m) + DaysInMonth(y, m) <= DaysInYear(y)
    ensures m < 11 ==> DaysBeforeMonth(y, m + 1) == DaysBeforeMonth(y, m) + DaysInMonth(y, m)
    ensures m == 11 ==> DaysBeforeMonth(y, m) + DaysInMonth(y, m) == DaysInYear(y)
  {
  }

  // ---------------------------------------------------------------------------
  // From a day number back to the calendar

  /** The year containing day `n`, searched upward from year `y`. */
  function YearUp(n: int, y: int): (r: int)
    requires DayFromYear(y) <= n
    ensures DayFromYear(r) <= n < DayFromYear(r + 1)
    decreases n - DayFromYear(y)
  {
    DayFromYearStep(y);
    if n < DayFromYear(y + 1) then y else YearUp(n, y + 1)
  }

  /** The year containing day `n`, searched downward from year `y`. */
  function YearDown(n: int, y: int): (r: int)
    requires n < DayFromYear(y + 1)
    ensures DayFromYear(r) <= n < DayFromYear(r + 1)
    decreases DayFromYear(y + 1) - n
  {
    DayFromYearStep(y);
    if DayFromYear(y) <= n then y else YearDown(n, y - 1)
  }

  /** ECMA-262 YearFromTime, on day numbers. */
  function YearFromDay(n: int): (r: int)
    ensures DayFromYear(r) <= n < DayFromYear(r + 1)
  {
    DayFromYearStep(1969);
    if n >= 0 then YearUp(n, 1970) else YearDown(n, 1969)
  }

  /** ECMA-262 MonthFromTime, given the day `d` within year `y`. */
  function MonthInYear(y: int, d: int): (m: Month)
    requires 0 <= d < DaysInYear(y)
    ensures DaysBeforeMonth(y, m) <= d < DaysBeforeMonth(y, m) + DaysInMonth(y, m)
  {
    if d < DaysBeforeMonth(y, 1) then 0
    else if d < DaysBeforeMonth(y, 2) then 1
    else if d < DaysBeforeMonth(y, 3) then 2
    else if d < DaysBeforeMonth(y, 4) then 3
    else if d < DaysBeforeMonth(y, 5) then 4
    else if d < DaysBeforeMonth(y, 6) then 5
    else if d < DaysBeforeMonth(y, 7) then 6
    else if d < DaysBeforeMonth(y, 8) then 7
    else if d < DaysBeforeMonth(y, 9) then 8
    else if d < DaysBeforeMonth(y, 10) then 9
    else if d < DaysBeforeMonth(y, 11) then 10
    else 11
  }

  /** `getFullYear`, `getMonth` and `getDate` of day `n` at once. */
  function ToCivil(n: int): (c: Civil)
    ensures ValidCivil(c)
    ensures MakeDay(c.year, c.month, c.date) == n
    ensures DayFromYear(c.year) <= n < DayFromYear(c.year + 1)
  {
    var y := YearFromDay(n);
    assert DayFromYear(y) <= n < DayFromYear(y + 1);
    DayFromYearStep(y);
    var m := MonthInYear(y, n - DayFromYear(y));
    var d := n - DayFromYear(y) - DaysBeforeMonth(y, m) + 1;
    MakeDayInYear(y, m, d);
    Civil(y, m, d)
  }

  /** A valid calendar date survives the trip to a day number and back. */
  lemma CivilRoundTrip(c: Civil)
    requires ValidCivil(c)
    ensures ToCivil(MakeDay(c.year, c.month, c.date)) == c
  {
    SameDaySameCivil(c, ToCivil(MakeDay(c.year, c.month, c.date)));
  }

  /** Two valid calendar dates with the same day number are the same date. */
  lemma SameDaySameCivil(a: Civil, b: Civil)
    requires ValidCivil(a) && ValidCivil(b)
    requires MakeDay(a.year, a.month, a.date) == MakeDay(b.year, b.month, b.date)
    ensures a == b
  {
    SameDaySameYear(a, b);
    var y := a.year;
    MakeDayInYear(y, a.month, a.date);
    MakeDayInYear(y, b.month, b.date);
    var d := DaysBeforeMonth(y, a.month) + a.date - 1;
    assert d == DaysBeforeMonth(y, b.month) + b.date - 1;
    MonthUnique(y, d, a.month, b.month);
  }

  lemma SameDaySameYear(a: Civil, b: Civil)
    requires ValidCivil(a) && ValidCivil(b)
    requires MakeDay(a.year, a.month, a.date) == MakeDay(b.year, b.month, b.date)
    ensures a.year == b.year
  {
    YearBounds(a);
    YearBounds(b);
    var n := MakeDay(a.year, a.month, a.date);
    YearUniqueAt(n, a, b);
  }

  lemma YearUniqueAt(n: int, a: Civil, b: Civil)
    requires DayFromYear(a.year) <= n < DayFromYear(a.year + 1)
    requires DayFromYear(b.year) <= n < DayFromYear(b.year + 1)
    ensures a.year == b.year
  {
    YearUnique(n, a.year, b.year);
  }

  lemma YearBounds(c: Civil)
    requires ValidCivil(c)
    ensures DayFromYear(c.year) <= MakeDay(c.year, c.month, c.date) < DayFromYear(c.year + 1)
  {
    DateInYear(c);
  }

  lemma DateInYear(c: Civil)
    requires ValidCivil(c)
    ensures MakeDay(c.year, c.month, c.date) == DayFromYear(c.year) + DaysBeforeMonth(c.year, c.month) + c.date - 1
    ensures DayFromYear(c.year) <= MakeDay(c.year, c.month, c.date) < DayFromYear(c.year + 1)
  {
    MakeDayInYear(c.year, c.month, c.date);
    MonthsFillYear(c.year, c.month);
    DayFromYearStep(c.year);
  }

  /** For an in-range month MakeDay needs no carry. */
  lemma MakeDayInYear(y: int, m: Month, d: int)
    ensures MakeDay(y, m, d) == DayFromYear(y) + DaysBeforeMonth(y, m) + d - 1
  {
    assert m / 12 == 0 && m % 12 == m;
  }

  lemma YearUnique(n: int, a: int, b: int)
    requires DayFromYear(a) <= n < DayFromYear(a + 1)
    requires DayFromYear(b) <= n < DayFromYear(b + 1)
    ensures a == b
  {
    if a < b {
      DayFromYearMonotone(a, b);
    } else if b < a {
      DayFromYearMonotone(b, a);
    }
  }

  lemma MonthUnique(y: int, d: int, a: Month, b: Month)
    requires DaysBeforeMonth(y, a) <= d < DaysBeforeMonth(y, a) + DaysInMonth(y, a)
    requires DaysBeforeMonth(y, b) <= d < DaysBeforeMonth(y, b) + DaysInMonth(y, b)
    ensures a == b
  {
    if a < b {
      MonthOrder(y, a, b);
    } else if b < a {
      MonthOrder(y, b, a);
    }
  }

  lemma MonthOrder(y: int, a: Month, b: Month)
    requires a < b
    ensures DaysBeforeMonth(y, a) + DaysInMonth(y, a) <= DaysBeforeMonth(y, b)
  {
  }

  /** Different day numbers are different calendar dates. */
  lemma ToCivilInjective(n: int, k: int)
    requires ToCivil(n) == ToCivil(k)
    ensures n == k
  {
  }

  // ---------------------------------------------------------------------------
  // Rollover facts used by the schedule engine

  /** Date 0 of the following month is the last day of this month, the idiom
      `new Date(y, m + 1, 0)` relies on. */
  lemma DayZeroIsLastDay(y: int, m: Month)
    ensures MakeDay(y, m + 1, 0) == MakeDay(y, m, DaysInMonth(y, m))
  {
    MakeDayFromFirst(y, m + 1, 0);
    MakeDayFromFirst(y, m, DaysInMonth(y, m));
    NextMonthStart(y, m);
  }

  /** A date past the end of month m rolls into the following month. */
  lemma MonthOverflow(y: int, m: Month, d: int)
    ensures MakeDay(y, m, d) == MakeDay(NextMonth(y, m).0, NextMonth(y, m).1, d - DaysInMonth(y, m))
  {
    var nm := NextMonth(y, m);
    MakeDayFromFirst(y, m, d);
    MakeDayFromFirst(nm.0, nm.1, d - DaysInMonth(y, m));
    NextMonthStart(y, m);
  }

  /** `setDate(getDate() + k)` moves exactly k days. */
  lemma SetDateShifts(n: int, k: int)
    ensures var c := ToCivil(n); MakeDay(c.year, c.month, c.date + k) == n + k
  {
  }

  /** The calendar month of MakeDay(y, m, d) for a date in 1..31: the month
      itself when the date exists in it, the next month otherwise. */
  lemma MakeDayMonth(y: int, m: Month, d: int)
    requires 1 <= d <= 31
    ensures d <= DaysInMonth(y, m) ==> ToCivil(MakeDay(y, m, d)) == Civil(y, m, d)
    ensures d > DaysInMonth(y, m) && m < 11 ==>
      ToCivil(MakeDay(y, m, d)) == Civil(y, m + 1, d - DaysInMonth(y, m))
    ensures d > DaysInMonth(y, m) && m == 11 ==>
      ToCivil(MakeDay(y, m, d)) == Civil(y + 1, 0, d - DaysInMonth(y, m))
  {
    if d <= DaysInMonth(y, m) {
      CivilRoundTrip(Civil(y, m, d));
    } else {
      MonthOverflow(y, m, d);
      var nm := NextMonth(y, m);
      CivilRoundTrip(Civil(nm.0, nm.1, d - DaysInMonth(y, m)));
    }
  }

  /** Month starts are DaysInMonth apart, for any month index (with carry). */
  lemma MonthStartStep(y: int, m: int)
    ensures MakeDay(y, m + 1, 1) == MakeDay(y, m, 1) + DaysInMonth(y + m / 12, m % 12)
  {
    var q, r := m / 12, m % 12;
    if r < 11 {
      assert (m + 1) / 12 == q && (m + 1) % 12 == r + 1;
      MonthsFillYear(y + q, r);
    } else {
      assert (m + 1) / 12 == q + 1 && (m + 1) % 12 == 0;
      MonthsFillYear(y + q, r);
      DayFromYearStep(y + q);
    }
  }

  /** Every month has at least 28 days, so month starts grow. */
  lemma MonthStartGrows(y: int, a: int)
    ensures MakeDay(y, a, 1) + 28 <= MakeDay(y, a + 1, 1)
  {
    MonthStartStep(y, a);
    DaysInMonthRange(y + a / 12, a % 12);
  }

  lemma {:induction false} MonthStartMonotone(y: int, a: int, b: int)
    requires a < b
    ensures MakeDay(y, a + 1, 1) <= MakeDay(y, b, 1)
    decreases b - a
  {
    if a + 1 < b {
      MonthStartGrows(y, a + 1);
      MonthStartMonotone(y, a + 1, b);
      assert MakeDay(y, a + 1 + 1, 1) <= MakeDay(y, b, 1);
    } else {
      assert b == a + 1;
    }
  }

  lemma DaysInMonthRange(y: int, m: Month)
    ensures 28 <= DaysInMonth(y, m) <= 31
  {
  }

  /** MakeDay depends on year and month only through the month count y * 12 + m. */
  lemma MakeDayMonthIndex(y: int, m: int, d: int, i: int)
    requires i == y * 12 + m
    ensures MakeDay(y, m, d) == MakeDay(0, i, d)
  {
    assert i / 12 == y + m / 12;
    assert i % 12 == m % 12;
  }

  /** Months since year 0 of the calendar date of day n. */
  function MonthIndex(n: int): int {
    ToCivil(n).year * 12 + ToCivil(n).month
  }

  /** The first of a month lies after every day of an earlier month. */
  lemma MonthStartAfter(n: int, y: int, m: int)
    requires MonthIndex(n) < y * 12 + m
    ensures n < MakeDay(y, m, 1)
  {
    var c := ToCivil(n);
    MonthEndBefore(c.year, c.month, c.date, y, m);
  }

  lemma MonthEndBefore(yc: int, mc: Month, d: int, y: int, m: int)
    requires d <= DaysInMonth(yc, mc)
    requires yc * 12 + mc < y * 12 + m
    ensures MakeDay(yc, mc, d) < MakeDay(y, m, 1)
  {
    var i, j := yc * 12 + mc, y * 12 + m;
    MakeDayFromFirst(yc, mc, d);
    NextMonthStart(yc, mc);
    MakeDayMonthIndex(yc, mc + 1, 1, i + 1);
    MakeDayMonthIndex(y, m, 1, j);
    MonthStartMonotone(0, i, j);
  }

  /** The first of the next month is DaysInMonth days after the first of this one. */
  lemma NextMonthStart(y: int, m: Month)
    ensures MakeDay(y, m + 1, 1) == MakeDay(y, m, 1) + DaysInMonth(y, m)
  {
    MonthStartStep(y, m);
    assert m / 12 == 0 && m % 12 == m;
    assert y + m / 12 == y;
  }

  /** The date is a plain day offset from the first of the month. */
  lemma MakeDayFromFirst(y: int, m: int, d: int)
    ensures MakeDay(y, m, d) == MakeDay(y, m, 1) + d - 1
  {
  }

  /** Day numbers are ordered like their (year, month) whenever the months
      differ: a later calendar month means a later day. */
  lemma MonthIndexOrder(a: int, b: int)
    requires MonthIndex(a) < MonthIndex(b)
    ensures a < b
  {
    var cb := ToCivil(b);
    MonthStartAfter(a, cb.year, cb.month);
    MakeDayInYear(cb.year, cb.month, 1);
    MakeDayInYear(cb.year, cb.month, cb.date);
  }

  /** A day t no further after day n than the rest of n's month lies in the
      same month, on the correspondingly later date. */
  lemma SameMonthShift(n: int, t: int)
    requires n <= t
    requires ToCivil(n).date + (t - n) <= DaysInMonth(ToCivil(n).year, ToCivil(n).month)
    ensures ToCivil(t) == Civil(ToCivil(n).year, ToCivil(n).month, ToCivil(n).date + (t - n))
  {
    var c := ToCivil(n);
    var c' := Civil(c.year, c.month, c.date + (t - n));
    MakeDayInYear(c.year, c.month, c.date);
    MakeDayInYear(c.year, c.month, c.date + (t - n));
    var m := MakeDay(c.year, c.month, c.date + (t - n));
    assert m == t;
    CivilRoundTrip(c');
    assert ToCivil(m) == c';
  }

  /** `date.setFullYear(y)`: month and date are kept, so February 29 rolls
      into March of a common year, but the year is always y. */
  function SetFullYear(n: int, y: int): int {
    var c := ToCivil(n);
    MakeDay(y, c.month, c.date)
  }

  /** `setFullYear(y)` lands in year y, on the same month and date unless the
      date is February 29 and y is not a leap year. */
  lemma SetFullYearFacts(n: int, y: int)
    ensures ToCivil(SetFullYear(n, y)).year == y
    ensures ToCivil(n).month != 1 ==> ToCivil(SetFullYear(n, y)) == Civil(y, ToCivil(n).month, ToCivil(n).date)
  {
    MakeDayMonth(y, ToCivil(n).month, ToCivil(n).date);
  }

  /** `date.setMonth(m, d)`: the year is the one the date is in. */
  function SetMonth(n: int, m: int, d: int): int {
    MakeDay(ToCivil(n).year, m, d)
  }

  /** `setFullYear(y)` followed by `setMonth(m, d)` depends on the year only. */
  lemma SetYearThenMonth(n: int, y: int, m: int, d: int)
    ensures SetMonth(SetFullYear(n, y), m, d) == MakeDay(y, m, d)
  {
    SetFullYearFacts(n, y);
  }

  // ---------------------------------------------------------------------------
  // Instants

  /** Minutes since 1970-01-01 00:00, the order `Date` comparisons use. */
  function Stamp(t: Instant): int {
    t.day * MinutesPerDay + t.minute
  }

  /** Midnight compared with an instant: midnight of day d is after t exactly
      when d is a later calendar day. */
  lemma MidnightOrder(d: int, t: Instant)
    ensures Stamp(Instant(d, 0)) > Stamp(t) <==> d > t.day
    ensures Stamp(Instant(d, 0)) <= Stamp(t) <==> d <= t.day
  {
  }

  /** Instants on different days are ordered as their days are. */
  lemma StampOrder(a: Instant, b: Instant)
    ensures a.day < b.day ==> Stamp(a) < Stamp(b)
    ensures Stamp(a) <= Stamp(b) ==> a.day <= b.day
  {
  }
}

=== FILE: income.dfy ===
/** The stored entities of the income tracker (the `IncomeSource` and
    `IncomeRecord` rows the routes and the record generator read), and the
    conversion every server-side caller applies before asking the payment
    calculator about a stored source. */
module Income {
  import opened Wrappers
  import opened Calendar
  import opened PaymentCalculator

  datatype RecordStatus = Pending | Received | Overdue

  /** An income source row. `weekday` is the nullable `scheduleWeekday`
      column, `dayAmounts` the nullable `scheduleDayAmounts` JSON object. */
  datatype Source = Source(
    id: nat,
    userId: nat,
    frequency: Frequency,
    amount: real,
    isActive: bool,
    days: seq<DayOfMonth>,
    weekday: Option<Weekday>,
    week: Option<ScheduleWeek>,
    time: Option<ClockTime>,
    useManualAmounts: bool,
    dayAmounts: Option<map<int, real>>,
    nextPaymentDate: Option<Instant>)

  /** An income record row (its own id and owner are not modelled). */
  datatype IncomeRecord = IncomeRecord(
    sourceId: nat,
    expectedDate: Instant,
    status: RecordStatus,
    actualAmount: Option<real>,
    actualDate: Option<Instant>,
    notes: Option<string>)

  /** The sources the server asks the calculator about: active and not
      one-time. */
  predicate Scheduled(src: Source) {
    src.isActive && src.frequency != OneTime
  }

  /** The schedule config built from a stored source: every optional field
      goes through `x || undefined`, so a stored weekday 0 (Sunday) is passed
      as no weekday at all; a missing day-amount object becomes `{}`. */
  function CalculatorConfig(src: Source): (s: Schedule)
    ensures s.frequency == src.frequency && s.days == src.days
    ensures s.amount == Some(src.amount)
    ensures s.weekday.Some? <==> src.weekday.Some? && src.weekday.value != 0
    ensures s.weekday.Some? ==> s.weekday == src.weekday
    ensures s.dayAmounts.Some?
    ensures src.dayAmounts.Some? ==> s.dayAmounts == src.dayAmounts
  {
    Schedule(
      src.frequency,
      src.days,
      if src.weekday == Some(0) then None else src.weekday,
      src.week,
      src.time,
      Some(src.amount),
      src.useManualAmounts,
      Some(src.dayAmounts.GetOr(map[])))
  }

  /** A weekly or bi-weekly source stored with Sunday (weekday 0) never has a
      next payment once it has gone through the conversion. */
  lemma SundaySourceNeverPays(src: Source, from: Instant, daysAhead: int)
    requires src.frequency == Weekly || src.frequency == Biweekly
    requires src.weekday == Some(0)
    ensures NextPaymentDate(CalculatorConfig(src), from).None?
    ensures UpcomingPayments(CalculatorConfig(src), from, daysAhead) == []
  {
  }

  /** Any other stored weekday reaches the calculator unchanged, and a weekly
      source then pays within the coming week. */
  lemma WeekdayPassesThrough(src: Source, from: Instant)
    requires src.frequency == Weekly
    requires src.weekday.Some? && src.weekday.value != 0
    ensures NextPaymentDate(CalculatorConfig(src), from).Some?
    ensures WeekdayOf(NextPaymentDate(CalculatorConfig(src), from).value.day) == src.weekday.value
  {
  }
}

=== FILE: password.dfy ===
/** The password-strength meter (src/components/ui/PasswordStrengthIndicator.tsx):
    five criteria and the strength level derived from how many hold. */
module PasswordStrength {

  datatype Criterion = LongEnough | HasUpper | HasLower | HasDigit | HasSpecial

  const Criteria: seq<Criterion> := [LongEnough, HasUpper, HasLower, HasDigit, HasSpecial]

  predicate IsUpper(c: char) { 'A' <= c <= 'Z' }
  predicate IsLower(c: char) { 'a' <= c <= 'z' }
  predicate IsDigit(c: char) { '0' <= c <= '9' }

  /** The class `[!@#$%^&*()_+\-=\[\]{};':"\\|,.<>\/?]`. */
  predicate IsSpecial(c: char) {
    c in "!@#$%^&*()_+-=[]{};':\"\\|,.<>/?"
  }

  /** Some character of p is in the class. */
  predicate Contains(p: string, inClass: char -> bool) {
    exists i | 0 <= i < |p| :: inClass(p[i])
  }

  /** Each criterion's `test`. */
  predicate Passes(c: Criterion, p: string) {
    match c
    case LongEnough => |p| >= 8
    case HasUpper => Contains(p, IsUpper)
    case HasLower => Contains(p, IsLower)
    case HasDigit => Contains(p, IsDigit)
    case HasSpecial => Contains(p, IsSpecial)
  }

  /** How many criteria pass. */
  function PassedCount(p: string): (n: nat)
    ensures n <= 5
    ensures n == 5 <==> forall c: Criterion :: Passes(c, p)
  {
    var n := (if Passes(LongEnough, p) then 1 else 0) + (if Passes(HasUpper, p) then 1 else 0)
      + (if Passes(HasLower, p) then 1 else 0) + (if Passes(HasDigit, p) then 1 else 0)
      + (if Passes(HasSpecial, p) then 1 else 0);
    AllCounted(p, n);
    n
  }

  lemma AllCounted(p: string, n: nat)
    requires n == (if Passes(LongEnough, p) then 1 else 0) + (if Passes(HasUpper, p) then 1 else 0)
      + (if Passes(HasLower, p) then 1 else 0) + (if Passes(HasDigit, p) then 1 else 0)
      + (if Passes(HasSpecial, p) then 1 else 0)
    ensures n == 5 <==> forall c: Criterion :: Passes(c, p)
  {
    if n == 5 {
      forall c: Criterion
        ensures Passes(c, p)
      {
        match c
        case LongEnough =>
        case HasUpper =>
        case HasLower =>
        case HasDigit =>
        case HasSpecial =>
      }
    }
  }

  datatype Strength = Strength(level: int, name: string)

  /** `getPasswordStrength`: nothing for an empty password; otherwise level
      1 ("Very Weak") for at most one passed criterion and the count itself
      for two to five. The last `return` of the source is never reached. */
  function StrengthOf(p: string): (s: Strength)
    ensures p == [] ==> s == Strength(0, [])
    ensures p != [] ==> s.level == (if PassedCount(p) <= 1 then 1 else PassedCount(p))
    ensures p != [] ==> 1 <= s.level <= 5 && s.name != []
  {
    if p == [] then Strength(0, [])
    else
      var n := PassedCount(p);
      if n <= 1 then Strength(1, "Very Weak")
      else if n == 2 then Strength(2, "Weak")
      else if n == 3 then Strength(3, "Fair")
      else if n == 4 then Strength(4, "Good")
      else if n == 5 then Strength(5, "Strong")
      else assert false; Strength(0, [])
  }

  /** Full strength is exactly every criterion passing. */
  lemma StrongIffAllPass(p: string)
    ensures StrengthOf(p).level == 5 <==> forall c: Criterion :: Passes(c, p)
  {
    if forall c: Criterion :: Passes(c, p) {
      assert Passes(LongEnough, p);
    }
  }

  /** A criterion that holds keeps holding when a character is typed. */
  lemma PassesGrows(c: Criterion, p: string, x: char)
    requires Passes(c, p)
    ensures Passes(c, p + [x])
  {
    var q := p + [x];
    match c
    case LongEnough =>
    case HasUpper => var i :| 0 <= i < |p| && IsUpper(p[i]); assert q[i] == p[i];
    case HasLower => var i :| 0 <= i < |p| && IsLower(p[i]); assert q[i] == p[i];
    case HasDigit => var i :| 0 <= i < |p| && IsDigit(p[i]); assert q[i] == p[i];
    case HasSpecial => var i :| 0 <= i < |p| && IsSpecial(p[i]); assert q[i] == p[i];
  }

  /** Typing a character never lowers the strength. */
  lemma AppendNeverWeakens(p: string, x: char)
    ensures StrengthOf(p + [x]).level >= StrengthOf(p).level
  {
    forall c: Criterion | Passes(c, p)
      ensures Passes(c, p + [x])
    {
      PassesGrows(c, p, x);
    }
  }
}

=== FILE: paymentCalculator.dfy ===
/** The payment schedule engine (`PaymentCalculator` in
    src/lib/paymentCalculator.ts): per-payment amounts, the next payment date
    for each frequency, and the upcoming and recent payment lists built from
    repeated next-date queries. Dates are local civil time at minute
    precision; `Date` objects become `Instant`s. */
module PaymentCalculator {
  import opened Wrappers
  import opened Calendar
  import Seqs

  /** A schedule day of the month; 31 doubles as "last day of the month". */
  type DayOfMonth = d: int | 1 <= d <= 31 witness 1

  type Hour = h: int | 0 <= h < 24

  type MinuteOfHour = m: int | 0 <= m < 60

  datatype Frequency = Weekly | Biweekly | Monthly | Quarterly | Yearly | OneTime

  datatype ScheduleWeek = First | Second | Third | Fourth | Last

  /** A parsed "HH:MM" schedule time. */
  datatype ClockTime = ClockTime(hours: Hour, minutes: MinuteOfHour)

  /** The schedule fields of an income source. `amount` is None when it is
      missing or NaN; `dayAmounts` maps a schedule day to its manual amount. */
  datatype Schedule = Schedule(
    frequency: Frequency,
    days: seq<DayOfMonth>,
    weekday: Option<Weekday>,
    week: Option<ScheduleWeek>,
    time: Option<ClockTime>,
    amount: Option<real>,
    useManualAmounts: bool,
    dayAmounts: Option<map<int, real>>)

  datatype Payment = Payment(date: Instant, amount: real)

  /** Both upcoming and recent lists stop once they hold more than this many
      payments. */
  const Cap: int := 100

  // ---------------------------------------------------------------------------
  // Amounts

  predicate ValidAmount(s: Schedule) {
    s.amount.Some? && s.amount.value > 0.0
  }

  /** `dayAmounts[d] || dayAmounts[d.toString()] || 0`: an absent key reads as 0. */
  function ManualAmount(amounts: map<int, real>, d: int): real {
    if d in amounts then amounts[d] else 0.0
  }

  /** The manual branch of calculatePerPaymentAmount applies: a monthly source
      with manual amounts, a day-amount map, and a (truthy) specific day. */
  predicate UsesManualAmount(s: Schedule, specificDay: Option<int>) {
    s.frequency == Monthly && s.useManualAmounts && s.dayAmounts.Some?
    && specificDay.Some? && specificDay.value != 0
  }

  /** How many payments share the source amount in one cycle: the number of
      schedule days of a monthly source with several days, otherwise one. */
  function SplitCount(s: Schedule): (r: real)
    ensures r >= 1.0
  {
    if s.frequency == Monthly && |s.days| > 1 then |s.days| as real else 1.0
  }

  function PerPaymentAmount(s: Schedule, specificDay: Option<int>): (r: real)
    ensures !ValidAmount(s) ==> r == 0.0
    ensures ValidAmount(s) && UsesManualAmount(s, specificDay) ==>
      r == ManualAmount(s.dayAmounts.value, specificDay.value)
    ensures ValidAmount(s) && !UsesManualAmount(s, specificDay) ==>
      r > 0.0 && r * SplitCount(s) == s.amount.value
  {
    if !ValidAmount(s) then 0.0
    else if UsesManualAmount(s, specificDay) then
      ManualAmount(s.dayAmounts.value, specificDay.value)
    else if s.frequency == Monthly && |s.days| > 1 then
      s.amount.value / (|s.days| as real)
    else s.amount.value
  }

  // ---------------------------------------------------------------------------
  // Times of day

  /** The minute of day setPaymentTime sets: the schedule time, or 09:00. */
  function PaymentMinute(time: Option<ClockTime>): (r: MinuteOfDay)
    ensures time.None? ==> r == 9 * 60
    ensures time.Some? ==> r / 60 == time.value.hours && r % 60 == time.value.minutes
  {
    match time
    case None => 9 * 60
    case Some(t) => t.hours * 60 + t.minutes
  }

  function AtPaymentTime(day: int, time: Option<ClockTime>): Instant {
    Instant(day, PaymentMinute(time))
  }

  // ---------------------------------------------------------------------------
  // Weekly

  function NextWeekly(s: Schedule, from: Instant): (r: Option<Instant>)
    ensures r.Some? <==> s.weekday.Some?
    ensures r.Some? ==> from.day < r.value.day <= from.day + 7
    ensures r.Some? ==> WeekdayOf(r.value.day) == s.weekday.value
    ensures r.Some? ==> forall k :: from.day < k < r.value.day ==> WeekdayOf(k) != s.weekday.value
    ensures r.Some? ==> r.value.minute == PaymentMinute(s.time)
  {
    match s.weekday
    case None => None
    case Some(wd) =>
      var diff := wd - WeekdayOf(from.day);
      var until := if diff <= 0 then diff + 7 else diff;
      WeekdayAhead(from.day, wd, until);
      Some(AtPaymentTime(from.day + until, s.time))
  }

  /** Counting `until` days on from day d reaches the first later day that
      falls on weekday wd. */
  lemma WeekdayAhead(d: int, wd: Weekday, until: int)
    requires until == if wd - WeekdayOf(d) <= 0 then wd - WeekdayOf(d) + 7 else wd - WeekdayOf(d)
    ensures 1 <= until <= 7 && WeekdayOf(d + until) == wd
    ensures forall k :: d < k < d + until ==> WeekdayOf(k) != wd
  {
    var w := WeekdayOf(d);
    var q := (d + 4) / 7;
    assert d + 4 == 7 * q + w;
    forall k | d < k <= d + until
      ensures WeekdayOf(k) == if w + (k - d) < 7 then w + (k - d) else w + (k - d) - 7
    {
      if w + (k - d) < 7 {
        assert k + 4 == 7 * q + (w + (k - d));
      } else {
        assert k + 4 == 7 * (q + 1) + (w + (k - d) - 7);
      }
    }
  }

  /** Querying again from the day after a weekly payment gives the same
      weekday one week later: weekly payments are exactly 7 days apart. */
  lemma WeeklyEveryWeek(s: Schedule, from: Instant)
    requires s.weekday.Some?
    ensures var p := NextWeekly(s, from).value;
      NextWeekly(s, Instant(p.day + 1, p.minute)).value.day == p.day + 7
  {
    var p := NextWeekly(s, from).value;
    var q := NextWeekly(s, Instant(p.day + 1, p.minute)).value;
    assert WeekdayOf(p.day + 7) == WeekdayOf(p.day);
  }

  // ---------------------------------------------------------------------------
  // Biweekly (a weekday in a given week of the month)

  /** `new Date(y, m + 1, 0).getDate()`. */
  function LastDateOfMonth(y: int, m: Month): (r: int)
    ensures r == DaysInMonth(y, m)
  {
    DayZeroIsLastDay(y, m);
    DaysInMonthRange(y, m);
    CivilRoundTrip(Civil(y, m, DaysInMonth(y, m)));
    ToCivil(MakeDay(y, m + 1, 0)).date
  }

  /** getWeekOfMonth: the day a schedule week starts from. SECOND to FOURTH
      start on the second to fourth Sunday-started week (day 8, 15 or 22 minus
      the weekday of the 1st), LAST on the seventh-to-last day. */
  function WeekAnchor(week: ScheduleWeek, y: int, m: Month): (r: int)
    ensures ToCivil(r).year == y && ToCivil(r).month == m
    ensures ToCivil(r).date + 6 <= DaysInMonth(y, m)
    ensures week == First ==> ToCivil(r).date == 1
    ensures week == Last ==> ToCivil(r).date == DaysInMonth(y, m) - 6
    ensures week in {Second, Third, Fourth} ==> WeekdayOf(r) == 0
    ensures week == Second ==> 2 <= ToCivil(r).date <= 8
    ensures week == Third ==> 9 <= ToCivil(r).date <= 15
    ensures week == Fourth ==> 16 <= ToCivil(r).date <= 22
  {
    var first := MakeDay(y, m, 1);
    var last := LastDateOfMonth(y, m);
    DaysInMonthRange(y, m);
    var d := AnchorDate(week, WeekdayOf(first), last);
    var r := MakeDay(y, m, d);
    DateOfMonth(y, m, d, r);
    AnchorSunday(week, first, d - 1, r);
    r
  }

  /** Day d of month (y, m), for d within the month: its calendar date, and
      its distance from the 1st. */
  lemma DateOfMonth(y: int, m: Month, d: int, r: int)
    requires 1 <= d <= DaysInMonth(y, m) && r == MakeDay(y, m, d)
    ensures ToCivil(r) == Civil(y, m, d)
    ensures r == MakeDay(y, m, 1) + (d - 1)
  {
    CivilRoundTrip(Civil(y, m, d));
    MakeDayFromFirst(y, m, d);
  }

  /** The date of the month getWeekOfMonth picks, given the weekday of the 1st
      and the last date of the month. */
  function AnchorDate(week: ScheduleWeek, w: Weekday, last: int): (d: int)
    requires 28 <= last <= 31
    ensures 1 <= d && d + 6 <= last
    ensures week == First ==> d == 1
    ensures week == Last ==> d == last - 6
    ensures week == Second ==> 2 <= d <= 8
    ensures week == Third ==> 9 <= d <= 15
    ensures week == Fourth ==> 16 <= d <= 22
    ensures week in {Second, Third, Fourth} ==> (d - 1 + w) % 7 == 0
  {
    match week
    case First => 1
    case Second => 8 - w
    case Third => 15 - w
    case Fourth => 22 - w
    case Last => last - 6
  }

  /** Day n + k is a Sunday when k + WeekdayOf(n) is a multiple of 7, which
      AnchorDate guarantees for the middle weeks. */
  lemma AnchorSunday(week: ScheduleWeek, n: int, k: int, r: int)
    requires r == n + k
    requires week in {Second, Third, Fourth} ==> (k + WeekdayOf(n)) % 7 == 0
    ensures week in {Second, Third, Fourth} ==> WeekdayOf(r) == 0
  {
  }

  /** findDayInWeek: the first day on or after `start` that falls on `wd`. */
  function FindDayInWeek(start: int, wd: Weekday): (r: int)
    ensures start <= r <= start + 6
    ensures WeekdayOf(r) == wd
    ensures forall k :: start <= k < r ==> WeekdayOf(k) != wd
  {
    var add := wd - WeekdayOf(start);
    var r := start + (if add < 0 then add + 7 else add);
    forall k | start <= k < r
      ensures WeekdayOf(k) != wd
    {
      WeekdayShift(start, k - start);
    }
    r
  }

  /** Weekdays advance by one per day, modulo 7. */
  lemma WeekdayShift(n: int, j: nat)
    ensures WeekdayOf(n + j) == (WeekdayOf(n) + j) % 7
  {
  }

  /** The scheduled day of month (y, m): it always lies in that month. */
  function BiweeklyDay(week: ScheduleWeek, wd: Weekday, y: int, m: Month): (r: int)
    ensures ToCivil(r).year == y && ToCivil(r).month == m
    ensures WeekdayOf(r) == wd
    ensures WeekAnchor(week, y, m) <= r <= WeekAnchor(week, y, m) + 6
    ensures forall k :: WeekAnchor(week, y, m) <= k < r ==> WeekdayOf(k) != wd
  {
    var anchor := WeekAnchor(week, y, m);
    var r := FindDayInWeek(anchor, wd);
    SameMonthShift(anchor, r);
    r
  }

  /** Every day of the month after day n's month comes after n. */
  lemma NextMonthLater(n: int, c: Civil, nm: (int, Month), t: int)
    requires c == ToCivil(n) && nm == NextMonth(c.year, c.month)
    requires ToCivil(t).year == nm.0 && ToCivil(t).month == nm.1
    ensures n < t
  {
    assert MonthIndex(n) < MonthIndex(t);
    MonthIndexOrder(n, t);
  }

  function NextBiweekly(s: Schedule, from: Instant): (r: Option<Instant>)
    ensures r.Some? <==> s.weekday.Some? && s.week.Some?
    ensures r.Some? ==> from.day < r.value.day
    ensures r.Some? ==> WeekdayOf(r.value.day) == s.weekday.value
    ensures r.Some? ==> r.value.minute == PaymentMinute(s.time)
    ensures r.Some? ==>
      var c := ToCivil(from.day);
      var here := BiweeklyDay(s.week.value, s.weekday.value, c.year, c.month);
      var nm := NextMonth(c.year, c.month);
      if here > from.day then r.value.day == here
      else r.value.day == BiweeklyDay(s.week.value, s.weekday.value, nm.0, nm.1)
  {
    if s.weekday.None? || s.week.None? then None
    else
      var c := ToCivil(from.day);
      var here := BiweeklyDay(s.week.value, s.weekday.value, c.year, c.month);
      MidnightOrder(here, from);
      if Stamp(Instant(here, 0)) <= Stamp(from) then
        var nm := NextMonth(c.year, c.month);
        var there := BiweeklyDay(s.week.value, s.weekday.value, nm.0, nm.1);
        NextMonthLater(from.day, c, nm, there);
        Some(AtPaymentTime(there, s.time))
      else
        Some(AtPaymentTime(here, s.time))
  }

  // ---------------------------------------------------------------------------
  // Monthly

  function DayKey(d: DayOfMonth): int {
    d
  }

  /** `days.filter(d => Number(amount(d)) > 0)`. */
  function PositiveDays(days: seq<DayOfMonth>, amounts: map<int, real>): (r: seq<DayOfMonth>)
    ensures forall d :: d in r <==> d in days && ManualAmount(amounts, d) > 0.0
    ensures |r| <= |days|
  {
    if |days| == 0 then []
    else
      var rest := PositiveDays(days[1..], amounts);
      assert forall d :: d in days <==> d == days[0] || d in days[1..];
      if ManualAmount(amounts, days[0]) > 0.0 then [days[0]] + rest else rest
  }

  /** The schedule days that can pay: with manual amounts, days whose manual
      amount is not positive are dropped. */
  function PayingDays(s: Schedule): (r: seq<DayOfMonth>)
    ensures forall d :: d in r <==>
      (d in s.days && (s.useManualAmounts && s.dayAmounts.Some? ==> ManualAmount(s.dayAmounts.value, d) > 0.0))
    ensures |r| <= |s.days|
  {
    if s.useManualAmounts && s.dayAmounts.Some? then PositiveDays(s.days, s.dayAmounts.value)
    else s.days
  }

  /** `new Date(y, m, d)`, with day 31 moved to the last day of month m by
      `setMonth(m + 1, 0)`. */
  function MonthlyTarget(y: int, m: Month, d: DayOfMonth): (r: int)
    ensures d == 31 ==> ToCivil(r) == Civil(y, m, DaysInMonth(y, m))
    ensures d <= DaysInMonth(y, m) ==> ToCivil(r) == Civil(y, m, d)
    ensures d < 31 && d > DaysInMonth(y, m) ==> ToCivil(r).month != m
  {
    var t := MakeDay(y, m, d);
    MakeDayMonth(y, m, d);
    DaysInMonthRange(y, m);
    if d == 31 then
      assert ToCivil(t).year == y;
      DayZeroIsLastDay(y, m);
      CivilRoundTrip(Civil(y, m, DaysInMonth(y, m)));
      SetMonth(t, m + 1, 0)
    else t
  }

  /** Day d of month (y, m) is still to come after `from`: its target stays in
      the month and its midnight is after `from`. */
  predicate UpcomingInMonth(y: int, m: Month, d: DayOfMonth, from: Instant) {
    var t := MonthlyTarget(y, m, d);
    ToCivil(t).month == m && Stamp(Instant(t, 0)) > Stamp(from)
  }

  /** Targets of days that stay in their month are ordered like the days. */
  lemma TargetsOrdered(y: int, m: Month, a: DayOfMonth, b: DayOfMonth)
    requires a <= b
    requires ToCivil(MonthlyTarget(y, m, a)).month == m
    requires ToCivil(MonthlyTarget(y, m, b)).month == m
    ensures MonthlyTarget(y, m, a) <= MonthlyTarget(y, m, b)
  {
    var ta, tb := MonthlyTarget(y, m, a), MonthlyTarget(y, m, b);
    DaysInMonthRange(y, m);
    assert ta == MakeDay(y, m, ToCivil(ta).date);
    assert tb == MakeDay(y, m, ToCivil(tb).date);
    assert ToCivil(ta).date <= ToCivil(tb).date;
  }

  /** The loop over the ascending valid days: the first day still to come. */
  function FirstUpcoming(sorted: seq<DayOfMonth>, y: int, m: Month, from: Instant): (r: Option<DayOfMonth>)
    requires Seqs.SortedBy(sorted, DayKey)
    ensures r.Some? <==> exists d :: d in sorted && UpcomingInMonth(y, m, d, from)
    ensures r.Some? ==> r.value in sorted && UpcomingInMonth(y, m, r.value, from)
    ensures r.Some? ==> forall d :: d in sorted && UpcomingInMonth(y, m, d, from) ==> r.value <= d
  {
    if |sorted| == 0 then None
    else if UpcomingInMonth(y, m, sorted[0], from) then
      assert forall d :: d in sorted ==> sorted[0] <= d by {
        forall d | d in sorted ensures sorted[0] <= d {
          var k :| 0 <= k < |sorted| && sorted[k] == d;
          assert DayKey(sorted[0]) <= DayKey(sorted[k]);
        }
      }
      Some(sorted[0])
    else
      assert Seqs.SortedBy(sorted[1..], DayKey) by {
        forall i, j | 0 <= i < j < |sorted| - 1
          ensures DayKey(sorted[1..][i]) <= DayKey(sorted[1..][j])
        {
          assert sorted[1..][i] == sorted[i + 1] && sorted[1..][j] == sorted[j + 1];
        }
      }
      assert forall d :: d in sorted <==> d == sorted[0] || d in sorted[1..];
      FirstUpcoming(sorted[1..], y, m, from)
  }

  /** The date used when no valid day is left this month: day `first` of the
      next month without any range check (so it may roll over), or the last
      day of the next month for 31. */
  function NextMonthTarget(y: int, m: Month, first: int): (r: int)
    ensures var nm := NextMonth(y, m);
      first == 31 ==> ToCivil(r) == Civil(nm.0, nm.1, DaysInMonth(nm.0, nm.1))
    ensures var nm := NextMonth(y, m);
      1 <= first <= DaysInMonth(nm.0, nm.1) ==> ToCivil(r) == Civil(nm.0, nm.1, first)
    ensures var nm := NextMonth(y, m); var after := NextMonth(nm.0, nm.1);
      DaysInMonth(nm.0, nm.1) < first < 31 ==>
        ToCivil(r) == Civil(after.0, after.1, first - DaysInMonth(nm.0, nm.1))
  {
    var nm := NextMonth(y, m);
    if first == 31 then
      LastDate(nm.0, nm.1);
      MakeDay(nm.0, nm.1 + 1, 0)
    else if 1 <= first <= DaysInMonth(nm.0, nm.1) then
      InMonthDate(nm.0, nm.1, first);
      MakeDay(nm.0, nm.1, first)
    else if DaysInMonth(nm.0, nm.1) < first < 31 then
      RolledDate(nm.0, nm.1, first);
      MakeDay(nm.0, nm.1, first)
    else MakeDay(nm.0, nm.1, first)
  }

  /** `new Date(y, m + 1, 0)` is the last day of month m. */
  lemma LastDate(y: int, m: Month)
    ensures ToCivil(MakeDay(y, m + 1, 0)) == Civil(y, m, DaysInMonth(y, m))
  {
    DayZeroIsLastDay(y, m);
    DaysInMonthRange(y, m);
    MakeDayMonth(y, m, DaysInMonth(y, m));
  }

  /** A day the month has is that date of the month. */
  lemma InMonthDate(y: int, m: Month, d: int)
    requires 1 <= d <= DaysInMonth(y, m)
    ensures ToCivil(MakeDay(y, m, d)) == Civil(y, m, d)
  {
    DaysInMonthRange(y, m);
    MakeDayMonth(y, m, d);
  }

  /** A day past the month's end lands in the month after. */
  lemma RolledDate(y: int, m: Month, d: int)
    requires DaysInMonth(y, m) < d < 31
    ensures ToCivil(MakeDay(y, m, d)) == Civil(NextMonth(y, m).0, NextMonth(y, m).1, d - DaysInMonth(y, m))
  {
    DaysInMonthRange(y, m);
    MakeDayMonth(y, m, d);
  }

  function NextMonthly(s: Schedule, from: Instant): (r: Option<Instant>)
    ensures r.Some? <==> |PayingDays(s)| > 0
    ensures r.Some? ==> from.day < r.value.day
    ensures r.Some? ==> r.value.minute == PaymentMinute(s.time)
  {
    if |s.days| == 0 then None
    else
      var valid := PayingDays(s);
      if |valid| == 0 then None
      else
        var c := ToCivil(from.day);
        match EarliestUpcoming(valid, c.year, c.month, from)
        case Some(d) =>
          EarliestTargetFirst(valid, c.year, c.month, from, d);
          Some(AtPaymentTime(MonthlyTarget(c.year, c.month, d), s.time))
        case None =>
          NextMonthAfter(from.day, c.year, c.month, Seqs.Min(valid));
          Some(AtPaymentTime(NextMonthTarget(c.year, c.month, Seqs.Min(valid)), s.time))
  }

  /** When a paying day of this month is still to come, getNextMonthlyPayment
      picks the earliest such day. */
  lemma NextMonthlyThisMonth(s: Schedule, from: Instant)
    requires exists d :: d in PayingDays(s) && UpcomingInMonth(ToCivil(from.day).year, ToCivil(from.day).month, d, from)
    ensures NextMonthly(s, from).Some?
    ensures
      var r := NextMonthly(s, from).value;
      var c := ToCivil(from.day);
      var valid := PayingDays(s);
      ToCivil(r.day).year == c.year && ToCivil(r.day).month == c.month
      && (exists d :: d in valid && UpcomingInMonth(c.year, c.month, d, from)
            && r.day == MonthlyTarget(c.year, c.month, d))
      && (forall d :: d in valid && UpcomingInMonth(c.year, c.month, d, from)
            ==> r.day <= MonthlyTarget(c.year, c.month, d))
  {
    var c := ToCivil(from.day);
    var valid := PayingDays(s);
    var d := EarliestUpcoming(valid, c.year, c.month, from).value;
    EarliestTargetFirst(valid, c.year, c.month, from, d);
    var t := MonthlyTarget(c.year, c.month, d);
    assert NextMonthly(s, from) == Some(AtPaymentTime(t, s.time));
  }

  /** When no paying day of this month is still to come, getNextMonthlyPayment
      takes the smallest paying day in the next month. */
  lemma NextMonthlyNextMonth(s: Schedule, from: Instant)
    requires |PayingDays(s)| > 0
    requires !exists d :: d in PayingDays(s) && UpcomingInMonth(ToCivil(from.day).year, ToCivil(from.day).month, d, from)
    ensures NextMonthly(s, from).Some?
    ensures NextMonthly(s, from).value.day
      == NextMonthTarget(ToCivil(from.day).year, ToCivil(from.day).month, Seqs.Min(PayingDays(s)))
  {
    var c := ToCivil(from.day);
    var valid := PayingDays(s);
    assert EarliestUpcoming(valid, c.year, c.month, from).None?;
  }

  /** A source paying on day 30, asked after 31 January, rolls over: February
      has no 30th, so `new Date(y, 1, 30)` lands on 1 or 2 March and February
      gets no payment. */
  lemma MonthlyRollover(s: Schedule, from: Instant, y: int)
    requires s.frequency == Monthly && s.days == [30] && !s.useManualAmounts
    requires ToCivil(from.day) == Civil(y, 0, 31)
    ensures NextMonthly(s, from).Some?
    ensures ToCivil(NextMonthly(s, from).value.day) == Civil(y, 2, 30 - DaysInMonth(y, 1))
  {
    RolloverTarget(s, from, y);
    FebruaryThirtieth(y);
  }

  lemma RolloverTarget(s: Schedule, from: Instant, y: int)
    requires s.frequency == Monthly && s.days == [30] && !s.useManualAmounts
    requires ToCivil(from.day) == Civil(y, 0, 31)
    ensures NextMonthly(s, from).Some?
    ensures NextMonthly(s, from).value.day == NextMonthTarget(y, 0, 30)
  {
    assert PayingDays(s) == [30];
    JanuaryThirtiethPassed(from, y);
    NextMonthlyNextMonth(s, from);
    assert Seqs.Min([30]) == 30;
  }

  lemma FebruaryThirtieth(y: int)
    ensures ToCivil(NextMonthTarget(y, 0, 30)) == Civil(y, 2, 30 - DaysInMonth(y, 1))
  {
    assert NextMonth(y, 0) == (y, 1);
    DaysInMonthRange(y, 1);
    MakeDayMonth(y, 1, 30);
  }

  lemma JanuaryThirtiethPassed(from: Instant, y: int)
    requires ToCivil(from.day) == Civil(y, 0, 31)
    ensures !UpcomingInMonth(y, 0, 30, from)
    ensures !exists d :: d in [30] && UpcomingInMonth(y, 0, d, from)
  {
    SetDateShifts(from.day, -1);
    assert MonthlyTarget(y, 0, 30) == from.day - 1;
  }

  /** The loop over the ascending sort of the valid days: the smallest valid
      day still to come this month. */
  function EarliestUpcoming(valid: seq<DayOfMonth>, y: int, m: Month, from: Instant): (r: Option<DayOfMonth>)
    ensures r.Some? <==> exists d :: d in valid && UpcomingInMonth(y, m, d, from)
    ensures r.Some? ==> r.value in valid && UpcomingInMonth(y, m, r.value, from)
    ensures r.Some? ==> forall d :: d in valid && UpcomingInMonth(y, m, d, from) ==> r.value <= d
  {
    var sorted := Seqs.SortBy(valid, DayKey);
    assert forall d :: d in sorted <==> d in valid by {
      forall d ensures d in sorted <==> d in valid {
        assert d in sorted <==> d in multiset(sorted);
        assert d in valid <==> d in multiset(valid);
      }
    }
    FirstUpcoming(sorted, y, m, from)
  }

  /** The target of the earliest upcoming day is after `from`, in the month,
      and no later than the target of any other upcoming day. */
  lemma EarliestTargetFirst(valid: seq<DayOfMonth>, y: int, m: Month, from: Instant, d: DayOfMonth)
    requires UpcomingInMonth(y, m, d, from)
    requires forall e :: e in valid && UpcomingInMonth(y, m, e, from) ==> d <= e
    ensures from.day < MonthlyTarget(y, m, d)
    ensures ToCivil(MonthlyTarget(y, m, d)).year == y && ToCivil(MonthlyTarget(y, m, d)).month == m
    ensures forall e :: e in valid && UpcomingInMonth(y, m, e, from) ==>
      MonthlyTarget(y, m, d) <= MonthlyTarget(y, m, e)
  {
    var t := MonthlyTarget(y, m, d);
    MidnightOrder(t, from);
    DaysInMonthRange(y, m);
    forall e | e in valid && UpcomingInMonth(y, m, e, from)
      ensures t <= MonthlyTarget(y, m, e)
    {
      TargetsOrdered(y, m, d, e);
    }
  }

  /** Any next-month date with day 1..31 lies after every day of this month. */
  lemma NextMonthAfter(n: int, y: int, m: Month, first: int)
    requires ToCivil(n).year == y && ToCivil(n).month == m
    requires 1 <= first <= 31
    ensures n < NextMonthTarget(y, m, first)
  {
    var nm := NextMonth(y, m);
    MonthStartAfter(n, nm.0, nm.1);
    if first == 31 {
      DayZeroIsLastDay(nm.0, nm.1);
      DaysInMonthRange(nm.0, nm.1);
    }
  }

  // ---------------------------------------------------------------------------
  // Quarterly and yearly

  /** The first month of the quarter after month m (0 stands for January of
      the next year). */
  function QuarterStart(m: Month): (r: Month)
    ensures r % 3 == 0
    ensures r == 0 <==> m >= 9
    ensures r != 0 ==> r / 3 == m / 3 + 1
  {
    if m < 3 then 3 else if m < 6 then 6 else if m < 9 then 9 else 0
  }

  /** Quarter count of a calendar date: 4 per year. */
  function QuarterIndex(c: Civil): int {
    c.year * 4 + c.month / 3
  }

  /** A later quarter means a later calendar month. */
  lemma QuarterAfter(a: Civil, b: Civil)
    requires QuarterIndex(a) < QuarterIndex(b)
    ensures a.year * 12 + a.month < b.year * 12 + b.month
  {
    assert a.month == 3 * (a.month / 3) + a.month % 3;
    assert b.month == 3 * (b.month / 3) + b.month % 3;
  }

  /** `setMonth(q, first)` within year y, for a quarter-start month q: the date
      stays in q's quarter, and is day `first` of q when q has that many days. */
  lemma QuarterLanding(y: int, q: Month, first: DayOfMonth)
    requires q % 3 == 0
    ensures ToCivil(MakeDay(y, q, first)).year == y
    ensures ToCivil(MakeDay(y, q, first)).month / 3 == q / 3
    ensures first <= DaysInMonth(y, q) ==> ToCivil(MakeDay(y, q, first)) == Civil(y, q, first)
  {
    MakeDayMonth(y, q, first);
  }

  /** The day getNextQuarterlyPayment moves day n to: `setFullYear(year + 1)`
      when the next quarter starts in January, then `setMonth(q, first)`. */
  function QuarterlyDay(n: int, first: DayOfMonth): int {
    var c := ToCivil(n);
    var q := QuarterStart(c.month);
    if q == 0 then SetMonth(SetFullYear(n, c.year + 1), 0, first)
    else SetMonth(n, q, first)
  }

  /** The year and month a quarterly payment after day n lands in: the first
      month of the next quarter, in the next year when that is January. */
  function NextQuarterStart(n: int): (r: (int, Month))
    ensures r.1 == QuarterStart(ToCivil(n).month)
    ensures r.0 == if r.1 == 0 then ToCivil(n).year + 1 else ToCivil(n).year
  {
    var q := QuarterStart(ToCivil(n).month);
    (if q == 0 then ToCivil(n).year + 1 else ToCivil(n).year, q)
  }

  /** The quarterly date lies in the quarter after n's, after n, and on day
      `first` of the quarter's first month when that month is long enough. */
  lemma QuarterlyDayFacts(n: int, first: DayOfMonth)
    ensures QuarterIndex(ToCivil(QuarterlyDay(n, first))) == QuarterIndex(ToCivil(n)) + 1
    ensures n < QuarterlyDay(n, first)
    ensures first <= DaysInMonth(NextQuarterStart(n).0, NextQuarterStart(n).1) ==>
      ToCivil(QuarterlyDay(n, first)) == Civil(NextQuarterStart(n).0, NextQuarterStart(n).1, first)
  {
    if QuarterStart(ToCivil(n).month) == 0 {
      QuarterlyDayJanuary(n, first);
    } else {
      QuarterlyDaySameYear(n, first);
    }
  }

  /** From October to December the quarterly date is the yearly one: January
      of the next year. */
  lemma QuarterlyDayJanuary(n: int, first: DayOfMonth)
    requires QuarterStart(ToCivil(n).month) == 0
    ensures QuarterIndex(ToCivil(QuarterlyDay(n, first))) == QuarterIndex(ToCivil(n)) + 1
    ensures n < QuarterlyDay(n, first)
    ensures ToCivil(QuarterlyDay(n, first)) == Civil(ToCivil(n).year + 1, 0, first)
  {
    assert QuarterlyDay(n, first) == YearlyDay(n, first);
  }

  lemma QuarterlyDaySameYear(n: int, first: DayOfMonth)
    requires QuarterStart(ToCivil(n).month) != 0
    ensures QuarterIndex(ToCivil(QuarterlyDay(n, first))) == QuarterIndex(ToCivil(n)) + 1
    ensures n < QuarterlyDay(n, first)
    ensures first <= DaysInMonth(ToCivil(n).year, QuarterStart(ToCivil(n).month)) ==>
      ToCivil(QuarterlyDay(n, first)) == Civil(ToCivil(n).year, QuarterStart(ToCivil(n).month), first)
  {
    QuarterlyLanding(n, ToCivil(n), QuarterStart(ToCivil(n).month), ToCivil(n).year, first, QuarterlyDay(n, first));
  }

  lemma QuarterlyLanding(n: int, c: Civil, q: Month, y: int, first: DayOfMonth, t: int)
    requires c == ToCivil(n) && q == QuarterStart(c.month)
    requires y == if q == 0 then c.year + 1 else c.year
    requires t == MakeDay(y, q, first)
    ensures QuarterIndex(ToCivil(t)) == QuarterIndex(c) + 1
    ensures n < t
    ensures first <= DaysInMonth(y, q) ==> ToCivil(t) == Civil(y, q, first)
  {
    QuarterLanding(y, q, first);
    QuarterAfter(c, ToCivil(t));
    MonthIndexOrder(n, t);
  }

  function NextQuarterly(s: Schedule, from: Instant): (r: Option<Instant>)
    ensures r.Some? <==> |s.days| > 0
    ensures r.Some? ==> r.value.day == QuarterlyDay(from.day, Seqs.Min(s.days))
    ensures r.Some? ==> from.day < r.value.day
    ensures r.Some? ==> r.value.minute == PaymentMinute(s.time)
  {
    if |s.days| == 0 then None
    else
      QuarterlyDayFacts(from.day, Seqs.Min(s.days));
      Some(AtPaymentTime(QuarterlyDay(from.day, Seqs.Min(s.days)), s.time))
  }

  /** Every day number 1..31 fits in January. */
  lemma JanuaryLanding(y: int, first: DayOfMonth)
    ensures ToCivil(MakeDay(y, 0, first)) == Civil(y, 0, first)
  {
    assert DaysInMonth(y, 0) == 31;
    CivilRoundTrip(Civil(y, 0, first));
  }

  /** The day getNextYearlyPayment moves day n to: `setFullYear(year + 1)`,
      then `setMonth(0, first)`, which is always January `first` of next year. */
  function YearlyDay(n: int, first: DayOfMonth): (t: int)
    ensures ToCivil(t) == Civil(ToCivil(n).year + 1, 0, first)
    ensures n < t
  {
    var y := ToCivil(n).year;
    var t := SetMonth(SetFullYear(n, y + 1), 0, first);
    SetYearThenMonth(n, y + 1, 0, first);
    YearlyLanding(n, y, first, t);
    t
  }

  lemma YearlyLanding(n: int, y: int, first: DayOfMonth, t: int)
    requires y == ToCivil(n).year
    requires t == MakeDay(y + 1, 0, first)
    ensures ToCivil(t) == Civil(y + 1, 0, first)
    ensures n < t
  {
    JanuaryLanding(y + 1, first);
    assert MonthIndex(t) == (y + 1) * 12;
    MonthIndexOrder(n, t);
  }

  function NextYearly(s: Schedule, from: Instant): (r: Option<Instant>)
    ensures r.Some? <==> |s.days| > 0
    ensures r.Some? ==> r.value.day == YearlyDay(from.day, Seqs.Min(s.days))
    ensures r.Some? ==> from.day < r.value.day
    ensures r.Some? ==> r.value.minute == PaymentMinute(s.time)
  {
    if |s.days| == 0 then None
    else Some(AtPaymentTime(YearlyDay(from.day, Seqs.Min(s.days)), s.time))
  }

  // ---------------------------------------------------------------------------
  // Next payment

  function NextPaymentDate(s: Schedule, from: Instant): (r: Option<Instant>)
    ensures s.frequency == OneTime ==> r.None?
    ensures r.Some? ==> from.day < r.value.day
    ensures r.Some? ==> r.value.minute == PaymentMinute(s.time)
  {
    match s.frequency
    case OneTime => None
    case Weekly => NextWeekly(s, from)
    case Biweekly => NextBiweekly(s, from)
    case Monthly => NextMonthly(s, from)
    case Quarterly => NextQuarterly(s, from)
    case Yearly => NextYearly(s, from)
  }

  // ---------------------------------------------------------------------------
  // Upcoming payments

  /** Amount of the upcoming payment on `t`: a monthly source with manual
      amounts reads its day map, keyed by 31 on the last day of the month when
      31 is a schedule day; every other source pays the per-payment amount. */
  function UpcomingAmount(s: Schedule, t: Instant): (r: real)
    ensures !(s.frequency == Monthly && s.useManualAmounts && s.dayAmounts.Some?) ==>
      r == PerPaymentAmount(s, None)
    ensures s.frequency == Monthly && s.useManualAmounts && s.dayAmounts.Some? ==>
      var c := ToCivil(t.day);
      if c.date == DaysInMonth(c.year, c.month) && 31 in s.days
      then r == ManualAmount(s.dayAmounts.value, 31)
      else r == ManualAmount(s.dayAmounts.value, c.date)
  {
    if s.frequency == Monthly && s.useManualAmounts && s.dayAmounts.Some? then
      var c := ToCivil(t.day);
      var isLastDay := c.date == LastDateOfMonth(c.year, c.month);
      var key := if isLastDay && 31 in s.days then 31 else c.date;
      ManualAmount(s.dayAmounts.value, key)
    else PerPaymentAmount(s, None)
  }

  predicate StrictlyAscending(ps: seq<Payment>) {
    forall i, j :: 0 <= i < j < |ps| ==> ps[i].date.day < ps[j].date.day
  }

  predicate NotAfter(ps: seq<Payment>, end: Instant) {
    forall i :: 0 <= i < |ps| ==> Stamp(ps[i].date) <= Stamp(end)
  }

  /** A run of upcoming payments: ascending days from `lo` on, none after
      `end`, each at `minute` with a positive amount equal to `amountOf` of
      its date. */
  predicate Run(r: seq<Payment>, amountOf: Instant -> real, minute: MinuteOfDay, lo: int, end: Instant) {
    StrictlyAscending(r) && NotAfter(r, end)
    && forall i :: 0 <= i < |r| ==>
      r[i].amount > 0.0 && r[i].amount == amountOf(r[i].date)
      && lo <= r[i].date.day && r[i].date.minute == minute
  }

  /** A payment on day t followed by a run starting after t is a run from t. */
  lemma ConsRun(head: seq<Payment>, rest: seq<Payment>, amountOf: Instant -> real, minute: MinuteOfDay,
                t: Instant, lo: int, end: Instant)
    requires |head| <= 1 && Run(head, amountOf, minute, t.day, end)
    requires forall i :: 0 <= i < |head| ==> head[i].date.day == t.day
    requires t.day < lo && Run(rest, amountOf, minute, lo, end)
    ensures Run(head + rest, amountOf, minute, t.day, end)
  {
    var r := head + rest;
    forall i, j | 0 <= i < j < |r|
      ensures r[i].date.day < r[j].date.day
    {
      if j < |head| {
      } else if i < |head| {
        assert r[j] == rest[j - |head|];
      } else {
        assert r[i] == rest[i - |head|] && r[j] == rest[j - |head|];
      }
    }
    forall i | 0 <= i < |r|
      ensures Stamp(r[i].date) <= Stamp(end)
      ensures r[i].amount > 0.0 && r[i].amount == amountOf(r[i].date)
      ensures t.day <= r[i].date.day && r[i].date.minute == minute
    {
      if i >= |head| {
        assert r[i] == rest[i - |head|];
      }
    }
  }

  /** The dates the next-date query walks through from `next` on, each asked
      from the day after the previous answer, until an answer is missing or
      later than `end`: the dates getUpcomingPayments visits when nothing
      stops it early. */
  function Chain(nextOf: Instant -> Option<Instant>, next: Option<Instant>, end: Instant): (r: seq<Instant>)
    requires forall t :: nextOf(t).Some? ==> t.day < nextOf(t).value.day
    decreases if next.Some? then end.day - next.value.day + 1 else 0
  {
    if next.None? || Stamp(next.value) > Stamp(end) then []
    else
      var t := next.value;
      StampOrder(t, end);
      [t] + Chain(nextOf, nextOf(Instant(t.day + 1, t.minute)), end)
  }

  /** The payments a list of dates yields: one per date whose amount is
      positive, in the order of the dates. */
  function Paid(ds: seq<Instant>, amountOf: Instant -> real): seq<Payment> {
    if |ds| == 0 then []
    else
      var rest := Paid(ds[1..], amountOf);
      if amountOf(ds[0]) > 0.0 then [Payment(ds[0], amountOf(ds[0]))] + rest else rest
  }

  /** A payment is paid from a list of dates iff its date is listed and its
      amount is that date's positive amount. */
  lemma {:induction false} PaidMembers(ds: seq<Instant>, amountOf: Instant -> real)
    ensures |Paid(ds, amountOf)| <= |ds|
    ensures forall p :: p in Paid(ds, amountOf) <==> p.date in ds && p.amount == amountOf(p.date) && p.amount > 0.0
  {
    if |ds| > 0 {
      PaidMembers(ds[1..], amountOf);
      assert forall d :: d in ds <==> d == ds[0] || d in ds[1..];
    }
  }

  /** The while loop of getUpcomingPayments from the current nextPaymentDate
      `next` on, returning the payments it pushes. `nextOf` is the next-date
      query (each answer a later day at the payment minute) and `amountOf`
      the amount of a payment on a date; `room` is how many more pushes the
      loop allows before its length check (`payments.length > 100`) breaks. */
  /** The payment pushed for date t, if any, is a run from t's day. */
  lemma HeadRun(head: seq<Payment>, amountOf: Instant -> real, minute: MinuteOfDay, t: Instant, end: Instant)
    requires head == if amountOf(t) > 0.0 then [Payment(t, amountOf(t))] else []
    requires t.minute == minute && Stamp(t) <= Stamp(end)
    ensures |head| <= 1 && Run(head, amountOf, minute, t.day, end)
    ensures forall i :: 0 <= i < |head| ==> head[i].date.day == t.day
  {
  }

  /** One step along the chain: the date `next` then the chain from the day
      after it, and what the first `room` payments of that are. */
  lemma ChainStep(nextOf: Instant -> Option<Instant>, amountOf: Instant -> real,
                  next: Option<Instant>, end: Instant, room: nat, head: seq<Payment>)
    requires forall t :: nextOf(t).Some? ==> t.day < nextOf(t).value.day
    requires next.Some? && Stamp(next.value) <= Stamp(end)
    requires head == if amountOf(next.value) > 0.0 then [Payment(next.value, amountOf(next.value))] else []
    requires |head| <= room
    ensures var after := nextOf(Instant(next.value.day + 1, next.value.minute));
      Seqs.Take(Paid(Chain(nextOf, next, end), amountOf), room)
      == head + Seqs.Take(Paid(Chain(nextOf, after, end), amountOf), room - |head|)
  {
    var t := next.value;
    var after := nextOf(Instant(t.day + 1, t.minute));
    var chain := Chain(nextOf, next, end);
    assert chain == [t] + Chain(nextOf, after, end);
    assert chain[1..] == Chain(nextOf, after, end);
    assert Paid(chain, amountOf) == head + Paid(Chain(nextOf, after, end), amountOf);
    Seqs.TakeAfter(head, Paid(Chain(nextOf, after, end), amountOf), room);
  }

  function UpcomingLoop(nextOf: Instant -> Option<Instant>, amountOf: Instant -> real, minute: MinuteOfDay,
                        next: Option<Instant>, end: Instant, room: nat): (r: seq<Payment>)
    requires forall t :: nextOf(t).Some? ==> t.day < nextOf(t).value.day && nextOf(t).value.minute == minute
    requires next.Some? ==> next.value.minute == minute
    requires room > 0
    ensures r == Seqs.Take(Paid(Chain(nextOf, next, end), amountOf), room)
    ensures next.Some? ==> Run(r, amountOf, minute, next.value.day, end)
    decreases if next.Some? then end.day - next.value.day + 1 else 0
  {
    if next.None? || Stamp(next.value) > Stamp(end) then []
    else
      var t := next.value;
      var amount := amountOf(t);
      var head := if amount > 0.0 then [Payment(t, amount)] else [];
      var after := nextOf(Instant(t.day + 1, t.minute));
      StampOrder(t, end);
      var rest := if room - |head| == 0 then [] else UpcomingLoop(nextOf, amountOf, minute, after, end, room - |head|);
      UpcomingStep(nextOf, amountOf, minute, next, end, room, head, rest);
      head + rest
  }

  /** The step of UpcomingLoop: the payment of the date reached, if any,
      followed by what the loop finds from the day after it. */
  lemma UpcomingStep(nextOf: Instant -> Option<Instant>, amountOf: Instant -> real, minute: MinuteOfDay,
                     next: Option<Instant>, end: Instant, room: nat, head: seq<Payment>, rest: seq<Payment>)
    requires forall t :: nextOf(t).Some? ==> t.day < nextOf(t).value.day && nextOf(t).value.minute == minute
    requires next.Some? && next.value.minute == minute && Stamp(next.value) <= Stamp(end)
    requires head == if amountOf(next.value) > 0.0 then [Payment(next.value, amountOf(next.value))] else []
    requires room > 0
    requires var after := nextOf(Instant(next.value.day + 1, next.value.minute));
      rest == Seqs.Take(Paid(Chain(nextOf, after, end), amountOf), room - |head|)
      && (after.Some? ==> Run(rest, amountOf, minute, after.value.day, end))
    ensures head + rest == Seqs.Take(Paid(Chain(nextOf, next, end), amountOf), room)
    ensures Run(head + rest, amountOf, minute, next.value.day, end)
  {
    var t := next.value;
    var after := nextOf(Instant(t.day + 1, t.minute));
    ChainStep(nextOf, amountOf, next, end, room, head);
    HeadRun(head, amountOf, minute, t, end);
    if after.Some? {
      assert t.day < after.value.day;
    }
    ConsRun(head, rest, amountOf, minute, t, if after.Some? then after.value.day else t.day + 1, end);
  }

  /** The next-date query of a schedule, as a function of the date asked from. */
  function NextOf(s: Schedule): Instant -> Option<Instant> {
    t => NextPaymentDate(s, t)
  }

  /** The amount getUpcomingPayments gives a payment of the schedule on a date. */
  function AmountOf(s: Schedule): Instant -> real {
    t => UpcomingAmount(s, t)
  }

  /** The horizon of getUpcomingPayments: `daysAhead` days after `from`. */
  function HorizonEnd(from: Instant, daysAhead: int): Instant {
    Instant(from.day + daysAhead, from.minute)
  }

  function UpcomingPayments(s: Schedule, from: Instant, daysAhead: int): (r: seq<Payment>)
    ensures s.frequency == OneTime ==> r == []
    ensures NextPaymentDate(s, from).None? ==> r == []
    ensures |r| <= Cap + 1
    ensures StrictlyAscending(r)
    ensures forall i :: 0 <= i < |r| ==>
      from.day < r[i].date.day
      && Stamp(r[i].date) <= Stamp(HorizonEnd(from, daysAhead))
      && r[i].date.minute == PaymentMinute(s.time)
      && r[i].amount > 0.0 && r[i].amount == UpcomingAmount(s, r[i].date)
  {
    if s.frequency == OneTime then []
    else
      UpcomingLoop(NextOf(s), AmountOf(s), PaymentMinute(s.time),
                   NextPaymentDate(s, from), HorizonEnd(from, daysAhead), Cap + 1)
  }

  /** The upcoming payments are the first 101 positive payments along the
      chain of next dates from `from` up to the horizon. */
  lemma UpcomingIsChain(s: Schedule, from: Instant, daysAhead: int)
    requires s.frequency != OneTime
    ensures UpcomingPayments(s, from, daysAhead)
      == Seqs.Take(Paid(Chain(NextOf(s), NextPaymentDate(s, from), HorizonEnd(from, daysAhead)), AmountOf(s)), Cap + 1)
  {
  }

  /** Unless the length check cut the loop short, every date of the chain
      with a positive amount is in the upcoming list, and nothing else is. */
  lemma UpcomingComplete(s: Schedule, from: Instant, daysAhead: int, d: Instant)
    requires s.frequency != OneTime
    requires |UpcomingPayments(s, from, daysAhead)| <= Cap
    ensures Payment(d, UpcomingAmount(s, d)) in UpcomingPayments(s, from, daysAhead) <==>
      d in Chain(NextOf(s), NextPaymentDate(s, from), HorizonEnd(from, daysAhead)) && UpcomingAmount(s, d) > 0.0
  {
    var ch := Chain(NextOf(s), NextPaymentDate(s, from), HorizonEnd(from, daysAhead));
    var paid := Paid(ch, AmountOf(s));
    UpcomingIsChain(s, from, daysAhead);
    assert UpcomingPayments(s, from, daysAhead) == Seqs.Take(paid, Cap + 1);
    assert UpcomingPayments(s, from, daysAhead) == paid;
    PaidMembers(ch, AmountOf(s));
    assert AmountOf(s)(d) == UpcomingAmount(s, d);
  }

  // ---------------------------------------------------------------------------
  // Recent payments

  function PaymentDay(p: Payment): int {
    p.date.day
  }

  /** Newest first: the comparator `b.date - a.date`. */
  function NewestFirst(p: Payment): int {
    -Stamp(p.date)
  }

  predicate Within(ps: seq<Payment>, start: Instant, toDate: Instant) {
    forall i :: 0 <= i < |ps| ==> Stamp(start) <= Stamp(ps[i].date) <= Stamp(toDate)
  }

  predicate AllAmount(ps: seq<Payment>, amount: real) {
    forall i :: 0 <= i < |ps| ==> ps[i].amount == amount
  }

  /** `payments.find(p => p.date.toDateString() === ...)`: some listed
      payment falls on that calendar day. */
  predicate HasDay(ps: seq<Payment>, day: int) {
    exists i :: 0 <= i < |ps| && ps[i].date.day == day
  }

  /** The next-date answer exists and falls inside [start, toDate]. */
  predicate InWindow(found: Option<Instant>, start: Instant, toDate: Instant) {
    found.Some? && Stamp(start) <= Stamp(found.value) <= Stamp(toDate)
  }

  /** Every day from `first` to toDate whose next-date answer falls in the
      window has its answer's day among the payments `r`. */
  ghost predicate Covers(r: seq<Payment>, nextOf: Instant -> Option<Instant>, start: Instant, toDate: Instant,
                   first: int, minute: MinuteOfDay) {
    forall d :: first <= d && Stamp(Instant(d, minute)) <= Stamp(toDate) ==>
      (InWindow(nextOf(Instant(d, minute)), start, toDate) ==> HasDay(r, nextOf(Instant(d, minute)).value.day))
  }

  /** Every payment of `r` from index `lo` on is the answer of some day from
      `first` to toDate. */
  ghost predicate Answers(r: seq<Payment>, lo: nat, nextOf: Instant -> Option<Instant>, toDate: Instant,
                    first: int, minute: MinuteOfDay) {
    forall i :: lo <= i < |r| ==>
      exists d :: first <= d && Stamp(Instant(d, minute)) <= Stamp(toDate) && nextOf(Instant(d, minute)) == Some(r[i].date)
  }

  /** The while loop of getRecentPayments: query the next payment (through
      `nextOf`) from every day of the window [start, toDate] and keep each
      answer inside the window, once per day. */
  function RecentLoop(nextOf: Instant -> Option<Instant>, start: Instant, toDate: Instant, cur: Instant,
                      amount: real, acc: seq<Payment>): (r: seq<Payment>)
    requires |acc| <= Cap
    requires Seqs.DistinctBy(acc, PaymentDay)
    requires Within(acc, start, toDate) && AllAmount(acc, amount)
    ensures |acc| <= |r| <= Cap + 1 && r[..|acc|] == acc
    ensures Seqs.DistinctBy(r, PaymentDay)
    ensures Within(r, start, toDate) && AllAmount(r, amount)
    // Unless the length check stopped it, the loop finds the answer of every
    // day it still has to ask from; and every payment it appends is one.
    ensures |r| <= Cap ==> Covers(r, nextOf, start, toDate, cur.day, cur.minute)
    ensures Answers(r, |acc|, nextOf, toDate, cur.day, cur.minute)
    decreases toDate.day - cur.day + 1
  {
    if Stamp(cur) > Stamp(toDate) then acc
    else
      StampOrder(cur, toDate);
      var acc' := Keep(acc, nextOf(cur), start, toDate, amount);
      if |acc'| > Cap then
        assert cur == Instant(cur.day, cur.minute);
        acc'
      else
        var r := RecentLoop(nextOf, start, toDate, Instant(cur.day + 1, cur.minute), amount, acc');
        assert r[..|acc|] == r[..|acc'|][..|acc|];
        RecentStep(nextOf, start, toDate, cur, acc, acc', r);
        r
  }

  /** One pass of the loop body: keep the payment found if it lies in the
      window and its day is not listed yet. */
  function Keep(acc: seq<Payment>, found: Option<Instant>, start: Instant, toDate: Instant, amount: real): (r: seq<Payment>)
    requires Seqs.DistinctBy(acc, PaymentDay)
    requires Within(acc, start, toDate) && AllAmount(acc, amount)
    ensures |acc| <= |r| <= |acc| + 1 && r[..|acc|] == acc
    ensures Seqs.DistinctBy(r, PaymentDay)
    ensures Within(r, start, toDate) && AllAmount(r, amount)
    ensures InWindow(found, start, toDate) ==> HasDay(r, found.value.day)
    ensures |r| > |acc| ==> found == Some(r[|acc|].date)
  {
    if InWindow(found, start, toDate) && !HasDay(acc, found.value.day) then
      var r := acc + [Payment(found.value, amount)];
      assert r[|acc|].date.day == found.value.day;
      r
    else acc
  }

  /** The step of RecentLoop: the day `cur` is covered by what it appended or
      already held, and the later days by the rest of the loop. */
  lemma RecentStep(nextOf: Instant -> Option<Instant>, start: Instant, toDate: Instant, cur: Instant,
                   acc: seq<Payment>, acc': seq<Payment>, r: seq<Payment>)
    requires |acc| <= |acc'| <= |acc| + 1 && |acc'| <= |r| && r[..|acc'|] == acc' && acc'[..|acc|] == acc
    requires InWindow(nextOf(cur), start, toDate) ==> HasDay(acc', nextOf(cur).value.day)
    requires |acc'| > |acc| ==> nextOf(cur) == Some(acc'[|acc|].date)
    requires |r| <= Cap ==> Covers(r, nextOf, start, toDate, cur.day + 1, cur.minute)
    requires Answers(r, |acc'|, nextOf, toDate, cur.day + 1, cur.minute)
    requires Stamp(cur) <= Stamp(toDate)
    ensures |r| <= Cap ==> Covers(r, nextOf, start, toDate, cur.day, cur.minute)
    ensures Answers(r, |acc|, nextOf, toDate, cur.day, cur.minute)
  {
    assert cur == Instant(cur.day, cur.minute);
    if InWindow(nextOf(cur), start, toDate) {
      assert HasDay(acc', nextOf(cur).value.day);
      var j :| 0 <= j < |acc'| && acc'[j].date.day == nextOf(cur).value.day;
      assert r[j] == acc'[j];
    }
    if |acc'| > |acc| {
      assert r[|acc|] == acc'[|acc|];
    }
  }

  /** The first day of getRecentPayments' window: `daysBefore` days before toDate. */
  function WindowStart(toDate: Instant, daysBefore: int): Instant {
    Instant(toDate.day - daysBefore, toDate.minute)
  }

  function RecentPayments(s: Schedule, toDate: Instant, daysBefore: int): (r: seq<Payment>)
    ensures s.frequency == OneTime ==> r == []
    ensures |r| <= Cap + 1
    ensures forall i, j :: 0 <= i < j < |r| ==> r[i].date.day > r[j].date.day
    ensures forall i :: 0 <= i < |r| ==>
      Stamp(WindowStart(toDate, daysBefore)) <= Stamp(r[i].date) <= Stamp(toDate)
      && r[i].amount == PerPaymentAmount(s, None)
    // Unless the length check stopped the scan, every day of the window whose
    // next payment falls inside the window has that payment's day listed; and
    // every listed payment is the next payment from some day of the window.
    ensures |r| <= Cap ==>
      Covers(r, NextOf(s), WindowStart(toDate, daysBefore), toDate, toDate.day - daysBefore, toDate.minute)
    ensures Answers(r, 0, NextOf(s), toDate, toDate.day - daysBefore, toDate.minute)
  {
    if s.frequency == OneTime then []
    else
      var start := WindowStart(toDate, daysBefore);
      var r := RecentScan(NextOf(s), start, toDate, PerPaymentAmount(s, None));
      assert start.day == toDate.day - daysBefore && start.minute == toDate.minute;
      assert Within(r, start, toDate) && AllAmount(r, PerPaymentAmount(s, None));
      r
  }

  /** The scan of the window [start, toDate], sorted newest first. */
  function RecentScan(nextOf: Instant -> Option<Instant>, start: Instant, toDate: Instant, amount: real): (r: seq<Payment>)
    ensures |r| <= Cap + 1
    ensures forall i, j :: 0 <= i < j < |r| ==> r[i].date.day > r[j].date.day
    ensures Within(r, start, toDate) && AllAmount(r, amount)
    ensures |r| <= Cap ==> Covers(r, nextOf, start, toDate, start.day, start.minute)
    ensures Answers(r, 0, nextOf, toDate, start.day, start.minute)
  {
    var found := RecentLoop(nextOf, start, toDate, start, amount, []);
    var r := Seqs.SortBy(found, NewestFirst);
    NewestFirstOrder(found, r, start, toDate, amount);
    PermutedScan(found, r, nextOf, start, toDate);
    r
  }

  /** Sorting the scan's payments newest first keeps them inside the window
      with their amount, and puts their (distinct) days in descending order. */
  lemma NewestFirstOrder(found: seq<Payment>, r: seq<Payment>, start: Instant, toDate: Instant, amount: real)
    requires multiset(found) == multiset(r) && Seqs.SortedBy(r, NewestFirst)
    requires Seqs.DistinctBy(found, PaymentDay)
    requires Within(found, start, toDate) && AllAmount(found, amount)
    ensures Within(r, start, toDate) && AllAmount(r, amount)
    ensures forall i, j :: 0 <= i < j < |r| ==> r[i].date.day > r[j].date.day
  {
    Seqs.PermutationKeepsDistinct(found, r, PaymentDay);
    forall i | 0 <= i < |r|
      ensures Stamp(start) <= Stamp(r[i].date) <= Stamp(toDate) && r[i].amount == amount
    {
      assert r[i] in multiset(found);
    }
    forall i, j | 0 <= i < j < |r|
      ensures r[i].date.day > r[j].date.day
    {
      assert NewestFirst(r[i]) <= NewestFirst(r[j]);
      assert PaymentDay(r[i]) != PaymentDay(r[j]);
      StampOrder(r[i].date, r[j].date);
    }
  }

  /** Sorting the scan's payments keeps what it covers and what it answers. */
  lemma PermutedScan(found: seq<Payment>, r: seq<Payment>, nextOf: Instant -> Option<Instant>,
                     start: Instant, toDate: Instant)
    requires multiset(found) == multiset(r)
    requires |found| <= Cap ==> Covers(found, nextOf, start, toDate, start.day, start.minute)
    requires Answers(found, 0, nextOf, toDate, start.day, start.minute)
    ensures |r| <= Cap ==> Covers(r, nextOf, start, toDate, start.day, start.minute)
    ensures Answers(r, 0, nextOf, toDate, start.day, start.minute)
  {
    assert |r| == |found| by {
      assert |multiset(r)| == |multiset(found)|;
    }
    forall day | HasDay(found, day)
      ensures HasDay(r, day)
    {
      var j :| 0 <= j < |found| && found[j].date.day == day;
      assert found[j] in multiset(r);
      var k :| 0 <= k < |r| && r[k] == found[j];
    }
    forall i | 0 <= i < |r|
      ensures exists d ::
        start.day <= d && Stamp(Instant(d, start.minute)) <= Stamp(toDate) && nextOf(Instant(d, start.minute)) == Some(r[i].date)
    {
      assert r[i] in multiset(found);
      var j :| 0 <= j < |found| && found[j] == r[i];
    }
  }
}

=== FILE: recordForm.dfy ===
/** The income-record form (src/components/income/IncomeRecordForm.tsx): its
    validation, the date it fills in when a record is marked received, and
    its comparison of the actual amount with the expected one. */
module RecordForm {
  import opened Wrappers
  import opened Calendar
  import opened Income
  import RecordsRoute

  /** The form's state. An empty source select or date input is `None`;
      `actualAmount` is `None` while the amount input is empty. */
  datatype RecordFormData = RecordFormData(
    sourceId: Option<nat>,
    expectedDate: Option<Instant>,
    actualAmount: Option<real>,
    actualDate: Option<Instant>,
    status: RecordStatus,
    notes: string)

  datatype Field = SourceField | ExpectedDateField | ActualAmountField

  const SourceRequired: string := "Income source is required"
  const DateRequired: string := "Expected date is required"
  const AmountRequired: string := "Actual amount is required when status is Received"
  const AmountPositive: string := "Actual amount must be greater than 0"

  /** `!formData.actualAmount`: no amount, or 0. */
  predicate AmountFalsy(a: Option<real>) {
    a.None? || a.value == 0.0
  }

  /** The error map `validateForm` builds. The positivity rule comes last,
      so its message replaces the received-without-amount one. */
  function FormErrors(f: RecordFormData): (e: map<Field, string>)
    ensures SourceField in e <==> f.sourceId.None?
    ensures ExpectedDateField in e <==> f.expectedDate.None?
    ensures ActualAmountField in e <==>
      (f.status == Received && AmountFalsy(f.actualAmount)) || (f.actualAmount.Some? && f.actualAmount.value <= 0.0)
    ensures ActualAmountField in e ==>
      e[ActualAmountField] == if f.actualAmount.Some? && f.actualAmount.value <= 0.0 then AmountPositive else AmountRequired
    ensures SourceField in e ==> e[SourceField] == SourceRequired
    ensures ExpectedDateField in e ==> e[ExpectedDateField] == DateRequired
  {
    var e0: map<Field, string> := if f.sourceId.None? then map[SourceField := SourceRequired] else map[];
    var e1 := if f.expectedDate.None? then e0[ExpectedDateField := DateRequired] else e0;
    var e2 := if f.status == Received && AmountFalsy(f.actualAmount) then e1[ActualAmountField := AmountRequired] else e1;
    if f.actualAmount.Some? && f.actualAmount.value <= 0.0 then e2[ActualAmountField := AmountPositive] else e2
  }

  /** `validateForm`: true exactly when no rule fails, that is, when a
      source and an expected date are chosen, any amount entered is
      positive, and a received record has one. */
  function ValidateForm(f: RecordFormData): (ok: bool)
    ensures ok <==> FormErrors(f) == map[]
    ensures ok <==>
      f.sourceId.Some? && f.expectedDate.Some?
      && (f.actualAmount.Some? ==> f.actualAmount.value > 0.0)
      && (f.status == Received ==> f.actualAmount.Some?)
  {
    NoErrorsIff(f);
    |FormErrors(f).Keys| == 0
  }

  /** No rule fails exactly when every field meets its rule. */
  lemma NoErrorsIff(f: RecordFormData)
    ensures FormErrors(f) == map[] <==>
      f.sourceId.Some? && f.expectedDate.Some?
      && (f.actualAmount.Some? ==> f.actualAmount.value > 0.0)
      && (f.status == Received ==> f.actualAmount.Some?)
  {
    var e := FormErrors(f);
    if e != map[] {
      var k :| k in e;
    }
  }

  // ---------------------------------------------------------------------------
  // Input changes

  datatype Edit =
    | SetSource(sourceId: Option<nat>)
    | SetExpectedDate(expectedDate: Option<Instant>)
    | SetStatus(status: RecordStatus)
    | SetActualAmount(actualAmount: Option<real>)
    | SetActualDate(actualDate: Option<Instant>)
    | SetNotes(notes: string)

  /** `handleInputChange`: the field takes the new value; choosing RECEIVED
      while no received date is set also sets that date to today. */
  function HandleInputChange(f: RecordFormData, e: Edit, today: Instant): (g: RecordFormData)
    ensures e.SetStatus? ==> g.status == e.status
    ensures e.SetStatus? && e.status == Received && f.actualDate.None? ==> g.actualDate == Some(Instant(today.day, 0))
    ensures e.SetStatus? && !(e.status == Received && f.actualDate.None?) ==> g == f.(status := e.status)
    ensures e.SetSource? ==> g == f.(sourceId := e.sourceId)
    ensures e.SetExpectedDate? ==> g == f.(expectedDate := e.expectedDate)
    ensures e.SetActualAmount? ==> g == f.(actualAmount := e.actualAmount)
    ensures e.SetActualDate? ==> g == f.(actualDate := e.actualDate)
    ensures e.SetNotes? ==> g == f.(notes := e.notes)
  {
    match e
    case SetSource(v) => f.(sourceId := v)
    case SetExpectedDate(v) => f.(expectedDate := v)
    case SetStatus(v) =>
      if v == Received && f.actualDate.None? then f.(status := v, actualDate := Some(Instant(today.day, 0)))
      else f.(status := v)
    case SetActualAmount(v) => f.(actualAmount := v)
    case SetActualDate(v) => f.(actualDate := v)
    case SetNotes(v) => f.(notes := v)
  }

  /** After choosing RECEIVED the form always has a received date, and only
      the status and that date can have changed. */
  lemma MarkingReceivedSetsDate(f: RecordFormData, today: Instant)
    ensures var g := HandleInputChange(f, SetStatus(Received), today);
      g.actualDate.Some? && g.status == Received
      && g.(status := f.status, actualDate := f.actualDate) == f
      && (f.actualDate.Some? ==> g.actualDate == f.actualDate)
  {
  }

  // ---------------------------------------------------------------------------
  // Comparison with the expected amount

  datatype Delta = Above(diff: real) | Below(diff: real)

  /** The line under the amount: shown when both amounts are truthy; "above"
      with actual − expected when the actual amount reaches the expected
      one, "below" with expected − actual otherwise. */
  function DeltaOf(actual: Option<real>, expected: Option<real>): (d: Option<Delta>)
    ensures d.Some? <==> !AmountFalsy(actual) && !AmountFalsy(expected)
    ensures d.Some? ==> (d.value.Above? <==> actual.value >= expected.value)
    ensures d.Some? ==> d.value.diff >= 0.0
    ensures d.Some? && d.value.Above? ==> expected.value + d.value.diff == actual.value
    ensures d.Some? && d.value.Below? ==> actual.value + d.value.diff == expected.value
  {
    if AmountFalsy(actual) || AmountFalsy(expected) then None
    else if actual.value >= expected.value then Some(Above(actual.value - expected.value))
    else Some(Below(expected.value - actual.value))
  }

  // ---------------------------------------------------------------------------
  // The form against the route it posts to

  /** The JSON the form's state serialises to. */
  function ToBody(f: RecordFormData): (b: RecordsRoute.RecordBody)
    ensures b.sourceId == f.sourceId && b.expectedDate == f.expectedDate
    ensures b.actualAmount == f.actualAmount && b.actualDate == f.actualDate
    ensures b.status == Some(f.status) && b.notes == Some(f.notes)
  {
    RecordsRoute.RecordBody(f.sourceId, f.expectedDate, f.actualAmount, f.actualDate, Some(f.status), Some(f.notes))
  }

  /** A form that passes its validation, for a source the user owns, is
      stored as entered. */
  lemma ValidFormStored(f: RecordFormData, email: Option<string>, users: map<string, nat>, owner: map<nat, nat>)
    requires ValidateForm(f)
    requires RecordsRoute.Authenticate(email, users).Success?
    requires f.sourceId.Some? && f.sourceId.value in owner
    requires owner[f.sourceId.value] == RecordsRoute.Authenticate(email, users).value
    ensures RecordsRoute.Create(email, users, owner, ToBody(f)).Created?
    ensures var r := RecordsRoute.Create(email, users, owner, ToBody(f)).record;
      r.sourceId == f.sourceId.value && r.expectedDate == f.expectedDate.value
      && r.status == f.status && r.actualAmount == f.actualAmount && r.actualDate == f.actualDate
  {
  }

  /** The route is more lenient than the form: a negative received amount is
      refused by the form and stored by the route. */
  lemma NegativeAmountOnlyFormRejects(f: RecordFormData, email: Option<string>, users: map<string, nat>, owner: map<nat, nat>)
    requires f.status == Received && f.actualAmount == Some(-1.0)
    requires RecordsRoute.Authenticate(email, users).Success?
    requires f.sourceId.Some? && f.expectedDate.Some? && f.sourceId.value in owner
    requires owner[f.sourceId.value] == RecordsRoute.Authenticate(email, users).value
    ensures !ValidateForm(f)
    ensures RecordsRoute.Create(email, users, owner, ToBody(f)).Created?
  {
  }
}

=== FILE: recordGenerator.dfy ===
/** The record generator (`PaymentRecordGenerator` in
    src/lib/paymentRecordGenerator.ts) over an abstract record store: the
    store is the sequence of income records, a query is a filter over it, a
    create appends, a delete keeps the records that do not match. Runs are
    sequential; each create is visible to the next existence check. */
module RecordGenerator {
  import opened Wrappers
  import opened Calendar
  import opened PaymentCalculator
  import opened Income
  import Seqs

  /** Days ahead when the caller gives none. */
  const DefaultDaysAhead: int := 90

  /** Days past due when the caller gives none. */
  const DefaultDaysPastDue: int := 30

  /** The note the clean-ups look for. */
  const CleanupNote: string := "Auto-generated based on schedule configuration"

  /** How every note the generator writes begins; the amount follows. */
  const GeneratedPrefix: string := "Auto-generated: Expected "

  // ---------------------------------------------------------------------------
  // Horizon

  /** `Math.ceil(a / b)` for b > 0. */
  function CeilDiv(a: int, b: int): (r: int)
    requires b > 0
    ensures b * (r - 1) < a <= b * r
  {
    -((-a) / b)
  }

  /** The number of days handed to the calculator: the span from start to
      end in days, rounded up. */
  function Horizon(start: Instant, end: Instant): (r: int)
    ensures MinutesPerDay * (r - 1) < Stamp(end) - Stamp(start) <= MinutesPerDay * r
  {
    CeilDiv(Stamp(end) - Stamp(start), MinutesPerDay)
  }

  /** An end date a whole number of days after the start (`setDate(getDate()
      + n)`) gives exactly that many days. */
  lemma HorizonOfWholeDays(start: Instant, n: int)
    ensures Horizon(start, Instant(start.day + n, start.minute)) == n
  {
    var d := Stamp(Instant(start.day + n, start.minute)) - Stamp(start);
    assert d == MinutesPerDay * n;
  }

  // ---------------------------------------------------------------------------
  // Generating the records of one source

  /** The existence check: a record of the source expected from the start of
      the payment's calendar day up to 24 hours after the payment. */
  predicate Matches(r: IncomeRecord, id: nat, date: Instant) {
    r.sourceId == id
    && Stamp(Instant(date.day, 0)) <= Stamp(r.expectedDate) < Stamp(date) + MinutesPerDay
  }

  /** The `findFirst` query finds a record: some stored record matches. */
  predicate Covered(store: seq<IncomeRecord>, id: nat, date: Instant) {
    exists i :: 0 <= i < |store| && Matches(store[i], id, date)
  }

  /** The match window in calendar terms: a record of the source expected on
      the payment's day, or on the next day before the payment's time. */
  lemma MatchesWithinADay(r: IncomeRecord, id: nat, date: Instant)
    ensures Matches(r, id, date) <==>
      r.sourceId == id
      && (r.expectedDate.day == date.day
          || (r.expectedDate.day == date.day + 1 && r.expectedDate.minute < date.minute))
  {
    StampOrder(Instant(date.day, 0), r.expectedDate);
    StampOrder(r.expectedDate, Instant(date.day + 2, 0));
  }

  /** `!payment.amount || isNaN(payment.amount) || payment.amount <= 0`. */
  predicate Skipped(p: Payment) {
    p.amount <= 0.0
  }

  predicate GeneratedNote(note: Option<string>) {
    note.Some? && |note.value| >= |GeneratedPrefix| && note.value[..|GeneratedPrefix|] == GeneratedPrefix
  }

  /** The record created for a payment; `amountText` is the amount as
      `toFixed(2)` prints it. */
  function NewRecord(id: nat, p: Payment, amountText: real -> string): (r: IncomeRecord)
    ensures r.sourceId == id && r.expectedDate == p.date && r.status == Pending
    ensures r.actualAmount.None? && r.actualDate.None? && GeneratedNote(r.notes)
  {
    var note := GeneratedPrefix + amountText(p.amount);
    assert note[..|GeneratedPrefix|] == GeneratedPrefix;
    IncomeRecord(id, p.date, Pending, None, None, Some(note))
  }

  /** A record the generator wrote for source `id` from one of `ps`. */
  predicate CreatedFrom(r: IncomeRecord, id: nat, ps: seq<Payment>) {
    r.sourceId == id && r.status == Pending && r.actualAmount.None? && r.actualDate.None?
    && GeneratedNote(r.notes)
    && exists k :: 0 <= k < |ps| && !Skipped(ps[k]) && ps[k].date == r.expectedDate
  }

  datatype Outcome = Outcome(created: nat, store: seq<IncomeRecord>)

  /** The `for … of` loop over the calculated payments: skip the invalid
      ones, create a pending record for each payment not yet covered. */
  function CreateMissing(id: nat, ps: seq<Payment>, store: seq<IncomeRecord>, amountText: real -> string): (o: Outcome)
    ensures |o.store| == |store| + o.created && o.store[..|store|] == store
    ensures forall i :: |store| <= i < |o.store| ==> CreatedFrom(o.store[i], id, ps)
    ensures forall k :: 0 <= k < |ps| && !Skipped(ps[k]) ==> Covered(o.store, id, ps[k].date)
    ensures (forall k :: 0 <= k < |ps| && !Skipped(ps[k]) ==> Covered(store, id, ps[k].date)) ==>
      o == Outcome(0, store)
    // A record is created only for a day that had none of the source yet.
    ensures forall i :: |store| <= i < |o.store| ==> !Covered(o.store[..i], id, o.store[i].expectedDate)
  {
    if |ps| == 0 then Outcome(0, store)
    else
      var p := ps[0];
      var missing := !Skipped(p) && !Covered(store, id, p.date);
      var store1 := if missing then store + [NewRecord(id, p, amountText)] else store;
      var rest := CreateMissing(id, ps[1..], store1, amountText);
      CreateMissingStep(id, ps, store, store1, rest, missing, amountText);
      CreateMissingFresh(id, ps[0], store, store1, rest.store, missing, amountText);
      Outcome(rest.created + (if missing then 1 else 0), rest.store)
  }

  /** The step of CreateMissing: the first payment is covered once handled,
      coverage survives appends, and the new records stem from `ps`. */
  lemma CreateMissingStep(id: nat, ps: seq<Payment>, store: seq<IncomeRecord>, store1: seq<IncomeRecord>,
                          rest: Outcome, missing: bool, amountText: real -> string)
    requires |ps| > 0
    requires missing == (!Skipped(ps[0]) && !Covered(store, id, ps[0].date))
    requires store1 == if missing then store + [NewRecord(id, ps[0], amountText)] else store
    requires |rest.store| >= |store1| && rest.store[..|store1|] == store1
    requires forall i :: |store1| <= i < |rest.store| ==> CreatedFrom(rest.store[i], id, ps[1..])
    requires forall k :: 0 <= k < |ps| - 1 && !Skipped(ps[1..][k]) ==> Covered(rest.store, id, ps[1..][k].date)
    ensures rest.store[..|store|] == store
    ensures forall i :: |store| <= i < |rest.store| ==> CreatedFrom(rest.store[i], id, ps)
    ensures forall k :: 0 <= k < |ps| && !Skipped(ps[k]) ==> Covered(rest.store, id, ps[k].date)
  {
    assert rest.store[..|store|] == store1[..|store|];
    forall i | |store| <= i < |rest.store|
      ensures CreatedFrom(rest.store[i], id, ps)
    {
      if i < |store1| {
        assert rest.store[i] == store1[i] == NewRecord(id, ps[0], amountText);
      } else {
        CreatedFromTail(rest.store[i], id, ps);
      }
    }
    forall k | 0 <= k < |ps| && !Skipped(ps[k])
      ensures Covered(rest.store, id, ps[k].date)
    {
      if k == 0 {
        var i :| 0 <= i < |store1| && Matches(store1[i], id, ps[0].date);
        assert rest.store[i] == store1[i];
      } else {
        assert ps[k] == ps[1..][k - 1];
      }
    }
  }

  /** The step of CreateMissing for the absence rule: the record for the
      first payment is made only when the store has none on its day, and the
      rest keeps the rule from there on. */
  lemma CreateMissingFresh(id: nat, p: Payment, store: seq<IncomeRecord>, store1: seq<IncomeRecord>,
                           last: seq<IncomeRecord>, missing: bool, amountText: real -> string)
    requires missing == (!Skipped(p) && !Covered(store, id, p.date))
    requires store1 == if missing then store + [NewRecord(id, p, amountText)] else store
    requires |last| >= |store1| && last[..|store1|] == store1
    requires forall i :: |store1| <= i < |last| ==> !Covered(last[..i], id, last[i].expectedDate)
    ensures forall i :: |store| <= i < |last| ==> !Covered(last[..i], id, last[i].expectedDate)
  {
    if missing {
      var i := |store|;
      assert last[i] == store1[i] == NewRecord(id, p, amountText);
      assert last[..i] == store1[..i] == store;
    }
  }

  lemma CreatedFromTail(r: IncomeRecord, id: nat, ps: seq<Payment>)
    requires |ps| > 0 && CreatedFrom(r, id, ps[1..])
    ensures CreatedFrom(r, id, ps)
  {
    var k :| 0 <= k < |ps| - 1 && !Skipped(ps[1..][k]) && ps[1..][k].date == r.expectedDate;
    assert ps[k + 1] == ps[1..][k];
  }

  /** `generateRecordsForSource`: nothing for an inactive or one-time source;
      otherwise the calculator's payments from start over the rounded-up
      horizon, each materialised unless already covered. */
  function GenerateForSource(src: Source, start: Instant, end: Instant, store: seq<IncomeRecord>,
                             amountText: real -> string): (o: Outcome)
    ensures !Scheduled(src) ==> o == Outcome(0, store)
    ensures |o.store| == |store| + o.created && o.store[..|store|] == store
    ensures forall i :: |store| <= i < |o.store| ==>
      CreatedFrom(o.store[i], src.id, UpcomingPayments(CalculatorConfig(src), start, Horizon(start, end)))
    // Only days without a record of the source get one, and afterwards every
    // calculated payment's day has one.
    ensures forall i :: |store| <= i < |o.store| ==> !Covered(o.store[..i], src.id, o.store[i].expectedDate)
    ensures Scheduled(src) ==> forall k :: 0 <= k < |SourcePayments(src, start, end)| ==>
      Covered(o.store, src.id, SourcePayments(src, start, end)[k].date)
  {
    if !Scheduled(src) then Outcome(0, store)
    else CreateMissing(src.id, UpcomingPayments(CalculatorConfig(src), start, Horizon(start, end)), store, amountText)
  }

  /** Running the generator again over the store it produced creates
      nothing. */
  lemma GenerateIdempotent(src: Source, start: Instant, end: Instant, store: seq<IncomeRecord>,
                           amountText: real -> string)
    ensures var once := GenerateForSource(src, start, end, store, amountText);
      GenerateForSource(src, start, end, once.store, amountText) == Outcome(0, once.store)
  {
  }

  /** Every calculated payment with a positive amount has a record of its
      source on its day after the run. */
  lemma GenerateCovers(src: Source, start: Instant, end: Instant, store: seq<IncomeRecord>,
                       amountText: real -> string, p: Payment)
    requires Scheduled(src)
    requires p in UpcomingPayments(CalculatorConfig(src), start, Horizon(start, end))
    ensures Covered(GenerateForSource(src, start, end, store, amountText).store, src.id, p.date)
  {
    var ps := UpcomingPayments(CalculatorConfig(src), start, Horizon(start, end));
    var k :| 0 <= k < |ps| && ps[k] == p;
  }

  /** The payments a run asks the calculator for, for one source. */
  function SourcePayments(src: Source, start: Instant, end: Instant): seq<Payment> {
    UpcomingPayments(CalculatorConfig(src), start, Horizon(start, end))
  }

  /** GenerateCovers for every payment of the source at once. */
  lemma GenerateCoversAll(src: Source, start: Instant, end: Instant, store: seq<IncomeRecord>,
                          amountText: real -> string)
    requires Scheduled(src)
    ensures forall p :: p in SourcePayments(src, start, end) ==>
      Covered(GenerateForSource(src, start, end, store, amountText).store, src.id, p.date)
  {
    forall p | p in SourcePayments(src, start, end)
      ensures Covered(GenerateForSource(src, start, end, store, amountText).store, src.id, p.date)
    {
      GenerateCovers(src, start, end, store, amountText, p);
    }
  }

  /** A record stays found when records are appended after it. */
  lemma CoveredGrows(store: seq<IncomeRecord>, big: seq<IncomeRecord>, id: nat, date: Instant)
    requires |big| >= |store| && big[..|store|] == store
    requires Covered(store, id, date)
    ensures Covered(big, id, date)
  {
    var i :| 0 <= i < |store| && Matches(store[i], id, date);
    assert big[i] == store[i];
  }

  // ---------------------------------------------------------------------------
  // Clean-ups

  /** What `cleanupInvalidRecords` deletes: pending records whose note is
      exactly the clean-up note. */
  predicate Invalid(r: IncomeRecord) {
    r.status == Pending && r.notes == Some(CleanupNote)
  }

  predicate KeptByInvalidCleanup(r: IncomeRecord) {
    !Invalid(r)
  }

  datatype Deletion = Deletion(deleted: nat, store: seq<IncomeRecord>)

  function CleanupInvalid(store: seq<IncomeRecord>): (d: Deletion)
    ensures d.deleted + |d.store| == |store|
    ensures d.deleted == Seqs.Count(store, Invalid)
    ensures d.store == Seqs.Filter(store, KeptByInvalidCleanup)
    ensures forall r :: r in d.store <==> r in store && !Invalid(r)
  {
    var kept := Seqs.Filter(store, KeptByInvalidCleanup);
    Seqs.FilterCount(store, KeptByInvalidCleanup);
    Seqs.CountComplement(store, Invalid, KeptByInvalidCleanup);
    Deletion(|store| - |kept|, kept)
  }

  /** The cut-off of `cleanupOverdueRecords`: now, `daysPastDue` days back. */
  function Cutoff(now: Instant, daysPastDue: int): Instant {
    Instant(now.day - daysPastDue, now.minute)
  }

  /** What `cleanupOverdueRecords` deletes: invalid records expected before
      the cut-off. */
  predicate Stale(cutoff: Instant, r: IncomeRecord) {
    Invalid(r) && Stamp(r.expectedDate) < Stamp(cutoff)
  }

  function StaleAt(cutoff: Instant): IncomeRecord -> bool {
    (r: IncomeRecord) => Stale(cutoff, r)
  }

  function KeptByOverdueCleanup(cutoff: Instant): IncomeRecord -> bool {
    (r: IncomeRecord) => !Stale(cutoff, r)
  }

  function CleanupOverdue(store: seq<IncomeRecord>, now: Instant, daysPastDue: int): (d: Deletion)
    ensures d.deleted + |d.store| == |store|
    ensures d.deleted == Seqs.Count(store, StaleAt(Cutoff(now, daysPastDue)))
    ensures d.store == Seqs.Filter(store, KeptByOverdueCleanup(Cutoff(now, daysPastDue)))
    ensures forall r :: r in d.store <==> r in store && !Stale(Cutoff(now, daysPastDue), r)
  {
    var kept := Seqs.Filter(store, KeptByOverdueCleanup(Cutoff(now, daysPastDue)));
    assert forall r :: KeptByOverdueCleanup(Cutoff(now, daysPastDue))(r) == !Stale(Cutoff(now, daysPastDue), r);
    Seqs.FilterCount(store, KeptByOverdueCleanup(Cutoff(now, daysPastDue)));
    Seqs.CountComplement(store, StaleAt(Cutoff(now, daysPastDue)), KeptByOverdueCleanup(Cutoff(now, daysPastDue)));
    Deletion(|store| - |kept|, kept)
  }

  /** No note the generator writes is the clean-up note: the two differ in
      the character after "Auto-generated". */
  lemma GeneratedIsNotCleanupNote(note: Option<string>)
    requires GeneratedNote(note)
    ensures note != Some(CleanupNote)
  {
    assert note.value[14] == GeneratedPrefix[14] == ':';
    assert CleanupNote[14] == ' ';
  }

  /** Records written by the generator survive both clean-ups. */
  lemma GeneratedRecordsSurvive(store: seq<IncomeRecord>, r: IncomeRecord, now: Instant, daysPastDue: int)
    requires r in store && GeneratedNote(r.notes)
    ensures r in CleanupInvalid(store).store
    ensures r in CleanupOverdue(store, now, daysPastDue).store
  {
    GeneratedIsNotCleanupNote(r.notes);
  }

  /** The overdue clean-up deletes only what the invalid clean-up deletes. */
  lemma OverdueCleanupWithinInvalid(store: seq<IncomeRecord>, now: Instant, daysPastDue: int)
    ensures forall r :: r in CleanupInvalid(store).store ==> r in CleanupOverdue(store, now, daysPastDue).store
  {
  }

  // ---------------------------------------------------------------------------
  // Whole runs

  /** `whereClause`: active, not one-time, and the user's when one is given. */
  predicate Selected(user: Option<nat>, src: Source) {
    Scheduled(src) && (user.Some? ==> src.userId == user.value)
  }

  function SelectedBy(user: Option<nat>): Source -> bool {
    (src: Source) => Selected(user, src)
  }

  datatype Run = Run(created: nat, store: seq<IncomeRecord>)

  /** A record the run wrote for one of the selected sources, from that
      source's payments. */
  predicate FromSelected(x: IncomeRecord, sources: seq<Source>, user: Option<nat>, start: Instant, end: Instant) {
    exists s :: s in sources && Selected(user, s) && CreatedFrom(x, s.id, SourcePayments(s, start, end))
  }

  /** Every payment of every selected source has a record of its source. */
  predicate SelectedCovered(store: seq<IncomeRecord>, sources: seq<Source>, user: Option<nat>,
                            start: Instant, end: Instant) {
    forall s, p :: s in sources && Selected(user, s) && p in SourcePayments(s, start, end) ==>
      Covered(store, s.id, p.date)
  }

  /** The per-source loop of `generateUpcomingPaymentRecords`; `created`
      goes up once per source handled, whatever it created. */
  function GenerateAll(sources: seq<Source>, user: Option<nat>, start: Instant, end: Instant,
                       store: seq<IncomeRecord>, amountText: real -> string): (r: Run)
    ensures r.created == |Seqs.Filter(sources, SelectedBy(user))|
    ensures |r.store| >= |store| && r.store[..|store|] == store
    ensures forall i :: |store| <= i < |r.store| ==> FromSelected(r.store[i], sources, user, start, end)
    ensures SelectedCovered(r.store, sources, user, start, end)
  {
    if |sources| == 0 then Run(0, store)
    else
      var src := sources[0];
      var store1 := StoreAfter(src, user, start, end, store, amountText);
      var rest := GenerateAll(sources[1..], user, start, end, store1, amountText);
      RunStep(sources, user, store, store1, rest);
      RunProvenance(sources, user, start, end, store, store1, rest.store);
      RunCoverage(sources, user, start, end, store1, rest.store);
      Run(rest.created + (if Selected(user, src) then 1 else 0), rest.store)
  }

  /** One source of the loop: the count grows by one exactly for a selected
      source, and the store only grows at its end. */
  lemma RunStep(sources: seq<Source>, user: Option<nat>, store: seq<IncomeRecord>,
                store1: seq<IncomeRecord>, rest: Run)
    requires |sources| > 0
    requires |store1| >= |store| && store1[..|store|] == store
    requires rest.created == |Seqs.Filter(sources[1..], SelectedBy(user))|
    requires |rest.store| >= |store1| && rest.store[..|store1|] == store1
    ensures rest.created + (if Selected(user, sources[0]) then 1 else 0) == |Seqs.Filter(sources, SelectedBy(user))|
    ensures |rest.store| >= |store| && rest.store[..|store|] == store
  {
    assert rest.store[..|store|] == store1[..|store|];
    Seqs.FilterLength(sources, SelectedBy(user));
    assert SelectedBy(user)(sources[0]) == Selected(user, sources[0]);
  }

  /** One source of the loop: the records it appended and those the rest
      appended all stem from selected sources of the whole list. */
  lemma RunProvenance(sources: seq<Source>, user: Option<nat>, start: Instant, end: Instant,
                      store: seq<IncomeRecord>, store1: seq<IncomeRecord>, last: seq<IncomeRecord>)
    requires |sources| > 0
    requires |store1| >= |store|
    requires forall i :: |store| <= i < |store1| ==>
      Selected(user, sources[0]) && CreatedFrom(store1[i], sources[0].id, SourcePayments(sources[0], start, end))
    requires |last| >= |store1| && last[..|store1|] == store1
    requires forall i :: |store1| <= i < |last| ==> FromSelected(last[i], sources[1..], user, start, end)
    ensures forall i :: |store| <= i < |last| ==> FromSelected(last[i], sources, user, start, end)
  {
    forall i | |store| <= i < |last|
      ensures FromSelected(last[i], sources, user, start, end)
    {
      if i < |store1| {
        assert last[i] == store1[i];
        assert sources[0] in sources;
      } else {
        var s :| s in sources[1..] && Selected(user, s) && CreatedFrom(last[i], s.id, SourcePayments(s, start, end));
        assert s in sources;
      }
    }
  }

  /** One source of the loop: the first source's payments, covered once it
      is handled, stay covered, and the rest covers the others. */
  lemma RunCoverage(sources: seq<Source>, user: Option<nat>, start: Instant, end: Instant,
                    store1: seq<IncomeRecord>, last: seq<IncomeRecord>)
    requires |sources| > 0
    requires Selected(user, sources[0]) ==> forall p :: p in SourcePayments(sources[0], start, end) ==>
      Covered(store1, sources[0].id, p.date)
    requires |last| >= |store1| && last[..|store1|] == store1
    requires SelectedCovered(last, sources[1..], user, start, end)
    ensures SelectedCovered(last, sources, user, start, end)
  {
    forall s, p | s in sources && Selected(user, s) && p in SourcePayments(s, start, end)
      ensures Covered(last, s.id, p.date)
    {
      if s == sources[0] {
        CoveredGrows(store1, last, s.id, p.date);
      } else {
        assert s in sources[1..];
      }
    }
  }

  /** The store after one iteration of the per-source loop: a selected
      source's records, from its payments, covering them all. */
  function StoreAfter(src: Source, user: Option<nat>, start: Instant, end: Instant,
                      store: seq<IncomeRecord>, amountText: real -> string): (s: seq<IncomeRecord>)
    ensures |s| >= |store| && s[..|store|] == store
    ensures !Selected(user, src) ==> s == store
    ensures forall i :: |store| <= i < |s| ==>
      Selected(user, src) && CreatedFrom(s[i], src.id, SourcePayments(src, start, end))
    ensures Selected(user, src) ==> forall p :: p in SourcePayments(src, start, end) ==>
      Covered(s, src.id, p.date)
  {
    if Selected(user, src) then
      GenerateCoversAll(src, start, end, store, amountText);
      GenerateForSource(src, start, end, store, amountText).store
    else store
  }

  /** `generateUpcomingPaymentRecords`: the invalid clean-up first, then
      every selected source from now over `daysAhead` days. */
  function GenerateUpcoming(sources: seq<Source>, user: Option<nat>, now: Instant, daysAhead: int,
                            store: seq<IncomeRecord>, amountText: real -> string): (r: Run)
    ensures r.created == |Seqs.Filter(sources, SelectedBy(user))|
    ensures var cleaned := CleanupInvalid(store).store;
      |r.store| >= |cleaned| && r.store[..|cleaned|] == cleaned
    ensures forall i :: |CleanupInvalid(store).store| <= i < |r.store| ==>
      FromSelected(r.store[i], sources, user, now, Instant(now.day + daysAhead, now.minute))
    ensures SelectedCovered(r.store, sources, user, now, Instant(now.day + daysAhead, now.minute))
    ensures forall x :: x in store && GeneratedNote(x.notes) ==> x in r.store
  {
    var cleaned := CleanupInvalid(store).store;
    var r := GenerateAll(sources, user, now, Instant(now.day + daysAhead, now.minute), cleaned, amountText);
    forall x | x in store && GeneratedNote(x.notes)
      ensures x in r.store
    {
      GeneratedIsNotCleanupNote(x.notes);
      var i :| 0 <= i < |cleaned| && cleaned[i] == x;
      assert r.store[i] == cleaned[i];
    }
    r
  }

  /** The default run (`daysAhead = 90`) asks the calculator for 90 days. */
  lemma DefaultHorizon(now: Instant)
    ensures Horizon(now, Instant(now.day + DefaultDaysAhead, now.minute)) == DefaultDaysAhead
  {
    HorizonOfWholeDays(now, DefaultDaysAhead);
  }

  /** The default clean-up (`daysPastDue = 30`) keeps every record expected
      less than 30 days before today. */
  lemma DefaultCutoffKeepsRecent(store: seq<IncomeRecord>, now: Instant, r: IncomeRecord)
    requires r in store && r.expectedDate.day > now.day - DefaultDaysPastDue
    ensures r in CleanupOverdue(store, now, DefaultDaysPastDue).store
  {
    StampOrder(r.expectedDate, Cutoff(now, DefaultDaysPastDue));
  }

  // ---------------------------------------------------------------------------
  // Next payment dates

  datatype Update = Update(updated: nat, sources: seq<Source>)

  /** The new next payment date of a source, if the update writes one. */
  function NextDateOf(src: Source, now: Instant): (r: Option<Instant>)
    ensures r.Some? ==> Scheduled(src) && now.day < r.value.day
  {
    if Scheduled(src) then NextPaymentDate(CalculatorConfig(src), now) else None
  }

  function HasNextDate(now: Instant): Source -> bool {
    (src: Source) => NextDateOf(src, now).Some?
  }

  /** `updateNextPaymentDates`: each active, non-one-time source whose next
      payment date the calculator finds gets it written; every other source
      is left as it was. */
  function UpdateNextDates(sources: seq<Source>, now: Instant): (u: Update)
    ensures |u.sources| == |sources|
    ensures forall i :: 0 <= i < |sources| ==>
      if NextDateOf(sources[i], now).Some?
      then u.sources[i] == sources[i].(nextPaymentDate := NextDateOf(sources[i], now))
           && now.day < u.sources[i].nextPaymentDate.value.day
      else u.sources[i] == sources[i]
    ensures u.updated == Seqs.Count(sources, HasNextDate(now))
  {
    if |sources| == 0 then Update(0, [])
    else
      var src := sources[0];
      var next := NextDateOf(src, now);
      var rest := UpdateNextDates(sources[1..], now);
      var head := if next.Some? then src.(nextPaymentDate := next) else src;
      var r := Update(rest.updated + (if next.Some? then 1 else 0), [head] + rest.sources);
      UpdateStep(sources, now, rest, r);
      r
  }

  /** One source of the update loop, in front of the update of the rest. */
  lemma UpdateStep(sources: seq<Source>, now: Instant, rest: Update, r: Update)
    requires |sources| > 0
    requires |rest.sources| == |sources| - 1
    requires forall i :: 0 <= i < |sources| - 1 ==>
      if NextDateOf(sources[1..][i], now).Some?
      then rest.sources[i] == sources[1..][i].(nextPaymentDate := NextDateOf(sources[1..][i], now))
           && now.day < rest.sources[i].nextPaymentDate.value.day
      else rest.sources[i] == sources[1..][i]
    requires rest.updated == Seqs.Count(sources[1..], HasNextDate(now))
    requires var next := NextDateOf(sources[0], now);
      r == Update(rest.updated + (if next.Some? then 1 else 0),
                  [if next.Some? then sources[0].(nextPaymentDate := next) else sources[0]] + rest.sources)
    ensures |r.sources| == |sources|
    ensures forall i :: 0 <= i < |sources| ==>
      if NextDateOf(sources[i], now).Some?
      then r.sources[i] == sources[i].(nextPaymentDate := NextDateOf(sources[i], now))
           && now.day < r.sources[i].nextPaymentDate.value.day
      else r.sources[i] == sources[i]
    ensures r.updated == Seqs.Count(sources, HasNextDate(now))
  {
    assert forall i :: 1 <= i < |sources| ==> r.sources[i] == rest.sources[i - 1] && sources[i] == sources[1..][i - 1];
    Seqs.CountFirst(sources, HasNextDate(now));
  }

  /** Writing a next payment date changes nothing the calculator reads. */
  lemma NextDateIgnoredByCalculator(src: Source, d: Option<Instant>)
    ensures CalculatorConfig(src.(nextPaymentDate := d)) == CalculatorConfig(src)
    ensures NextDateOf(src.(nextPaymentDate := d), Instant(0, 0)) == NextDateOf(src, Instant(0, 0))
  {
  }

  /** Updating twice at the same instant gives what updating once gives. */
  lemma UpdateIdempotent(sources: seq<Source>, now: Instant)
    ensures UpdateNextDates(UpdateNextDates(sources, now).sources, now).sources == UpdateNextDates(sources, now).sources
  {
    var once := UpdateNextDates(sources, now).sources;
    var twice := UpdateNextDates(once, now).sources;
    forall i | 0 <= i < |sources|
      ensures twice[i] == once[i]
    {
      assert NextDateOf(once[i], now) == NextDateOf(sources[i], now);
    }
  }
}

=== FILE: recordTable.dfy ===
/** What the income-record table (src/components/income/IncomeRecordTable.tsx)
    shows for one record: the status derived from its date, whether it can
    be marked received, and how far its actual amount is from the expected
    one. */
module RecordTable {
  import opened Wrappers
  import opened Calendar
  import opened Income
  import Calculations

  /** `getStatusFromDate`: a received record stays received; any other is
      overdue when its expected calendar day is before today and pending
      otherwise, whatever its stored status. Both dates are cut to midnight,
      so only the days are compared. */
  function DisplayStatus(r: IncomeRecord, today: Instant): (s: RecordStatus)
    ensures s == Received <==> r.status == Received
    ensures s == Overdue <==> r.status != Received && r.expectedDate.day < today.day
    ensures s == Pending <==> r.status != Received && today.day <= r.expectedDate.day
  {
    if r.status == Received then Received
    else if r.expectedDate.day < today.day then Overdue
    else Pending
  }

  /** The "Mark Received" button is offered when the shown status is not
      RECEIVED. */
  predicate OffersMarkReceived(r: IncomeRecord, today: Instant) {
    DisplayStatus(r, today) != Received
  }

  /** The button is offered exactly for the records not stored as received,
      whatever the day. */
  lemma MarkReceivedIffNotReceived(r: IncomeRecord, today: Instant)
    ensures OffersMarkReceived(r, today) <==> r.status != Received
  {
  }

  /** A record stored as overdue but dated today or later is shown as
      pending. */
  lemma StoredOverdueShownPending(r: IncomeRecord, today: Instant)
    requires r.status == Overdue && today.day <= r.expectedDate.day
    ensures DisplayStatus(r, today) == Pending
  {
  }

  /** A pending record shown as overdue is one the calculations route counts
      as overdue; the converse fails within the day itself, where the route
      compares times and the table compares days. */
  lemma ShownOverdueIsLate(r: IncomeRecord, today: Instant)
    requires r.status == Pending
    ensures DisplayStatus(r, today) == Overdue ==> Calculations.IsLate(today, r)
    ensures Calculations.IsLate(today, r) && r.expectedDate.day == today.day ==> DisplayStatus(r, today) == Pending
  {
  }

  /** The expected amount, `record.incomeSource.amount || 0`. */
  function ExpectedAmount(sourceAmount: Option<real>): (e: real)
    ensures sourceAmount.Some? ==> e == sourceAmount.value
    ensures sourceAmount.None? ==> e == 0.0
  {
    sourceAmount.GetOr(0.0)
  }

  /** The variance line: its sign and its magnitude. */
  datatype Variance = Variance(above: bool, magnitude: real)

  /** Shown when the record has a (truthy) actual amount and the expected
      amount is positive; "+" when the actual amount reaches the expected
      one. */
  function VarianceOf(actual: Option<real>, expected: real): (v: Option<Variance>)
    ensures v.Some? <==> actual.Some? && actual.value != 0.0 && expected > 0.0
    ensures v.Some? ==> (v.value.above <==> actual.value >= expected)
    ensures v.Some? ==> v.value.magnitude >= 0.0
    ensures v.Some? ==> (if v.value.above then v.value.magnitude else -v.value.magnitude) == actual.value - expected
  {
    if actual.Some? && actual.value != 0.0 && expected > 0.0 then
      if actual.value >= expected then Some(Variance(true, actual.value - expected))
      else Some(Variance(false, expected - actual.value))
    else None
  }

  /** The magnitude is the distance between the two amounts, and an exact
      match shows "+0". */
  lemma VarianceIsDistance(actual: real, expected: real)
    requires actual != 0.0 && expected > 0.0
    ensures var v := VarianceOf(Some(actual), expected).value;
      v.magnitude == (if actual >= expected then actual - expected else expected - actual)
      && (actual == expected ==> v.above && v.magnitude == 0.0)
  {
  }
}

=== FILE: recordsRoute.dfy ===
/** The income-record route (src/app/api/income/records/route.ts): the
    paged, filtered listing of a user's records, and the creation of one
    record. */
module RecordsRoute {
  import opened Wrappers
  import opened Calendar
  import opened Income
  import Seqs
  import Calculations
  import SourcesRoute

  /** Why a request is turned away before its parameters are read. */
  datatype Denial = Unauthorized | UserNotFound

  /** The user a session belongs to: 401 without a signed-in e-mail, 404
      when no user has it. */
  function Authenticate(email: Option<string>, users: map<string, nat>): (r: Result<nat, Denial>)
    ensures r == Failure(Unauthorized) <==> !SourcesRoute.SignedIn(email)
    ensures r == Failure(UserNotFound) <==> SourcesRoute.SignedIn(email) && email.value !in users
    ensures r.Success? ==> SourcesRoute.SignedIn(email) && email.value in users && r.value == users[email.value]
  {
    if !SourcesRoute.SignedIn(email) then Failure(Unauthorized)
    else if email.value !in users then Failure(UserNotFound)
    else Success(users[email.value])
  }

  // ---------------------------------------------------------------------------
  // Listing: the filter

  /** The query string. A parameter that is missing or empty is `None`;
      `page` and `limit` are the integers `parseInt` reads, and the dates are
      the instants `new Date` parses. */
  datatype Query = Query(
    sourceId: Option<nat>,
    status: Option<RecordStatus>,
    startDate: Option<Instant>,
    endDate: Option<Instant>,
    page: Option<int>,
    limit: Option<int>)

  datatype DateRange = DateRange(gte: Option<Instant>, lte: Option<Instant>)

  /** The Prisma `where` object: the owner of the record's source, and the
      optional constraints the handler adds. */
  datatype Where = Where(userId: nat, sourceId: Option<nat>, status: Option<RecordStatus>, expectedDate: Option<DateRange>)

  /** The constraints the handler puts in `where`: each only when its
      parameter is given, and a date range only when one of its ends is. */
  function BuildWhere(userId: nat, q: Query): (w: Where)
    ensures w.userId == userId && w.sourceId == q.sourceId && w.status == q.status
    ensures w.expectedDate.None? <==> q.startDate.None? && q.endDate.None?
    ensures w.expectedDate.Some? ==> w.expectedDate.value == DateRange(q.startDate, q.endDate)
  {
    Where(userId, q.sourceId, q.status,
      if q.startDate.Some? || q.endDate.Some? then Some(DateRange(q.startDate, q.endDate)) else None)
  }

  predicate InRange(range: DateRange, t: Instant) {
    (range.gte.Some? ==> Stamp(range.gte.value) <= Stamp(t))
    && (range.lte.Some? ==> Stamp(t) <= Stamp(range.lte.value))
  }

  /** The rows a `where` object lets through; `owner` maps source ids to the
      ids of their users. */
  predicate Admits(w: Where, owner: map<nat, nat>, r: IncomeRecord) {
    r.sourceId in owner && owner[r.sourceId] == w.userId
    && (w.sourceId.Some? ==> r.sourceId == w.sourceId.value)
    && (w.status.Some? ==> r.status == w.status.value)
    && (w.expectedDate.Some? ==> InRange(w.expectedDate.value, r.expectedDate))
  }

  function AdmittedBy(w: Where, owner: map<nat, nat>): IncomeRecord -> bool {
    (r: IncomeRecord) => Admits(w, owner, r)
  }

  /** The records a query asks for, read off the query directly: the user's
      own, and within every constraint given. */
  predicate Wanted(q: Query, userId: nat, owner: map<nat, nat>, r: IncomeRecord) {
    r.sourceId in owner && owner[r.sourceId] == userId
    && (q.sourceId.Some? ==> r.sourceId == q.sourceId.value)
    && (q.status.Some? ==> r.status == q.status.value)
    && (q.startDate.Some? ==> Stamp(q.startDate.value) <= Stamp(r.expectedDate))
    && (q.endDate.Some? ==> Stamp(r.expectedDate) <= Stamp(q.endDate.value))
  }

  /** The built filter admits exactly the records the query asks for. */
  lemma WhereMeansWanted(q: Query, userId: nat, owner: map<nat, nat>, r: IncomeRecord)
    ensures Admits(BuildWhere(userId, q), owner, r) <==> Wanted(q, userId, owner, r)
  {
  }

  // ---------------------------------------------------------------------------
  // Listing: the page

  /** `parseInt(x || '1')` and `parseInt(x || '10')`. */
  function PageNumber(q: Query): (p: int)
    ensures q.page.None? ==> p == 1
    ensures q.page.Some? ==> p == q.page.value
  {
    q.page.GetOr(1)
  }

  function PageSize(q: Query): (n: int)
    ensures q.limit.None? ==> n == 10
    ensures q.limit.Some? ==> n == q.limit.value
  {
    q.limit.GetOr(10)
  }

  /** `(page - 1) * limit`: the rows before the page. */
  function Offset(page: int, limit: int): int {
    (page - 1) * limit
  }

  /** `Math.ceil(total / limit)`; a zero limit divides by zero, and the
      Infinity or NaN that gives is sent as `null`, here `None`. */
  function PageCount(total: nat, limit: int): (r: Option<int>)
    ensures r.None? <==> limit == 0
    ensures limit > 0 ==> limit * (r.value - 1) < total <= limit * r.value
    ensures limit < 0 ==> limit * r.value <= total < limit * (r.value - 1)
  {
    if limit == 0 then None
    else if limit > 0 then Some(-((-(total as int)) / limit))
    else Some(-(total / (-limit)))
  }

  /** `skip` then `take` over the ordered rows. A negative skip makes the
      query fail. A negative take pages backwards: the window is the
      `-take` rows that end `skip` rows before the last one, still in the
      given order. */
  function Window<T>(rows: seq<T>, skip: int, take: int): (r: Option<seq<T>>)
    ensures r.None? <==> skip < 0
    ensures r.Some? && take >= 0 ==>
      |r.value| == (if skip + take <= |rows| then take else if skip <= |rows| then |rows| - skip else 0)
      && forall i :: 0 <= i < |r.value| ==> r.value[i] == rows[skip + i]
    ensures r.Some? && take < 0 ==>
      var end := if skip <= |rows| then |rows| - skip else 0;
      |r.value| == (if -take <= end then -take else end)
      && forall i :: 0 <= i < |r.value| ==> r.value[i] == rows[end - |r.value| + i]
  {
    if skip < 0 then None
    else if take >= 0 then
      if skip >= |rows| then Some([])
      else if skip + take <= |rows| then Some(rows[skip..skip + take])
      else Some(rows[skip..])
    else
      var end := if skip <= |rows| then |rows| - skip else 0;
      var n := if -take <= end then -take else end;
      Some(rows[end - n..end])
  }

  /** The rows in the opposite order. */
  function Reversed<T>(s: seq<T>): (r: seq<T>)
    ensures |r| == |s| && forall i :: 0 <= i < |s| ==> r[i] == s[|s| - 1 - i]
  {
    seq(|s|, i requires 0 <= i < |s| => s[|s| - 1 - i])
  }

  /** A negative take is the forward window of the reversed rows, turned
      back: reverse the order, skip, take `-take`, reverse the result. */
  lemma NegativeTakeReversed<T>(rows: seq<T>, skip: int, take: int)
    requires skip >= 0 && take < 0
    ensures Window(rows, skip, take) == Some(Reversed(Window(Reversed(rows), skip, -take).value))
  {
    var w := Window(rows, skip, take).value;
    var f := Window(Reversed(rows), skip, -take).value;
    assert |w| == |f|;
    forall i | 0 <= i < |w|
      ensures w[i] == Reversed(f)[i]
    {
      assert Reversed(f)[i] == f[|f| - 1 - i] == Reversed(rows)[skip + |f| - 1 - i];
    }
    assert w == Reversed(f);
  }

  /** With a positive limit the pages 1..totalPages split the rows: row i is
      inside page p's window exactly when p is i / limit + 1, and that page
      is one of the counted ones. */
  lemma PagesPartition<T>(rows: seq<T>, limit: int, i: int, p: int)
    requires limit > 0 && 0 <= i < |rows| && p >= 1
    ensures var w := Window(rows, Offset(p, limit), limit).value;
      (Offset(p, limit) <= i < Offset(p, limit) + |w|) <==> p == i / limit + 1
    ensures 1 <= i / limit + 1 <= PageCount(|rows|, limit).value
    ensures var o := Offset(i / limit + 1, limit); var w := Window(rows, o, limit).value;
      0 <= i - o < |w| && w[i - o] == rows[i]
  {
    RowInWindow(rows, limit, i, p);
    RowOnItsPage(rows, limit, i);
  }

  lemma RowInWindow<T>(rows: seq<T>, limit: int, i: int, p: int)
    requires limit > 0 && 0 <= i < |rows| && p >= 1
    ensures var w := Window(rows, Offset(p, limit), limit).value;
      (Offset(p, limit) <= i < Offset(p, limit) + |w|) <==> p == i / limit + 1
  {
    var o := Offset(p, limit);
    NonNegativeProduct(p - 1, limit);
    var w := Window(rows, o, limit).value;
    assert (o <= i < o + |w|) <==> (o <= i < o + limit);
    InBlock(i, limit, p - 1);
  }

  lemma RowOnItsPage<T>(rows: seq<T>, limit: int, i: int)
    requires limit > 0 && 0 <= i < |rows|
    ensures 1 <= i / limit + 1 <= PageCount(|rows|, limit).value
    ensures var o := Offset(i / limit + 1, limit); var w := Window(rows, o, limit).value;
      0 <= i - o < |w| && w[i - o] == rows[i]
  {
    var k := i / limit;
    var o := Offset(k + 1, limit);
    assert o == k * limit;
    InBlock(i, limit, k);
    var n := PageCount(|rows|, limit).value;
    LastBlock(i, limit, n);
  }

  lemma NonNegativeProduct(a: int, b: int)
    requires a >= 0 && b >= 0
    ensures a * b >= 0
  {
  }

  /** Block m of size limit holds i exactly when m is i / limit. */
  lemma InBlock(i: int, limit: int, m: int)
    requires limit > 0 && i >= 0
    ensures (m * limit <= i < m * limit + limit) <==> m == i / limit
  {
    var k := i / limit;
    assert k * limit <= i < k * limit + limit;
    if m < k {
      MultiplyMonotone(m + 1, k, limit);
    } else if m > k {
      MultiplyMonotone(k + 1, m, limit);
    }
  }

  /** Every index below the total falls in a counted page. */
  lemma LastBlock(i: int, limit: int, n: int)
    requires limit > 0 && 0 <= i && i < limit * n
    ensures i / limit + 1 <= n
  {
    var k := i / limit;
    assert k * limit <= i;
    if k + 1 > n {
      MultiplyMonotone(n, k, limit);
    }
  }

  lemma MultiplyMonotone(a: int, b: int, c: int)
    requires a <= b && c > 0
    ensures a * c <= b * c
  {
    assert b * c - a * c == (b - a) * c;
    NonNegativeProduct(b - a, c);
  }

  /** Newest first: `orderBy: { expectedDate: 'desc' }`. */
  function NewestKey(r: IncomeRecord): int {
    -Stamp(r.expectedDate)
  }

  datatype ListResponse =
    | ListDenied(why: Denial)
    | QueryFailed
    | Listing(records: seq<IncomeRecord>, page: int, limit: int, total: nat, totalPages: Option<int>)

  /** GET: the user's records the query admits, newest first, the page's
      window of them, and the counts. `db` is the record table. */
  function List(email: Option<string>, users: map<string, nat>, owner: map<nat, nat>,
                db: seq<IncomeRecord>, q: Query): (r: ListResponse)
    ensures r.ListDenied? <==> Authenticate(email, users).Failure?
    ensures r.ListDenied? ==> Authenticate(email, users) == Failure(r.why)
    ensures r.QueryFailed? <==>
      Authenticate(email, users).Success? && Offset(PageNumber(q), PageSize(q)) < 0
    ensures r.Listing? ==>
      var user := Authenticate(email, users).value;
      var wanted := Seqs.Filter(db, AdmittedBy(BuildWhere(user, q), owner));
      r.page == PageNumber(q) && r.limit == PageSize(q)
      && r.total == |wanted| && r.totalPages == PageCount(r.total, r.limit)
      && |r.records| <= (if r.limit >= 0 then r.limit else -r.limit)
      && Seqs.SortedBy(r.records, NewestKey)
      && (forall x :: x in r.records ==> x in db && Wanted(q, user, owner, x))
      // The page is the window of the admitted records in newest-first order.
      && r.records == Window(Seqs.SortBy(wanted, NewestKey), Offset(r.page, r.limit), r.limit).value
  {
    match Authenticate(email, users)
    case Failure(why) => ListDenied(why)
    case Success(user) =>
      var page := PageNumber(q);
      var limit := PageSize(q);
      var wanted := Seqs.Filter(db, AdmittedBy(BuildWhere(user, q), owner));
      var sorted := Seqs.SortBy(wanted, NewestKey);
      match Window(sorted, Offset(page, limit), limit)
      case None => QueryFailed
      case Some(rows) =>
        WindowFacts(sorted, Offset(page, limit), limit, NewestKey);
        forall x | x in rows
          ensures x in db && Wanted(q, user, owner, x)
        {
          assert x in multiset(sorted);
          WhereMeansWanted(q, user, owner, x);
        }
        Listing(rows, page, limit, |wanted|, PageCount(|wanted|, limit))
  }

  /** A window of a sorted sequence is sorted and holds only its elements. */
  lemma WindowFacts<T>(rows: seq<T>, skip: int, take: int, key: T -> int)
    requires Window(rows, skip, take).Some?
    requires Seqs.SortedBy(rows, key)
    ensures Seqs.SortedBy(Window(rows, skip, take).value, key)
    ensures forall x :: x in Window(rows, skip, take).value ==> x in rows
  {
    var w := Window(rows, skip, take).value;
    var lo := WindowSlice(rows, skip, take);
    forall i, j | 0 <= i < j < |w|
      ensures key(w[i]) <= key(w[j])
    {
      assert w[i] == rows[lo + i] && w[j] == rows[lo + j];
    }
    forall x | x in w
      ensures x in rows
    {
      var i :| 0 <= i < |w| && w[i] == x;
      assert x == rows[lo + i];
    }
  }

  /** Every window is a contiguous run of the rows. */
  lemma WindowSlice<T>(rows: seq<T>, skip: int, take: int) returns (lo: int)
    requires Window(rows, skip, take).Some?
    ensures 0 <= lo && lo + |Window(rows, skip, take).value| <= |rows|
    ensures forall i :: 0 <= i < |Window(rows, skip, take).value| ==>
      Window(rows, skip, take).value[i] == rows[lo + i]
  {
    var w := Window(rows, skip, take).value;
    if take >= 0 {
      lo := if skip <= |rows| then skip else |rows|;
    } else {
      lo := (if skip <= |rows| then |rows| - skip else 0) - |w|;
    }
  }

  // ---------------------------------------------------------------------------
  // Creating a record

  /** The JSON body. A field that is absent, `null` or `""` is `None`;
      `actualAmount` is the number sent. */
  datatype RecordBody = RecordBody(
    sourceId: Option<nat>,
    expectedDate: Option<Instant>,
    actualAmount: Option<real>,
    actualDate: Option<Instant>,
    status: Option<RecordStatus>,
    notes: Option<string>)

  const FieldsRequired: string := "Income source ID and expected date are required"
  const AmountRequired: string := "Actual amount is required when status is RECEIVED"

  datatype CreateResponse =
    | CreateDenied(why: Denial)
    | BadRequest(error: string)
    | SourceNotFound
    | Created(record: IncomeRecord)

  /** `actualAmount` is truthy: sent and not 0. */
  predicate AmountGiven(a: Option<real>) {
    a.Some? && a.value != 0.0
  }

  /** The row `create` writes: a falsy amount or date is stored as null, a
      missing status as PENDING. */
  function NewRecord(b: RecordBody): (r: IncomeRecord)
    requires b.sourceId.Some? && b.expectedDate.Some?
    ensures r.sourceId == b.sourceId.value && r.expectedDate == b.expectedDate.value
    ensures b.status.None? ==> r.status == Pending
    ensures b.status.Some? ==> r.status == b.status.value
    ensures r.actualAmount.Some? <==> AmountGiven(b.actualAmount)
    ensures r.actualAmount.Some? ==> r.actualAmount == b.actualAmount
    ensures r.actualDate == b.actualDate && r.notes == b.notes
  {
    IncomeRecord(b.sourceId.value, b.expectedDate.value, b.status.GetOr(Pending),
      if AmountGiven(b.actualAmount) then b.actualAmount else None, b.actualDate, b.notes)
  }

  /** POST: 401/404 for the session, 400 without a source id or expected
      date, 404 when the source is not the user's, 400 for a RECEIVED record
      without an amount, otherwise 201 with the new row. */
  function Create(email: Option<string>, users: map<string, nat>, owner: map<nat, nat>, b: RecordBody): (r: CreateResponse)
    ensures r.CreateDenied? <==> Authenticate(email, users).Failure?
    ensures r.CreateDenied? ==> Authenticate(email, users) == Failure(r.why)
    ensures r == BadRequest(FieldsRequired) <==>
      Authenticate(email, users).Success? && (b.sourceId.None? || b.expectedDate.None?)
    ensures r.SourceNotFound? <==>
      Authenticate(email, users).Success? && b.sourceId.Some? && b.expectedDate.Some?
      && !(b.sourceId.value in owner && owner[b.sourceId.value] == Authenticate(email, users).value)
    ensures r == BadRequest(AmountRequired) <==>
      Authenticate(email, users).Success? && b.sourceId.Some? && b.expectedDate.Some?
      && b.sourceId.value in owner && owner[b.sourceId.value] == Authenticate(email, users).value
      && b.status == Some(Received) && !AmountGiven(b.actualAmount)
    ensures r.BadRequest? ==> r.error == FieldsRequired || r.error == AmountRequired
    ensures r.Created? ==>
      b.sourceId.Some? && b.expectedDate.Some? && r.record == NewRecord(b)
      && b.sourceId.value in owner && owner[b.sourceId.value] == Authenticate(email, users).value
  {
    match Authenticate(email, users)
    case Failure(why) => CreateDenied(why)
    case Success(user) =>
      if b.sourceId.None? || b.expectedDate.None? then BadRequest(FieldsRequired)
      else if !(b.sourceId.value in owner && owner[b.sourceId.value] == user) then SourceNotFound
      else if b.status == Some(Received) && !AmountGiven(b.actualAmount) then BadRequest(AmountRequired)
      else Created(NewRecord(b))
  }

  /** A RECEIVED record the route creates carries its amount, and the
      calculations route counts exactly that amount as received. */
  lemma CreatedReceivedIsCounted(email: Option<string>, users: map<string, nat>, owner: map<nat, nat>,
                                 b: RecordBody, sourceAmount: real, now: Instant)
    requires Create(email, users, owner, b).Created?
    requires Create(email, users, owner, b).record.status == Received
    ensures var rec := Create(email, users, owner, b).record;
      rec.actualAmount == b.actualAmount && b.actualAmount.value != 0.0
      && Calculations.RecordContribution(sourceAmount, now, rec).received == b.actualAmount.value
  {
  }

  /** An amount of 0 on a record that is not RECEIVED is dropped: the row is
      stored without one. */
  lemma ZeroAmountDropped(email: Option<string>, users: map<string, nat>, owner: map<nat, nat>, b: RecordBody)
    requires Create(email, users, owner, b).Created?
    requires b.actualAmount == Some(0.0)
    ensures Create(email, users, owner, b).record.actualAmount.None?
    ensures Create(email, users, owner, b).record.status != Received
  {
  }
}

=== FILE: seqs.dfy ===
/** Sequence helpers shared by the modules: the comparator sorts the source
    applies with `Array.prototype.sort`, `Math.min(...xs)`, and element removal
    with `Array.prototype.filter`. */
module Seqs {

  predicate SortedBy<T>(s: seq<T>, key: T -> int) {
    forall i, j :: 0 <= i < j < |s| ==> key(s[i]) <= key(s[j])
  }

  /** No two elements share a key. */
  predicate DistinctBy<T>(s: seq<T>, key: T -> int) {
    forall i, j :: 0 <= i < j < |s| ==> key(s[i]) != key(s[j])
  }

  /** Inserts x before the first element whose key is not smaller. */
  function InsertBy<T>(x: T, s: seq<T>, key: T -> int): (r: seq<T>)
    ensures multiset(r) == multiset(s) + multiset{x}
    ensures |r| == |s| + 1
  {
    if |s| == 0 then [x]
    else if key(x) <= key(s[0]) then [x] + s
    else
      assert s == [s[0]] + s[1..];
      [s[0]] + InsertBy(x, s[1..], key)
  }

  lemma {:induction false} InsertKeepsSorted<T>(x: T, s: seq<T>, key: T -> int)
    requires SortedBy(s, key)
    ensures SortedBy(InsertBy(x, s, key), key)
  {
    if |s| > 0 && key(x) > key(s[0]) {
      InsertKeepsSorted(x, s[1..], key);
      var rest := InsertBy(x, s[1..], key);
      forall k | 0 <= k < |rest|
        ensures key(s[0]) <= key(rest[k])
      {
        assert rest[k] in multiset(rest);
        if rest[k] != x {
          assert rest[k] in s[1..];
        }
      }
    }
  }

  /** Ascending sort by `key` (insertion sort): the comparator
      `(a, b) => key(a) - key(b)`. */
  function SortBy<T>(s: seq<T>, key: T -> int): (r: seq<T>)
    ensures SortedBy(r, key)
    ensures multiset(r) == multiset(s)
    ensures |r| == |s|
  {
    if |s| == 0 then []
    else
      assert s == [s[0]] + s[1..];
      var rest := SortBy(s[1..], key);
      InsertKeepsSorted(s[0], rest, key);
      InsertBy(s[0], rest, key)
  }

  /** A permutation of a sequence with distinct keys has distinct keys. */
  lemma PermutationKeepsDistinct<T>(a: seq<T>, b: seq<T>, key: T -> int)
    requires multiset(a) == multiset(b)
    requires DistinctBy(a, key)
    ensures DistinctBy(b, key)
  {
    forall i, j | 0 <= i < j < |b|
      ensures key(b[i]) != key(b[j])
    {
      assert b[i] in multiset(a) && b[j] in multiset(a);
      var p :| 0 <= p < |a| && a[p] == b[i];
      var q :| 0 <= q < |a| && a[q] == b[j];
      if p == q {
        CountedTwice(b, i, j);
        AtMostOnce(a, key, b[i]);
        assert false;
      }
    }
  }

  /** A value at two positions occurs at least twice. */
  lemma CountedTwice<T>(s: seq<T>, i: int, j: int)
    requires 0 <= i < j < |s| && s[i] == s[j]
    ensures multiset(s)[s[i]] >= 2
  {
    assert s == s[..j] + s[j..];
    assert s[i] in s[..j] && s[j] in s[j..];
  }

  /** In a sequence with distinct keys every value occurs at most once. */
  lemma {:induction false} AtMostOnce<T>(s: seq<T>, key: T -> int, v: T)
    requires DistinctBy(s, key)
    ensures multiset(s)[v] <= 1
  {
    if |s| > 0 {
      assert s == [s[0]] + s[1..];
      assert DistinctBy(s[1..], key);
      AtMostOnce(s[1..], key, v);
      if s[0] == v {
        assert v !in s[1..];
      }
    }
  }

  /** Ascending integers, the order `sort((a, b) => a - b)` produces. */
  predicate Ascending(s: seq<int>) {
    forall i, j :: 0 <= i < j < |s| ==> s[i] <= s[j]
  }

  /** Two ascending sequences of integers with the same elements are equal:
      sorting integers has exactly one outcome. */
  lemma {:induction false} SortedUnique(a: seq<int>, b: seq<int>)
    requires Ascending(a) && Ascending(b)
    requires multiset(a) == multiset(b)
    ensures a == b
    decreases |a|
  {
    SameLength(a, b);
    if |a| > 0 {
      SameHead(a, b);
      SameTail(a, b);
      SortedUnique(a[1..], b[1..]);
      assert a == [a[0]] + a[1..];
      assert b == [b[0]] + b[1..];
    }
  }

  lemma SameLength<T>(a: seq<T>, b: seq<T>)
    requires multiset(a) == multiset(b)
    ensures |a| == |b|
  {
    assert |a| == |multiset(a)|;
    assert |b| == |multiset(b)|;
  }

  lemma SameHead(a: seq<int>, b: seq<int>)
    requires |a| > 0 && |b| > 0 && Ascending(a) && Ascending(b)
    requires multiset(a) == multiset(b)
    ensures a[0] == b[0]
  {
    assert a[0] in multiset(b);
    assert b[0] in multiset(a);
    MinAtHead(a, b[0]);
    MinAtHead(b, a[0]);
  }

  /** Equal heads and equal multisets leave ascending tails with equal
      multisets. */
  lemma SameTail(a: seq<int>, b: seq<int>)
    requires |a| > 0 && |b| > 0 && a[0] == b[0] && Ascending(a) && Ascending(b)
    requires multiset(a) == multiset(b)
    ensures multiset(a[1..]) == multiset(b[1..])
    ensures Ascending(a[1..]) && Ascending(b[1..])
  {
    assert a == [a[0]] + a[1..];
    assert b == [b[0]] + b[1..];
    assert multiset(a) == multiset{a[0]} + multiset(a[1..]);
    assert multiset(b) == multiset{b[0]} + multiset(b[1..]);
    assert multiset(a[1..]) == multiset(a) - multiset{a[0]};
    assert multiset(b[1..]) == multiset(b) - multiset{b[0]};
  }

  lemma MinAtHead(s: seq<int>, x: int)
    requires |s| > 0 && Ascending(s) && x in multiset(s)
    ensures s[0] <= x
  {
    var k :| 0 <= k < |s| && s[k] == x;
  }

  /** `Math.min(...s)` for a non-empty array. */
  function Min(s: seq<int>): (r: int)
    requires |s| > 0
    ensures r in s
    ensures forall x :: x in s ==> r <= x
  {
    if |s| == 1 then s[0]
    else
      var m := Min(s[1..]);
      assert forall x :: x in s ==> x == s[0] || x in s[1..];
      if s[0] <= m then s[0] else m
  }

  /** `s.filter(d => d !== x)`: every occurrence of x goes, everything else
      keeps its multiplicity. */
  function Remove<T(==,!new)>(s: seq<T>, x: T): (r: seq<T>)
    ensures forall y :: multiset(r)[y] == if y == x then 0 else multiset(s)[y]
    ensures forall y :: y in r <==> y in s && y != x
  {
    if |s| == 0 then []
    else
      assert s == [s[0]] + s[1..];
      var rest := Remove(s[1..], x);
      if s[0] == x then rest else [s[0]] + rest
  }

  /** Filtering keeps the survivors in their original order. */
  lemma {:induction false} RemoveKeepsSorted<T(!new)>(s: seq<T>, x: T, key: T -> int)
    requires SortedBy(s, key)
    ensures SortedBy(Remove(s, x), key)
  {
    if |s| > 0 {
      RemoveKeepsSorted(s[1..], x, key);
      var rest := Remove(s[1..], x);
      forall k | 0 <= k < |rest|
        ensures key(s[0]) <= key(rest[k])
      {
        assert rest[k] in s[1..];
      }
    }
  }

  /** `s.filter(p)`: the elements satisfying p, in order. */
  function Filter<T(!new)>(s: seq<T>, p: T -> bool): (r: seq<T>)
    ensures |r| <= |s|
    ensures forall x :: x in r <==> x in s && p(x)
  {
    if |s| == 0 then []
    else
      var rest := Filter(s[1..], p);
      assert forall x :: x in s <==> x == s[0] || x in s[1..];
      if p(s[0]) then [s[0]] + rest else rest
  }

  /** Filtering a non-empty sequence keeps its first element or not, then
      filters the rest. */
  lemma FilterLength<T(!new)>(s: seq<T>, p: T -> bool)
    requires |s| > 0
    ensures |Filter(s, p)| == (if p(s[0]) then 1 else 0) + |Filter(s[1..], p)|
  {
  }

  /** `s.filter(p).length` is the number of elements satisfying p. */
  lemma {:induction false} FilterCount<T(!new)>(s: seq<T>, p: T -> bool)
    ensures |Filter(s, p)| == Count(s, p)
  {
    if |s| > 0 {
      FilterCount(s[1..], p);
      CountFirst(s, p);
    }
  }

  /** How many elements satisfy p (the length of `s.filter(p)`). */
  function Count<T>(s: seq<T>, p: T -> bool): (n: nat)
    ensures n <= |s|
  {
    if |s| == 0 then 0
    else Count(s[..|s| - 1], p) + (if p(s[|s| - 1]) then 1 else 0)
  }

  /** Filtering by a condition every element meets keeps everything. */
  lemma {:induction false} FilterAll<T(!new)>(s: seq<T>, p: T -> bool)
    requires forall i :: 0 <= i < |s| ==> p(s[i])
    ensures Filter(s, p) == s
  {
    if |s| > 0 {
      FilterAll(s[1..], p);
      assert s == [s[0]] + s[1..];
    }
  }

  /** Counting from the front: the first element, then the rest. */
  lemma {:induction false} CountFirst<T>(s: seq<T>, p: T -> bool)
    requires |s| > 0
    ensures Count(s, p) == (if p(s[0]) then 1 else 0) + Count(s[1..], p)
  {
    if |s| > 1 {
      var init := s[..|s| - 1];
      CountFirst(init, p);
      assert init[1..] == s[1..][..|s[1..]| - 1];
      assert s[1..][|s[1..]| - 1] == s[|s| - 1];
    }
  }

  /** An element either satisfies p or its complement q. */
  lemma {:induction false} CountComplement<T>(s: seq<T>, p: T -> bool, q: T -> bool)
    requires forall x :: q(x) == !p(x)
    ensures Count(s, p) + Count(s, q) == |s|
  {
    if |s| > 0 {
      CountComplement(s[..|s| - 1], p, q);
    }
  }

  /** Counting a weaker condition never gives fewer elements. */
  lemma {:induction false} CountWeaker<T>(s: seq<T>, p: T -> bool, q: T -> bool)
    requires forall x :: p(x) ==> q(x)
    ensures Count(s, p) <= Count(s, q)
  {
    if |s| > 0 {
      CountWeaker(s[..|s| - 1], p, q);
    }
  }

  /** `s.slice(0, n)`. */
  function Take<T>(s: seq<T>, n: nat): (r: seq<T>)
    ensures |r| == if |s| <= n then |s| else n
    ensures r == s[..|r|]
  {
    if |s| <= n then s else s[..n]
  }

  /** Cutting after a short head keeps the head and cuts the rest shorter. */
  lemma TakeAfter<T>(head: seq<T>, rest: seq<T>, n: nat)
    requires |head| <= n
    ensures Take(head + rest, n) == head + Take(rest, n - |head|)
  {
    if |head + rest| > n {
      assert (head + rest)[..n] == head + rest[..n - |head|];
    }
  }

  /** `s.sort(byKey).slice(0, n)`: the n elements with the smallest keys. */
  function Earliest<T>(s: seq<T>, key: T -> int, n: nat): (r: seq<T>)
    ensures SortedBy(r, key)
    ensures |r| == if |s| <= n then |s| else n
    ensures multiset(r) <= multiset(s)
  {
    var sorted := SortBy(s, key);
    var r := Take(sorted, n);
    assert sorted == r + sorted[|r|..];
    assert multiset(sorted) == multiset(r) + multiset(sorted[|r|..]);
    r
  }

  /** A cut that keeps fewer than n elements keeps all of them. */
  lemma EarliestKeepsAllWhenShort<T>(s: seq<T>, key: T -> int, n: nat)
    requires |Earliest(s, key, n)| < n
    ensures forall x :: x in s ==> x in Earliest(s, key, n)
  {
    var r := Earliest(s, key, n);
    var sorted := SortBy(s, key);
    assert r == Take(sorted, n) == sorted;
    forall x | x in s
      ensures x in r
    {
      assert x in multiset(s);
    }
  }

  /** Whatever the cut leaves out sorts no earlier than anything it keeps. */
  lemma EarliestFirst<T>(s: seq<T>, key: T -> int, n: nat, x: T)
    requires x in s && x !in Earliest(s, key, n)
    ensures forall e :: e in Earliest(s, key, n) ==> key(e) <= key(x)
  {
    var sorted := SortBy(s, key);
    var r := Earliest(s, key, n);
    assert r == Take(sorted, n);
    assert x in multiset(sorted);
    var j :| 0 <= j < |sorted| && sorted[j] == x;
    assert j >= |r|;
    forall e | e in r
      ensures key(e) <= key(x)
    {
      var i :| 0 <= i < |r| && r[i] == e;
      assert sorted[i] == e;
    }
  }
}

=== FILE: sourceCard.dfy ===
/** What the income-source card (src/components/income/IncomeSourceCard.tsx)
    shows about a source: its frequency label, the amount of one payment,
    and the line describing the monthly schedule. */
module SourceCard {
  import opened Wrappers
  import opened PaymentCalculator
  import opened Income
  import Seqs
  import SourceForm

  // ---------------------------------------------------------------------------
  // Frequency

  /** `formatFrequency`. */
  function FrequencyLabel(f: Frequency): string {
    match f
    case Weekly => "Weekly"
    case Biweekly => "Bi-weekly"
    case Monthly => "Monthly"
    case Quarterly => "Quarterly"
    case Yearly => "Yearly"
    case OneTime => "One Time"
  }

  /** No two frequencies share a label, so the label tells the frequency. */
  lemma LabelsDistinct(a: Frequency, b: Frequency)
    ensures FrequencyLabel(a) == FrequencyLabel(b) ==> a == b
  {
    if a != b {
      assert FrequencyLabel(a)[0] != FrequencyLabel(b)[0];
    }
  }

  // ---------------------------------------------------------------------------
  // Per-payment amount

  /** The card splits the total over the days: a monthly source with more
      than one day. */
  predicate Split(src: Source) {
    src.frequency == Monthly && |src.days| > 1
  }

  /** The card shows a manual day amount: a split source in manual mode with
      at least one stored day amount. */
  predicate ManualDisplay(src: Source) {
    Split(src) && src.useManualAmounts && src.dayAmounts.Some? && |src.dayAmounts.value| > 0
  }

  /** `getPerPaymentAmount`. */
  function PerPayment(src: Source): (r: real)
    ensures !Split(src) ==> r == src.amount
    ensures Split(src) && !ManualDisplay(src) ==> r * (|src.days| as real) == src.amount
    ensures ManualDisplay(src) ==>
      var first := Seqs.Min(src.days);
      (first in src.dayAmounts.value ==> r == src.dayAmounts.value[first])
      && (first !in src.dayAmounts.value ==> r == 0.0)
      && forall d :: d in src.days ==> first <= d
  {
    if Split(src) then
      if ManualDisplay(src) then ManualAmount(src.dayAmounts.value, Seqs.Min(src.days))
      else src.amount / (|src.days| as real)
    else src.amount
  }

  /** Outside the manual display the card shows what the calculator gives
      for a payment with no particular day. */
  lemma CardAgreesWithCalculator(src: Source)
    requires src.amount > 0.0 && !ManualDisplay(src)
    ensures PerPayment(src) == PerPaymentAmount(CalculatorConfig(src), None)
  {
  }

  /** In the manual display the card shows the calculator's amount for the
      earliest scheduled day. */
  lemma ManualCardShowsEarliestDay(src: Source)
    requires src.amount > 0.0 && ManualDisplay(src)
    ensures PerPayment(src) == PerPaymentAmount(CalculatorConfig(src), Some(Seqs.Min(src.days)))
  {
  }

  /** A split source in manual mode whose stored day-amount object is empty
      is shown as an even split, while the calculator gives every one of its
      payment days the amount 0. */
  lemma EmptyManualMapShownAsSplit(src: Source, d: int)
    requires Split(src) && src.useManualAmounts && src.dayAmounts == Some(map[])
    requires src.amount > 0.0 && d != 0
    ensures PerPayment(src) > 0.0
    ensures PerPaymentAmount(CalculatorConfig(src), Some(d)) == 0.0
  {
    assert PerPayment(src) * (|src.days| as real) == src.amount;
  }

  // ---------------------------------------------------------------------------
  // Schedule line

  predicate IsDigit(c: char) {
    '0' <= c <= '9'
  }

  function Digit(d: int): (c: char)
    requires 0 <= d < 10
    ensures IsDigit(c)
  {
    ('0' as int + d) as char
  }

  /** `String(n)` for a non-negative integer. */
  function Decimal(n: nat): (s: string)
    ensures |s| > 0 && IsDigit(s[|s| - 1])
    ensures forall i :: 0 <= i < |s| ==> IsDigit(s[i])
  {
    if n < 10 then [Digit(n)] else Decimal(n / 10) + [Digit(n % 10)]
  }

  /** The number a string of digits denotes. */
  function DigitsValue(s: string): nat
    requires forall i :: 0 <= i < |s| ==> IsDigit(s[i])
  {
    if |s| == 0 then 0
    else
      assert IsDigit(s[|s| - 1]);
      DigitsValue(s[..|s| - 1]) * 10 + (s[|s| - 1] as int - '0' as int)
  }

  /** Reading back the decimal digits gives the number. */
  lemma {:induction false} DecimalRoundTrip(n: nat)
    ensures DigitsValue(Decimal(n)) == n
  {
    if n >= 10 {
      DecimalRoundTrip(n / 10);
      var s := Decimal(n);
      assert s[..|s| - 1] == Decimal(n / 10);
    }
  }

  /** `days.join(', ')`. */
  function JoinDays(days: seq<DayOfMonth>): (s: string)
    ensures |days| > 0 ==> |s| > 0 && IsDigit(s[|s| - 1])
  {
    if |days| == 0 then []
    else if |days| == 1 then Decimal(days[0])
    else Decimal(days[0]) + ", " + JoinDays(days[1..])
  }

  const LastDayNote: string := " (last day)"

  function LastDaySuffix(days: seq<DayOfMonth>): string {
    if 31 in days then LastDayNote else []
  }

  /** The schedule days in the order the card lists them. */
  function ListedDays(days: seq<DayOfMonth>): (r: seq<DayOfMonth>)
    ensures Seqs.Ascending(r) && multiset(r) == multiset(days)
  {
    var r := Seqs.SortBy(days, DayKey);
    SourceForm.KeyOrder(r);
    r
  }

  /** `getScheduleInfo`: empty unless the source is monthly with a day;
      otherwise "N payments: d1, d2, …" for several days or "Day d" for one,
      with the days ascending, followed by " (last day)" when 31 is one of
      them. */
  function ScheduleInfo(src: Source): (r: string)
    ensures r == [] <==> !(src.frequency == Monthly && |src.days| > 0)
    ensures src.frequency == Monthly && |src.days| > 1 ==>
      r == Decimal(|src.days|) + " payments: " + JoinDays(ListedDays(src.days)) + LastDaySuffix(src.days)
    ensures src.frequency == Monthly && |src.days| == 1 ==>
      r == "Day " + Decimal(src.days[0]) + LastDaySuffix(src.days)
  {
    if src.frequency == Monthly && |src.days| > 0 then
      var days := ListedDays(src.days);
      assert forall d :: d in days <==> d in src.days by {
        assert forall d :: d in days <==> d in multiset(src.days);
      }
      if |days| > 1 then
        Decimal(|days|) + " payments: " + JoinDays(days) + LastDaySuffix(days)
      else
        assert |src.days| == 1 && days == [days[0]] && src.days == [src.days[0]];
        assert days[0] == src.days[0] by { assert days[0] in multiset(src.days); }
        "Day " + Decimal(days[0]) + (if days[0] == 31 then LastDayNote else [])
    else []
  }

  /** The line ends in " (last day)" exactly when 31 is a scheduled day of a
      monthly source: otherwise it ends in a digit or is empty. */
  lemma LastDayNoteIff(src: Source)
    ensures var r := ScheduleInfo(src);
      (|r| >= |LastDayNote| && r[|r| - |LastDayNote|..] == LastDayNote) <==>
      (src.frequency == Monthly && 31 in src.days)
  {
    var r := ScheduleInfo(src);
    if src.frequency == Monthly && |src.days| > 0 && 31 !in src.days {
      assert IsDigit(r[|r| - 1]);
      if |r| >= |LastDayNote| {
        assert r[|r| - |LastDayNote|..][|LastDayNote| - 1] == r[|r| - 1];
      }
    }
  }
}

=== FILE: sourceForm.dfy ===
/** The income-source form (src/components/income/IncomeSourceForm.tsx):
    its validation and the way its input handlers keep the per-day amounts
    of a monthly schedule in step with the total. */
module SourceForm {
  import opened Wrappers
  import opened Calendar
  import opened PaymentCalculator
  import Text
  import Seqs
  import opened Sums

  datatype Category = Salary | Freelance | Business | Investment | Rental | Pension | Benefits | Other

  /** The form's state. The category and frequency come from selects and
      always hold one of their options; the day buttons only offer 1..31. */
  datatype FormData = FormData(
    name: string,
    category: Category,
    description: string,
    frequency: Frequency,
    amount: real,
    isActive: bool,
    days: seq<DayOfMonth>,
    weekday: Option<Weekday>,
    week: Option<ScheduleWeek>,
    time: string,
    useManualAmounts: bool,
    dayAmounts: map<int, real>)

  // ---------------------------------------------------------------------------
  // Validation

  datatype Field = NameField | AmountField | DaysField | WeekdayField | WeekField

  const NameRequired: string := "Name is required"
  const AmountPositive: string := "Amount must be greater than 0"
  const DaysRequired: string := "Please select at least one payment day for monthly frequency"
  const WeekdayRequired: string := "Please select a day of the week"
  const WeekRequired: string := "Please select which week of the month for bi-weekly payments"

  /** The schedule fields a frequency needs. */
  predicate NeedsDays(f: Frequency) { f == Monthly }
  predicate NeedsWeekday(f: Frequency) { f == Weekly || f == Biweekly }
  predicate NeedsWeek(f: Frequency) { f == Biweekly }

  /** `!name.trim()`. */
  function NameMissing(name: string): (b: bool)
    ensures b <==> Text.Blank(name)
  {
    Text.Trim(name) == []
  }

  /** The name rule: the name must not trim to nothing. */
  function NameRule(f: FormData): (e: Option<string>)
    ensures e.Some? <==> Text.Blank(f.name)
    ensures e.Some? ==> e.value == NameRequired
  {
    if NameMissing(f.name) then Some(NameRequired) else None
  }

  function AmountRule(f: FormData): (e: Option<string>)
    ensures e.Some? <==> f.amount <= 0.0
    ensures e.Some? ==> e.value == AmountPositive
  {
    if f.amount <= 0.0 then Some(AmountPositive) else None
  }

  /** The schedule rules, checked only for recurring frequencies. */
  function DaysRule(f: FormData): (e: Option<string>)
    ensures e.Some? <==> NeedsDays(f.frequency) && |f.days| == 0
    ensures e.Some? ==> e.value == DaysRequired
  {
    if f.frequency != OneTime && f.frequency == Monthly && |f.days| == 0 then Some(DaysRequired) else None
  }

  function WeekdayRule(f: FormData): (e: Option<string>)
    ensures e.Some? <==> NeedsWeekday(f.frequency) && f.weekday.None?
    ensures e.Some? ==> e.value == WeekdayRequired
  {
    if f.frequency != OneTime && (f.frequency == Weekly || f.frequency == Biweekly) && f.weekday.None?
    then Some(WeekdayRequired) else None
  }

  function WeekRule(f: FormData): (e: Option<string>)
    ensures e.Some? <==> NeedsWeek(f.frequency) && f.week.None?
    ensures e.Some? ==> e.value == WeekRequired
  {
    if f.frequency != OneTime && f.frequency == Biweekly && f.week.None? then Some(WeekRequired) else None
  }

  /** The error map of the five rules: a field has an entry exactly when its
      rule reports an error, and the entry is that error. */
  function Collect(name: Option<string>, amount: Option<string>, days: Option<string>,
                   weekday: Option<string>, week: Option<string>): (e: map<Field, string>)
    ensures NameField in e <==> name.Some?
    ensures NameField in e ==> Some(e[NameField]) == name
    ensures AmountField in e <==> amount.Some?
    ensures AmountField in e ==> Some(e[AmountField]) == amount
    ensures DaysField in e <==> days.Some?
    ensures DaysField in e ==> Some(e[DaysField]) == days
    ensures WeekdayField in e <==> weekday.Some?
    ensures WeekdayField in e ==> Some(e[WeekdayField]) == weekday
    ensures WeekField in e <==> week.Some?
    ensures WeekField in e ==> Some(e[WeekField]) == week
  {
    var e0: map<Field, string> := if name.Some? then map[NameField := name.value] else map[];
    var e1 := if amount.Some? then e0[AmountField := amount.value] else e0;
    var e2 := if days.Some? then e1[DaysField := days.value] else e1;
    var e3 := if weekday.Some? then e2[WeekdayField := weekday.value] else e2;
    if week.Some? then e3[WeekField := week.value] else e3
  }

  /** The error map `validateForm` builds, one entry per failing rule; the
      schedule rules apply only to recurring frequencies. */
  function FormErrors(f: FormData): (e: map<Field, string>)
    ensures NameField in e <==> Text.Blank(f.name)
    ensures AmountField in e <==> f.amount <= 0.0
    ensures DaysField in e <==> NeedsDays(f.frequency) && |f.days| == 0
    ensures WeekdayField in e <==> NeedsWeekday(f.frequency) && f.weekday.None?
    ensures WeekField in e <==> NeedsWeek(f.frequency) && f.week.None?
    ensures NameField in e ==> e[NameField] == NameRequired
    ensures AmountField in e ==> e[AmountField] == AmountPositive
    ensures DaysField in e ==> e[DaysField] == DaysRequired
    ensures WeekdayField in e ==> e[WeekdayField] == WeekdayRequired
    ensures WeekField in e ==> e[WeekField] == WeekRequired
  {
    Collect(NameRule(f), AmountRule(f), DaysRule(f), WeekdayRule(f), WeekRule(f))
  }

  /** `validateForm`: true exactly when no rule fails, that is, when the
      name has a non-space character, the amount is positive and the
      frequency's schedule fields are set. */
  function ValidateForm(f: FormData): (ok: bool)
    ensures ok <==> FormErrors(f) == map[]
    ensures ok <==>
      !Text.Blank(f.name) && f.amount > 0.0
      && (NeedsDays(f.frequency) ==> |f.days| > 0)
      && (NeedsWeekday(f.frequency) ==> f.weekday.Some?)
      && (NeedsWeek(f.frequency) ==> f.week.Some?)
  {
    NoErrorsIff(f);
    |FormErrors(f).Keys| == 0
  }

  /** No rule fails exactly when every field meets its rule. */
  lemma NoErrorsIff(f: FormData)
    ensures FormErrors(f) == map[] <==>
      !Text.Blank(f.name) && f.amount > 0.0
      && (NeedsDays(f.frequency) ==> |f.days| > 0)
      && (NeedsWeekday(f.frequency) ==> f.weekday.Some?)
      && (NeedsWeek(f.frequency) ==> f.week.Some?)
  {
    var e := FormErrors(f);
    if e != map[] {
      var k :| k in e;
    }
  }

  /** One-time, quarterly and yearly forms are judged by name and amount
      alone: their schedule fields are never looked at. */
  lemma ScheduleFreeFrequencies(f: FormData, days: seq<DayOfMonth>, weekday: Option<Weekday>, week: Option<ScheduleWeek>)
    requires f.frequency == OneTime || f.frequency == Quarterly || f.frequency == Yearly
    ensures ValidateForm(f) == ValidateForm(f.(days := days, weekday := weekday, week := week))
  {
  }

  // ---------------------------------------------------------------------------
  // Rebalancing

  /** The selected days as keys of a day-amount map. */
  function DaySet(days: seq<DayOfMonth>): set<int> {
    set d | d in days
  }

  /** `days.forEach(day => { m[day] = valueOf(day) })` over a starting map. */
  function Assign(days: seq<DayOfMonth>, valueOf: int -> real, m: map<int, real>): (r: map<int, real>)
    ensures r.Keys == m.Keys + DaySet(days)
    ensures forall d :: d in days ==> r[d] == valueOf(d)
    ensures forall k :: k in m && k !in days ==> r[k] == m[k]
  {
    if |days| == 0 then m
    else
      var r := Assign(days[1..], valueOf, m[days[0] := valueOf(days[0])]);
      assert forall d :: d in days <==> d == days[0] || d in days[1..];
      r
  }

  /** Every day the same value. */
  function Even(days: seq<DayOfMonth>, v: real): (r: map<int, real>)
    ensures r.Keys == DaySet(days)
    ensures forall k :: k in r ==> r[k] == v
  {
    Assign(days, _ => v, map[])
  }

  /** `Math.max(n, 1)` as the divisor of an even split. */
  function Divisor(n: nat): (r: real)
    ensures r >= 1.0
  {
    if n > 1 then n as real else 1.0
  }

  /** The amount a day keeps when the days change: its prior value if it
      had a non-zero one, else 0 in manual mode and the even share in
      automatic mode. */
  function Kept(prior: map<int, real>, manual: bool, share: real): int -> real {
    d => if d in prior && prior[d] != 0.0 then prior[d] else if manual then 0.0 else share
  }

  /** The day-amount map after the days of a monthly form change. */
  function RebalancedDays(f: FormData, newDays: seq<DayOfMonth>): (m: map<int, real>)
    ensures m.Keys == DaySet(newDays)
    ensures !f.useManualAmounts ==> forall d :: d in newDays ==> m[d] == f.amount / |newDays| as real
    ensures f.useManualAmounts ==> forall d :: d in newDays ==>
      m[d] == if d in f.dayAmounts then f.dayAmounts[d] else 0.0
  {
    var first := Assign(newDays, Kept(f.dayAmounts, f.useManualAmounts, f.amount / Divisor(|newDays|)), map[]);
    if !f.useManualAmounts && |newDays| > 0 then
      map k | k in first :: f.amount / |newDays| as real
    else first
  }

  /** The form's edits (`handleInputChange(field, value)`). */
  datatype Edit =
    | SetName(name: string)
    | SetCategory(category: Category)
    | SetDescription(description: string)
    | SetFrequency(frequency: Frequency)
    | SetAmount(amount: real)
    | SetActive(isActive: bool)
    | SetDays(days: seq<DayOfMonth>)
    | SetWeekday(weekday: Option<Weekday>)
    | SetWeek(week: Option<ScheduleWeek>)
    | SetTime(time: string)
    | SetManual(useManualAmounts: bool)

  /** The field written, before any rebalancing. */
  function Apply(f: FormData, e: Edit): FormData {
    match e
    case SetName(v) => f.(name := v)
    case SetCategory(v) => f.(category := v)
    case SetDescription(v) => f.(description := v)
    case SetFrequency(v) => f.(frequency := v)
    case SetAmount(v) => f.(amount := v)
    case SetActive(v) => f.(isActive := v)
    case SetDays(v) => f.(days := v)
    case SetWeekday(v) => f.(weekday := v)
    case SetWeek(v) => f.(week := v)
    case SetTime(v) => f.(time := v)
    case SetManual(v) => f.(useManualAmounts := v)
  }

  /** `handleInputChange`: write the field, then recompute the day amounts
      when the days of a monthly form, the manual flag, or the amount of an
      automatic form with days change. */
  function HandleInputChange(f: FormData, e: Edit): (g: FormData)
    ensures g == Apply(f, e).(dayAmounts := g.dayAmounts)
    ensures e.SetDays? && f.frequency == Monthly ==> g.dayAmounts == RebalancedDays(f, e.days)
    ensures e.SetManual? ==>
      g.dayAmounts.Keys == DaySet(f.days)
      && forall d :: d in f.days ==> g.dayAmounts[d] == f.amount / Divisor(|f.days|)
    ensures e.SetAmount? && !f.useManualAmounts && |f.days| > 0 ==>
      g.dayAmounts.Keys == DaySet(f.days)
      && forall d :: d in f.days ==> g.dayAmounts[d] == e.amount / |f.days| as real
    ensures (!(e.SetDays? && f.frequency == Monthly) && !e.SetManual?
             && !(e.SetAmount? && !f.useManualAmounts && |f.days| > 0)) ==>
      g.dayAmounts == f.dayAmounts
  {
    var g := Apply(f, e);
    match e
    case SetDays(v) => if f.frequency == Monthly then g.(dayAmounts := RebalancedDays(f, v)) else g
    case SetManual(_) => g.(dayAmounts := Even(f.days, f.amount / Divisor(|f.days|)))
    case SetAmount(v) =>
      if !f.useManualAmounts && |f.days| > 0 then g.(dayAmounts := Even(f.days, v / |f.days| as real)) else g
    case _ => g
  }

  /** An even split over distinct days adds back up to the amount. */
  lemma EvenSplitSumsToAmount(days: seq<DayOfMonth>, amount: real)
    requires |days| > 0 && Seqs.DistinctBy(days, DayKey)
    ensures MapSum(Even(days, amount / |days| as real)) == amount
  {
    var m := Even(days, amount / |days| as real);
    MapSumConstant(m, amount / |days| as real);
    DistinctKeys(days);
    assert |m| == |days| by {
      assert |m| == |m.Keys|;
    }
    SharesAddUp(|days|, amount);
  }

  /** n shares of a / n make a. */
  lemma SharesAddUp(n: nat, a: real)
    requires n > 0
    ensures Times(n, a / n as real) == a
  {
    TimesIsProduct(n, a / n as real);
    SplitBack(n as real, a);
  }

  lemma SplitBack(n: real, a: real)
    requires n > 0.0
    ensures n * (a / n) == a
  {
  }

  /** Distinct days give as many keys as days. */
  lemma {:induction false} DistinctKeys(days: seq<DayOfMonth>)
    requires Seqs.DistinctBy(days, DayKey)
    ensures |DaySet(days)| == |days|
  {
    if |days| > 0 {
      var rest := days[1..];
      assert Seqs.DistinctBy(rest, DayKey);
      DistinctKeys(rest);
      assert DaySet(days) == DaySet(rest) + {days[0] as int} by {
        assert forall x :: x in days <==> x == days[0] || x in rest;
      }
      assert days[0] !in rest;
    }
  }

  /** `updateDayAmount`: write one day's amount; in manual mode the total
      becomes the sum of the day amounts. */
  function UpdateDayAmount(f: FormData, day: int, amount: real): (g: FormData)
    ensures g.dayAmounts == f.dayAmounts[day := amount]
    ensures g.useManualAmounts ==> g.amount == MapSum(g.dayAmounts)
    ensures !f.useManualAmounts ==> g == f.(dayAmounts := f.dayAmounts[day := amount])
  {
    var m := f.dayAmounts[day := amount];
    f.(dayAmounts := m, amount := if f.useManualAmounts then MapSum(m) else f.amount)
  }

  /** In manual mode the new total is the old sum shifted by the change of
      that one day. */
  lemma UpdateDayAmountShiftsTotal(f: FormData, day: int, amount: real)
    requires f.useManualAmounts
    ensures UpdateDayAmount(f, day, amount).amount
      == MapSum(f.dayAmounts) - (if day in f.dayAmounts then f.dayAmounts[day] else 0.0) + amount
  {
    MapSumUpdate(f.dayAmounts, day, amount);
  }

  // ---------------------------------------------------------------------------
  // Day toggles

  /** The handler of a day button: drop the day if selected, otherwise add
      it and sort ascending. */
  function ToggleDay(days: seq<DayOfMonth>, day: DayOfMonth): (r: seq<DayOfMonth>)
    ensures forall d :: d in r <==> (d in days) != (d == day)
    ensures day !in days ==> Seqs.Ascending(r)
  {
    if day in days then Seqs.Remove(days, day)
    else
      var s := Seqs.SortBy(days + [day], DayKey);
      assert forall d :: d in s <==> d in multiset(days + [day]);
      KeyOrder(s);
      s
  }

  /** The "Last Day of Month" button: toggle 31, then sort. */
  function ToggleLastDay(days: seq<DayOfMonth>): (r: seq<DayOfMonth>)
    ensures Seqs.Ascending(r)
    ensures forall d :: d in r <==> (d in days) != (d == 31)
  {
    var s := if 31 in days then Seqs.Remove(days, 31) else days + [31];
    var t := Seqs.SortBy(s, DayKey);
    assert forall d :: d in t <==> d in multiset(s);
    KeyOrder(t);
    t
  }

  /** Sorting by DayKey is sorting ascending. */
  lemma KeyOrder(s: seq<DayOfMonth>)
    ensures Seqs.SortedBy(s, DayKey) <==> Seqs.Ascending(s)
  {
    if Seqs.SortedBy(s, DayKey) {
      forall i, j | 0 <= i < j < |s|
        ensures s[i] <= s[j]
      {
        assert DayKey(s[i]) <= DayKey(s[j]);
      }
    }
  }

  /** On a sorted selection the last-day button is the day-31 button. */
  lemma LastDayIsDay31(days: seq<DayOfMonth>)
    requires Seqs.Ascending(days)
    ensures ToggleLastDay(days) == ToggleDay(days, 31)
  {
    if 31 in days {
      var s := Seqs.Remove(days, 31);
      KeyOrder(days);
      Seqs.RemoveKeepsSorted(days, 31, DayKey);
      KeyOrder(s);
      var t := Seqs.SortBy(s, DayKey);
      KeyOrder(t);
      Seqs.SortedUnique(t, s);
    }
  }

  /** Toggling a day twice gives back a sorted selection without repeats. */
  lemma ToggleTwice(days: seq<DayOfMonth>, day: DayOfMonth)
    requires Seqs.Ascending(days) && Seqs.DistinctBy(days, DayKey)
    ensures ToggleDay(ToggleDay(days, day), day) == days
  {
    KeyOrder(days);
    var once := ToggleDay(days, day);
    var twice := ToggleDay(once, day);
    if day in days {
      Seqs.RemoveKeepsSorted(days, day, DayKey);
      assert day !in once;
      RemoveThenInsert(days, day, twice);
    } else {
      assert day in once;
      KeyOrder(once);
      Seqs.RemoveKeepsSorted(once, day, DayKey);
      InsertThenRemove(days, day, once, twice);
    }
    KeyOrder(twice);
    Seqs.SortedUnique(twice, days);
  }

  /** Whatever the order, toggling twice restores the selected days. */
  lemma ToggleTwiceSameDays(days: seq<DayOfMonth>, day: DayOfMonth)
    ensures forall d :: d in ToggleDay(ToggleDay(days, day), day) <==> d in days
  {
  }

  lemma RemoveThenInsert(days: seq<DayOfMonth>, day: DayOfMonth, s: seq<DayOfMonth>)
    requires day in days && Seqs.DistinctBy(days, DayKey)
    requires s == Seqs.SortBy(Seqs.Remove(days, day) + [day], DayKey)
    ensures multiset(s) == multiset(days)
  {
    var once := Seqs.Remove(days, day);
    Seqs.AtMostOnce(days, DayKey, day);
    assert multiset(once + [day]) == multiset(once) + multiset{day};
    forall y
      ensures multiset(s)[y] == multiset(days)[y]
    {
      if y == day {
        assert multiset(days)[y] == 1;
      }
    }
    assert multiset(s) == multiset(days);
  }

  lemma InsertThenRemove(days: seq<DayOfMonth>, day: DayOfMonth, once: seq<DayOfMonth>, s: seq<DayOfMonth>)
    requires day !in days
    requires multiset(once) == multiset(days + [day]) && s == Seqs.Remove(once, day)
    ensures multiset(s) == multiset(days)
  {
    assert multiset(days + [day]) == multiset(days) + multiset{day};
    forall y
      ensures multiset(s)[y] == multiset(days)[y]
    {
      if y == day {
        assert day !in multiset(days);
      }
    }
    assert multiset(s) == multiset(days);
  }
}

=== FILE: sourcesRoute.dfy ===
/** The create handler of the income-source route
    (src/app/api/income/sources/route.ts, POST): who may call it, the checks
    it makes on the JSON body, and the row it stores. */
module SourcesRoute {
  import opened Wrappers
  import opened Calendar
  import opened PaymentCalculator
  import opened Income
  import SourceForm
  import Text

  /** A JSON field that may be left out, sent as `null`, or sent with a
      value; the route tells the first two apart only for the weekday. */
  datatype Json<T> = Absent | Null | Value(value: T)

  /** The JSON body. A string field that is absent, `null` or `""` is the
      empty string here (all three are falsy); every other field that is
      absent or `null` is `None`. */
  datatype SourceBody = SourceBody(
    name: string,
    category: string,
    description: Option<string>,
    frequency: Option<Frequency>,
    amount: Option<real>,
    days: Option<seq<DayOfMonth>>,
    weekday: Json<Weekday>,
    week: Option<ScheduleWeek>,
    time: Option<ClockTime>,
    useManualAmounts: Option<bool>,
    dayAmounts: Option<map<int, real>>)

  /** The created row: the text columns the calculator never reads, and the
      source itself. */
  datatype StoredSource = StoredSource(name: string, category: string, description: Option<string>, source: Source)

  datatype Response =
    | Unauthorized
    | UserNotFound
    | BadRequest(error: string)
    | Created(row: StoredSource)

  const FieldsRequired: string := "Name, category, frequency, and amount are required"
  const AmountPositive: string := "Amount must be greater than 0"
  const MonthlyDaysRequired: string := "Monthly payments require at least one scheduled day"
  const WeekdayRequired: string := "Weekly and bi-weekly payments require a scheduled weekday"
  const WeekRequired: string := "Bi-weekly payments require a scheduled week of the month"

  // ---------------------------------------------------------------------------
  // The checks, in the order the handler makes them

  /** `!amount`: missing, or the number 0. */
  predicate AmountFalsy(a: Option<real>) {
    a.None? || a.value == 0.0
  }

  predicate MissingField(b: SourceBody) {
    b.name == [] || b.category == [] || b.frequency.None? || AmountFalsy(b.amount)
  }

  predicate NonPositive(b: SourceBody)
    requires !MissingField(b)
  {
    b.amount.value <= 0.0
  }

  /** `!scheduleDays || scheduleDays.length === 0` on a monthly body. */
  predicate DaysMissing(b: SourceBody)
    requires !MissingField(b)
  {
    b.frequency.value == Monthly && (b.days.None? || |b.days.value| == 0)
  }

  /** `scheduleWeekday === undefined`: only a weekday left out is missing;
      `null` passes. */
  predicate WeekdayMissing(b: SourceBody)
    requires !MissingField(b)
  {
    (b.frequency.value == Weekly || b.frequency.value == Biweekly) && b.weekday.Absent?
  }

  predicate WeekMissing(b: SourceBody)
    requires !MissingField(b)
  {
    b.frequency.value == Biweekly && b.week.None?
  }

  /** The first failing check's message, or `None` when the body passes. */
  function ValidationError(b: SourceBody): (r: Option<string>)
    ensures r.None? <==>
      !MissingField(b) && !NonPositive(b) && !DaysMissing(b) && !WeekdayMissing(b) && !WeekMissing(b)
    ensures r == Some(FieldsRequired) <==> MissingField(b)
    ensures r == Some(AmountPositive) <==> !MissingField(b) && NonPositive(b)
    ensures r == Some(MonthlyDaysRequired) <==> !MissingField(b) && !NonPositive(b) && DaysMissing(b)
    ensures r == Some(WeekdayRequired) <==>
      !MissingField(b) && !NonPositive(b) && !DaysMissing(b) && WeekdayMissing(b)
    ensures r == Some(WeekRequired) <==>
      !MissingField(b) && !NonPositive(b) && !DaysMissing(b) && !WeekdayMissing(b) && WeekMissing(b)
  {
    if b.name == [] || b.category == [] || b.frequency.None? || AmountFalsy(b.amount) then Some(FieldsRequired)
    else if b.amount.value <= 0.0 then Some(AmountPositive)
    else if b.frequency.value != OneTime then
      if b.frequency.value == Monthly && (b.days.None? || |b.days.value| == 0) then Some(MonthlyDaysRequired)
      else if (b.frequency.value == Weekly || b.frequency.value == Biweekly) && b.weekday.Absent? then Some(WeekdayRequired)
      else if b.frequency.value == Biweekly && b.week.None? then Some(WeekRequired)
      else None
    else None
  }

  // ---------------------------------------------------------------------------
  // The stored row

  /** `scheduleWeekday !== undefined ? scheduleWeekday : null`. */
  function StoredWeekday(w: Json<Weekday>): (r: Option<Weekday>)
    ensures r.Some? <==> w.Value?
    ensures r.Some? ==> r.value == w.value
  {
    match w
    case Value(d) => Some(d)
    case _ => None
  }

  /** The row `create` writes for a body that passed the checks. The route
      does not pass `isActive`, so the column's default (active) applies; a
      `null` day list is read back as no days. */
  function StoredRow(b: SourceBody, userId: nat, newId: nat): (row: StoredSource)
    requires ValidationError(b).None?
    ensures row.name == b.name && row.category == b.category && row.description == b.description
    ensures row.source.id == newId && row.source.userId == userId
    ensures row.source.frequency == b.frequency.value && row.source.amount == b.amount.value
    ensures row.source.amount > 0.0 && row.source.isActive && row.source.nextPaymentDate.None?
    ensures b.days.Some? ==> row.source.days == b.days.value
    ensures b.days.None? ==> row.source.days == []
    ensures row.source.weekday == StoredWeekday(b.weekday)
    ensures row.source.week == b.week && row.source.time == b.time && row.source.dayAmounts == b.dayAmounts
    ensures row.source.useManualAmounts <==> b.useManualAmounts == Some(true)
  {
    StoredSource(b.name, b.category, b.description,
      Source(newId, userId, b.frequency.value, b.amount.value, true,
        b.days.GetOr([]), StoredWeekday(b.weekday), b.week, b.time,
        b.useManualAmounts.GetOr(false), b.dayAmounts, None))
  }

  /** Signed in: the session carries a non-empty e-mail. */
  predicate SignedIn(email: Option<string>) {
    email.Some? && email.value != []
  }

  /** POST: 401 without a signed-in e-mail, 404 when no user has it, 400 with
      the first failing check's message, otherwise 201 with the new row.
      `users` maps e-mail addresses to user ids; `newId` is the id the
      database assigns. */
  function Post(email: Option<string>, users: map<string, nat>, b: SourceBody, newId: nat): (r: Response)
    ensures r.Unauthorized? <==> !SignedIn(email)
    ensures r.UserNotFound? <==> SignedIn(email) && email.value !in users
    ensures r.BadRequest? <==>
      SignedIn(email) && email.value in users && ValidationError(b).Some?
    ensures r.BadRequest? ==> Some(r.error) == ValidationError(b)
    ensures r.Created? ==>
      SignedIn(email) && email.value in users && ValidationError(b).None?
      && r.row == StoredRow(b, users[email.value], newId)
  {
    if !SignedIn(email) then Unauthorized
    else if email.value !in users then UserNotFound
    else match ValidationError(b)
      case Some(e) => BadRequest(e)
      case None => Created(StoredRow(b, users[email.value], newId))
  }

  /** A created monthly source has a payment day, a created weekly or
      bi-weekly one had its weekday sent (possibly as `null`), a created
      bi-weekly one has its week. */
  lemma CreatedSchedules(email: Option<string>, users: map<string, nat>, b: SourceBody, newId: nat)
    requires Post(email, users, b, newId).Created?
    ensures var s := Post(email, users, b, newId).row.source;
      (s.frequency == Monthly ==> |s.days| > 0)
      && (s.frequency == Biweekly ==> s.week.Some?)
      && s.amount > 0.0 && Scheduled(s) == (s.frequency != OneTime)
  {
  }

  // ---------------------------------------------------------------------------
  // The route against the form that feeds it

  /** The category as the form's select sends it. */
  function CategoryName(c: SourceForm.Category): (s: string)
    ensures |s| > 0
  {
    match c
    case Salary => "SALARY"
    case Freelance => "FREELANCE"
    case Business => "BUSINESS"
    case Investment => "INVESTMENT"
    case Rental => "RENTAL"
    case Pension => "PENSION"
    case Benefits => "BENEFITS"
    case Other => "OTHER"
  }

  /** The JSON the form's state serialises to: an unset weekday is left out
      of the object. The schedule time string is parsed elsewhere and is
      passed in as `time`. */
  function ToBody(f: SourceForm.FormData, time: Option<ClockTime>): (b: SourceBody)
    ensures b.name == f.name && b.frequency == Some(f.frequency) && b.amount == Some(f.amount)
    ensures b.days == Some(f.days) && b.week == f.week && b.time == time
    ensures b.weekday.Absent? <==> f.weekday.None?
    ensures f.weekday.Some? ==> b.weekday == Value(f.weekday.value)
  {
    SourceBody(f.name, CategoryName(f.category), Some(f.description), Some(f.frequency), Some(f.amount),
      Some(f.days), if f.weekday.None? then Absent else Value(f.weekday.value), f.week, time,
      Some(f.useManualAmounts), Some(f.dayAmounts))
  }

  /** Every form that passes its own validation is accepted by the route,
      and the stored schedule is the form's. */
  lemma ValidFormAccepted(f: SourceForm.FormData, time: Option<ClockTime>, email: Option<string>,
                          users: map<string, nat>, newId: nat)
    requires SourceForm.ValidateForm(f)
    requires SignedIn(email) && email.value in users
    ensures Post(email, users, ToBody(f, time), newId).Created?
    ensures var s := Post(email, users, ToBody(f, time), newId).row.source;
      s.frequency == f.frequency && s.amount == f.amount && s.days == f.days
      && s.weekday == f.weekday && s.week == f.week && s.useManualAmounts == f.useManualAmounts
      && s.dayAmounts == Some(f.dayAmounts)
  {
    FormBodyPasses(f, time);
    var b := ToBody(f, time);
    assert StoredWeekday(b.weekday) == f.weekday;
  }

  lemma FormBodyPasses(f: SourceForm.FormData, time: Option<ClockTime>)
    requires SourceForm.ValidateForm(f)
    ensures ValidationError(ToBody(f, time)).None?
  {
    CompleteBodyPasses(ToBody(f, time));
  }

  /** A body with every required field, a positive amount and the schedule
      fields its frequency needs passes the checks. */
  lemma CompleteBodyPasses(b: SourceBody)
    requires b.name != [] && b.category != [] && b.frequency.Some? && b.amount.Some? && b.amount.value > 0.0
    requires b.frequency.value == Monthly ==> b.days.Some? && |b.days.value| > 0
    requires b.frequency.value == Weekly || b.frequency.value == Biweekly ==> !b.weekday.Absent?
    requires b.frequency.value == Biweekly ==> b.week.Some?
    ensures ValidationError(b).None?
  {
  }

  /** The route is more lenient than the form: a name of spaces only is
      refused by the form and stored by the route. */
  lemma BlankNameOnlyFormRejects(f: SourceForm.FormData, email: Option<string>, users: map<string, nat>, newId: nat)
    requires f.name == " " && f.amount > 0.0 && f.frequency == OneTime
    requires SignedIn(email) && email.value in users
    ensures !SourceForm.ValidateForm(f)
    ensures Post(email, users, ToBody(f, None), newId).Created?
  {
    BlankNameFormRejected(f);
    SpaceNameBodyPasses(ToBody(f, None));
  }

  lemma BlankNameFormRejected(f: SourceForm.FormData)
    requires f.name == " "
    ensures !SourceForm.ValidateForm(f)
  {
    assert Text.IsSpace(f.name[0]);
  }

  lemma SpaceNameBodyPasses(b: SourceBody)
    requires b.name == " " && b.category != [] && b.frequency == Some(OneTime)
    requires b.amount.Some? && b.amount.value > 0.0
    ensures ValidationError(b).None?
  {
  }

  /** A weekly body whose weekday is `null` passes the checks; the stored
      source then has no weekday and the calculator never schedules it. */
  lemma NullWeekdayStoredUnscheduled(email: Option<string>, users: map<string, nat>, b: SourceBody, newId: nat,
                                     from: Instant)
    requires SignedIn(email) && email.value in users
    requires b.name != [] && b.category != [] && b.frequency == Some(Weekly)
    requires b.amount.Some? && b.amount.value > 0.0 && b.weekday == Null
    ensures Post(email, users, b, newId).Created?
    ensures var s := Post(email, users, b, newId).row.source;
      s.weekday.None? && NextPaymentDate(CalculatorConfig(s), from).None?
  {
  }

  /** A weekly body with Sunday (0) is stored as Sunday, which the
      calculator's callers turn into no weekday: the source never pays. */
  lemma SundayWeekdayStoredUnscheduled(email: Option<string>, users: map<string, nat>, b: SourceBody, newId: nat,
                                       from: Instant)
    requires SignedIn(email) && email.value in users
    requires b.name != [] && b.category != [] && b.frequency == Some(Weekly)
    requires b.amount.Some? && b.amount.value > 0.0 && b.weekday == Value(0)
    ensures Post(email, users, b, newId).Created?
    ensures var s := Post(email, users, b, newId).row.source;
      s.weekday == Some(0) && NextPaymentDate(CalculatorConfig(s), from).None?
  {
    SundaySourceNeverPays(Post(email, users, b, newId).row.source, from, 0);
  }
}

=== FILE: sums.dfy ===
/** Sums of amounts: a count of equal amounts added up, and the values of
    a map from integer keys (`Object.values(m)` reduced with `+`). */
module Sums {

  /** `amount` added up k times, the way the route's loop accumulates it. */
  function Times(k: nat, amount: real): real {
    if k == 0 then 0.0 else Times(k - 1, amount) + amount
  }

  /** Adding an amount k times is multiplying it by k. */
  lemma {:induction false} TimesIsProduct(k: nat, amount: real)
    ensures Times(k, amount) == k as real * amount
  {
    if k > 0 {
      TimesIsProduct(k - 1, amount);
      assert (k - 1) as real * amount + amount == k as real * amount;
    }
  }

  lemma {:induction false} TimesMonotone(a: nat, b: nat, amount: real)
    requires a <= b && amount >= 0.0
    ensures 0.0 <= Times(a, amount) <= Times(b, amount)
    decreases b
  {
    if b > a {
      TimesMonotone(a, b - 1, amount);
    } else if a > 0 {
      TimesMonotone(a - 1, a - 1, amount);
    }
  }

  /** Some element of a non-empty set. */
  lemma Pick(k: set<int>) returns (x: int)
    requires |k| > 0
    ensures x in k
  {
    if forall y :: y !in k {
      assert false;
    }
    x :| x in k;
  }

  lemma HasMin(k: set<int>)
    requires |k| > 0
    ensures exists m :: m in k && forall j :: j in k ==> m <= j
    decreases |k|
  {
    var x := Pick(k);
    if |k| > 1 {
      var rest := k - {x};
      assert |rest| == |k| - 1;
      HasMin(rest);
      var m :| m in rest && forall j :: j in rest ==> m <= j;
      var least := if x < m then x else m;
      forall j | j in k
        ensures least <= j
      {
        if j != x {
          assert j in rest;
        }
      }
    } else {
      assert k == {x} by {
        assert |k - {x}| == |k| - 1 == 0;
        assert k - {x} == {};
      }
      forall j | j in k
        ensures x <= j
      {
        if j != x {
          assert false;
        }
      }
    }
  }

  /** The smallest key of a non-empty map. */
  function MinKey(m: map<int, real>): (k: int)
    requires |m| > 0
    ensures k in m && forall j :: j in m ==> k <= j
  {
    assert |m.Keys| == |m|;
    HasMin(m.Keys);
    var k :| k in m && forall j :: j in m ==> k <= j;
    k
  }

  /** `Object.values(m).reduce((sum, v) => sum + (v || 0), 0)`; the sum is
      taken smallest key first, the order JavaScript lists integer keys. */
  function MapSum(m: map<int, real>): real
    decreases |m|
  {
    if |m| == 0 then 0.0
    else
      var k := MinKey(m);
      assert |m - {k}| < |m| by {
        assert (m - {k}).Keys == m.Keys - {k};
      }
      m[k] + MapSum(m - {k})
  }

  /** Any key can be taken out of the sum first. */
  lemma {:induction false} MapSumRemove(m: map<int, real>, k: int)
    requires k in m
    ensures MapSum(m) == m[k] + MapSum(m - {k})
    decreases |m|
  {
    var least := MinKey(m);
    if least != k {
      var rest := m - {least};
      assert (m - {k}).Keys == m.Keys - {k};
      assert rest.Keys == m.Keys - {least};
      MapSumRemove(rest, k);
      assert rest - {k} == (m - {k}) - {least};
      MapSumRemove(m - {k}, least);
    }
  }

  /** Writing one entry shifts the sum by the difference. */
  lemma MapSumUpdate(m: map<int, real>, k: int, v: real)
    ensures MapSum(m[k := v]) == MapSum(m) - (if k in m then m[k] else 0.0) + v
  {
    var n := m[k := v];
    MapSumRemove(n, k);
    assert n - {k} == m - {k};
    if k in m {
      MapSumRemove(m, k);
    } else {
      assert m - {k} == m;
    }
  }

  /** A map holding one value throughout sums to its size times that
      value. */
  lemma {:induction false} MapSumConstant(m: map<int, real>, v: real)
    requires forall k :: k in m ==> m[k] == v
    ensures MapSum(m) == Times(|m|, v)
    decreases |m|
  {
    if |m| > 0 {
      var least := MinKey(m);
      var rest := m - {least};
      assert rest.Keys == m.Keys - {least};
      assert |rest.Keys| == |m.Keys| - 1;
      MapSumConstant(rest, v);
      assert |m| == |rest| + 1;
    }
  }
}

=== FILE: text.dfy ===
/** The string operations the forms apply: `String.prototype.trim` and the
    regular-expression classes `\s` and `\S`, over characters (Unicode scalar values). */
module Text {

  /** The characters `trim` removes and `\s` matches: the ECMAScript
      WhiteSpace and LineTerminator code points. */
  predicate IsSpace(c: char) {
    var n := c as int;
    (0x09 <= n <= 0x0D) || n == 0x20 || n == 0xA0 || n == 0x1680 || (0x2000 <= n <= 0x200A)
    || n == 0x2028 || n == 0x2029 || n == 0x202F || n == 0x205F || n == 0x3000 || n == 0xFEFF
  }

  /** Nothing but white space (the empty string included). */
  predicate Blank(s: string) {
    forall i :: 0 <= i < |s| ==> IsSpace(s[i])
  }

  /** The string without its leading white space. */
  function TrimStart(s: string): (r: string)
    ensures |r| <= |s| && r == s[|s| - |r|..]
    ensures Blank(s[..|s| - |r|])
    ensures |r| > 0 ==> !IsSpace(r[0])
  {
    if |s| == 0 || !IsSpace(s[0]) then s
    else
      var rest := TrimStart(s[1..]);
      assert s[..|s| - |rest|] == [s[0]] + s[1..][..|s| - 1 - |rest|];
      rest
  }

  /** The string without its trailing white space. */
  function TrimEnd(s: string): (r: string)
    ensures |r| <= |s| && r == s[..|r|]
    ensures Blank(s[|r|..])
    ensures |r| > 0 ==> !IsSpace(r[|r| - 1])
  {
    if |s| == 0 || !IsSpace(s[|s| - 1]) then s
    else
      var rest := TrimEnd(s[..|s| - 1]);
      assert s[|rest|..] == s[..|s| - 1][|rest|..] + [s[|s| - 1]];
      rest
  }

  /** `s.trim()`: s without its leading and its trailing white space. */
  function Trim(s: string): (r: string)
    ensures |r| <= |s|
    ensures r == [] <==> Blank(s)
    ensures |r| > 0 ==> !IsSpace(r[0]) && !IsSpace(r[|r| - 1])
    // r is a slice of s with only white space cut off either end.
    ensures exists i, j :: 0 <= i <= j <= |s| && r == s[i..j] && Blank(s[..i]) && Blank(s[j..])
  {
    var a := TrimStart(s);
    var r := TrimEnd(a);
    TrimStartEmpty(s);
    TrimEndEmpty(a);
    TrimIsSlice(s, a, r);
    r
  }

  lemma TrimIsSlice(s: string, a: string, r: string)
    requires |a| <= |s| && a == s[|s| - |a|..] && Blank(s[..|s| - |a|])
    requires |r| <= |a| && r == a[..|r|] && Blank(a[|r|..])
    ensures exists i, j :: 0 <= i <= j <= |s| && r == s[i..j] && Blank(s[..i]) && Blank(s[j..])
  {
    var i := |s| - |a|;
    var j := i + |r|;
    assert r == s[i..j];
    assert s[j..] == a[|r|..];
  }

  /** Blankness splits at any point. */
  lemma BlankSplit(s: string, i: nat)
    requires i <= |s|
    ensures Blank(s) <==> Blank(s[..i]) && Blank(s[i..])
  {
    if Blank(s[..i]) && Blank(s[i..]) {
      forall k | 0 <= k < |s|
        ensures IsSpace(s[k])
      {
        if k < i {
          assert s[k] == s[..i][k];
        } else {
          assert s[k] == s[i..][k - i];
        }
      }
    }
  }

  lemma TrimStartEmpty(s: string)
    ensures TrimStart(s) == [] <==> Blank(s)
    ensures Blank(TrimStart(s)) <==> Blank(s)
  {
    var r := TrimStart(s);
    BlankSplit(s, |s| - |r|);
    if r != [] {
      assert !IsSpace(r[0]);
    }
  }

  lemma TrimEndEmpty(s: string)
    ensures TrimEnd(s) == [] <==> Blank(s)
  {
    var r := TrimEnd(s);
    BlankSplit(s, |r|);
    if r != [] {
      assert !IsSpace(r[|r| - 1]);
    }
  }

  /** The regular-expression class `\S`. */
  predicate NonSpace(c: char) {
    !IsSpace(c)
  }
}

=== FILE: wrappers.dfy ===
/** Optional values, used for the fields the TypeScript source declares with `?`
    and for the functions that return `Date | null`; results, for the route
    steps that either go on or answer with an error. */
module Wrappers {

  datatype Option<+T> = None | Some(value: T) {

    /** The value, or `default` when absent (the source's `x ?? default`). */
    function GetOr(default: T): T {
      match this
      case Some(v) => v
      case None => default
    }
  }

  datatype Result<+T, +E> = Success(value: T) | Failure(error: E)
}
